=== FILE: README.md ===
# slf4j-toys core, modelled in Dafny

This project models the sequential logic of slf4j-toys, a library that logs
the life cycle of application operations ("meters") as SLF4J messages and can
read those messages back. It covers five groups:

- **The legacy wire codec** (`br.com…profiler.internal`). `MessageWriter`
  renders `name=v1|v2;name2=v` text and quoted strings. `EventReader` is the
  hand-written cursor parser for that text. A `Reader` value is its whole
  state, and every read returns a `Result`. `EventData` holds the
  property-by-property read loop and `write`. `RoundTrip` proves what reads
  back and what does not. The seven remaining `Syntax` characters (quote,
  map and data delimiters) and Java's identifier predicates are abstract
  fields of an `Alphabet` record (module `Syntax`). `;`, `=`, `|` and `"` are
  constants, pinned by the writer's tests.
- **The operation record** (`MeterData`): the full id, the status predicates,
  the elapsed times against an explicit clock and the status label. It also
  covers property write/read: writing is a list of properties, and reading is
  a fold over such a list.
- **The operation tracker, in two generations** (`Meter` for the current
  `org.usefultoys` class, `LegacyMeter` for the `br.com` one). Each has its
  own state record, and each transition is a pure function. A transition
  takes the clock reading `now` and the logger threshold. It returns the new
  state and the logger calls it made, as (level, marker) values from
  `Logging`. The per-key ordinal counter is an explicit registry
  (`Counters`). The thread's current meter is an explicit `Option<Ref>`.
- **Configuration parsing** (`Session`): the duration property with unit
  suffixes, the int/long/boolean fallbacks, and the default watcher's handle
  state.
- **Watcher events** (`WatcherEvent`): `reset`, `equals`, `hashCode` and
  `toString` over (uuid, counter, time).

Java `long`/`int` parsing, printing and wrap-around live in `Text`.
`Wrappers` has `Option` and `Result`.

Where a quirk of the code matters, the model does what the code does:
- `readString` never clears its first-value flag;
- `readMap`'s flag test is inverted;
- `readMap` reads past a value without a bounds check;
- the legacy `progress` logs under the OK marker;
- `incTo` still assigns a non-forward value.

The three places where the code evidently does not do what was meant are
listed under Findings. Each is modelled as written and beside a corrected
version.

## Model

| member | source | states |
|---|---|---|
| EventReader.Reset | slf4j-toys/src/main/java/br/com/danielferber/slf4jtoys/slf4j/profiler/internal/EventReader.java:54-66 | the cursor is at 0 with both first-flags set, and input remains exactly when the text is non-empty |
| EventReader.ReadOperator | slf4j-toys/src/main/java/br/com/danielferber/slf4jtoys/slf4j/profiler/internal/EventReader.java:175-183 | end of input fails with end-of-input; another character fails with "expected: op"; success (exactly when the next character is op) advances the cursor by one |
| EventReader.IdentifierEnd | slf4j-toys/src/main/java/br/com/danielferber/slf4jtoys/slf4j/profiler/internal/EventReader.java:90-97 | the scan stops at the first non-identifier-part character or the end, and everything it passed is an identifier part |
| EventReader.ReadPropertyName | slf4j-toys/src/main/java/br/com/danielferber/slf4jtoys/slf4j/profiler/internal/EventReader.java:74-102 | every name but the first needs a ';'; no input left is end-of-input; a bad first character is "invalid identifier"; an identifier start always reads; a success is the longest identifier at the cursor, the cursor is just past it, and the value flag is reset |
| EventReader.ValueEnd | slf4j-toys/src/main/java/br/com/danielferber/slf4jtoys/slf4j/profiler/internal/EventReader.java:116-128 | a value ends at the first '\|' or ';' that no quote escapes (an odd run of quote characters right before it escapes it), or at the end of input; it fails exactly when a final unpaired quote escapes the end |
| EventReader.EscapedDivKept | slf4j-toys/src/main/java/br/com/danielferber/slf4jtoys/slf4j/profiler/internal/EventReader.java:116-128 | a '\|' right after a quote does not end the value: the read keeps quote and '\|' in the value and runs on to the end |
| EventReader.ReadString | slf4j-toys/src/main/java/br/com/danielferber/slf4jtoys/slf4j/profiler/internal/EventReader.java:104-133 | consumes '=' or '\|' by the flag, then returns the raw text, escapes kept, up to the first '\|' or ';' that no quote escapes, or the end; it fails only on the operator or at end of input: no text after the operator, or a final unpaired quote with no stop before it, and exactly then; neither flag ever changes |
| EventReader.ReadLong | slf4j-toys/src/main/java/br/com/danielferber/slf4jtoys/slf4j/profiler/internal/EventReader.java:135-141 | string failures propagate; text that is not a 64-bit decimal is "invalid long"; text that is one always reads, to the value it parses to |
| EventReader.ReadLongOrZero | slf4j-toys/src/main/java/br/com/danielferber/slf4jtoys/slf4j/profiler/internal/EventReader.java:143-153 | the empty string gives 0; anything else is read as by `ReadLong` |
| RoundTrip.NumeralStep | slf4j-toys/src/main/java/br/com/danielferber/slf4jtoys/slf4j/profiler/internal/EventReader.java:135-153 | after the operator, the `Long.toString` text of any long reads back as that long, by both `readLong` and `readLongOrZero` |
| EventReader.ReadMap | slf4j-toys/src/main/java/br/com/danielferber/slf4jtoys/slf4j/profiler/internal/EventReader.java:235-257 | the operator test is inverted; MAP_OPEN is required; an immediate MAP_CLOSE gives the empty map with the cursor on it; a non-empty map is never returned unless MAP_EQUAL is a value stop |
| EventReader.ReadEntries | slf4j-toys/src/main/java/br/com/danielferber/slf4jtoys/slf4j/profiler/internal/EventReader.java:258-275 | a successful read ends just past a MAP_CLOSE; whenever MAP_EQUAL is not itself '\|' or ';' the read fails, because a key read stops only at '\|', ';' or the end |
| EventReader.ReadEntry | slf4j-toys/src/main/java/br/com/danielferber/slf4jtoys/slf4j/profiler/internal/EventReader.java:260-262 | one `key MAP_EQUAL value` entry; it fails whenever MAP_EQUAL is not itself '\|' or ';' |
| EventReader.MapPropertyRejected | slf4j-toys/src/main/java/br/com/danielferber/slf4jtoys/slf4j/profiler/internal/EventReader.java:236-242 | after a property name, `name={}` is rejected because the map read expects '\|' |
| MessageWriter.Reset | slf4j-toys/src/main/java/br/com/danielferber/slf4jtoys/slf4j/profiler/internal/LoggerMessageWriter.java:24-28 | the first-property flag is set and output goes to the given builder |
| MessageWriter.Escape | slf4j-toys/src/main/java/br/com/danielferber/slf4jtoys/slf4j/profiler/internal/LoggerMessageWriter.java:32 | the escaped text grows by one character per '"' |
| MessageWriter.UnescapeEscape | slf4j-toys/src/main/java/br/com/danielferber/slf4jtoys/slf4j/profiler/internal/LoggerMessageWriter.java:32 | undoing the `\"` replacement gives the original string back |
| MessageWriter.WriteQuotedString | slf4j-toys/src/main/java/br/com/danielferber/slf4jtoys/slf4j/profiler/internal/LoggerMessageWriter.java:30-35 | appends '"', the escaped text, '"'; the length grows by \|s\| + 2 + the number of '"'; earlier output and the flag are kept; the middle unescapes to s |
| MessageWriter.OpenData | slf4j-toys/src/main/java/br/com/danielferber/slf4jtoys/slf4j/profiler/internal/LoggerMessageWriter.java:37-41 | appends the prefix character, then DATA_OPEN; earlier output and the flag are kept |
| MessageWriter.CloseData | slf4j-toys/src/main/java/br/com/danielferber/slf4jtoys/slf4j/profiler/internal/LoggerMessageWriter.java:43-46 | appends DATA_CLOSE; earlier output and the flag are kept |
| MessageWriter.SplitJoin | slf4j-toys/src/main/java/br/com/danielferber/slf4jtoys/slf4j/profiler/internal/LoggerMessageWriter.java:85-131 | values joined with '\|' split back into the same values, in order, when none contains '\|' |
| MessageWriter.Property | slf4j-toys/src/main/java/br/com/danielferber/slf4jtoys/slf4j/profiler/internal/LoggerMessageWriter.java:73-131 | the builder only grows, keeping what was there and adding at least the name; the first-property flag is cleared |
| MessageWriter.PropertyLayout | slf4j-toys/src/main/java/br/com/danielferber/slf4jtoys/slf4j/profiler/internal/LoggerMessageWriter.java:73-131 | one to four values: the builder only grows, by a ';' unless first, the name, '=' and text that splits on '\|' back into the values when none holds '\|'; the flag is cleared |
| MessageWriter.PropertyLong | slf4j-toys/src/main/java/br/com/danielferber/slf4jtoys/slf4j/profiler/internal/LoggerMessageWriter.java:48-66 | long overloads write the decimal texts through the string overload; the texts split back apart and each parses to its value |
| RoundTrip.PropertyLongReadsBack | slf4j-toys/src/main/java/br/com/danielferber/slf4jtoys/slf4j/profiler/internal/LoggerMessageWriter.java:48-83 | what the `long` overload of `property` writes reads back through `readPropertyName` and `readLong` as the same name and number, ending where the writer stopped |
| MessageWriter.WriteAllTail | slf4j-toys/src/main/java/br/com/danielferber/slf4jtoys/slf4j/profiler/internal/LoggerMessageWriter.java:73-78 | after the first property, every property is preceded by exactly one ';' |
| MessageWriter.WriteAllRenders | slf4j-toys/src/test/java/br/com/danielferber/slf4jtoys/slf4j/profiler/internal/LoggerMessageWriterTest.java:105-139 | a fresh writer appends exactly the reference rendering of the property list: the first with no separator, each later one after one ';'; the flag stays set only for an empty list |
| EventData.ReadLoop | slf4j-toys/src/main/java/br/com/danielferber/slf4jtoys/slf4j/profiler/internal/EventData.java:67-73 | name and property errors propagate; an unrecognised name fails with "unknown property"; success only with all input consumed |
| EventData.Read | slf4j-toys/src/main/java/br/com/danielferber/slf4jtoys/slf4j/profiler/internal/EventData.java:58-74 | no plausible message gives false with the event untouched; otherwise the loop starts from the reset event, over the whole message, and true means it succeeded |
| EventData.ReadFixed | slf4j-toys/src/main/java/br/com/danielferber/slf4jtoys/slf4j/profiler/internal/EventData.java:58-74 | the corrected `read`: as `Read`, but the reader runs over the extracted text, not the whole message |
| EventData.Write | slf4j-toys/src/main/java/br/com/danielferber/slf4jtoys/slf4j/profiler/internal/EventData.java:32-38 | appends the prefix character and DATA_OPEN, the reference rendering of the properties, and DATA_CLOSE to the builder |
| RoundTrip.NameStep | slf4j-toys/src/main/java/br/com/danielferber/slf4jtoys/slf4j/profiler/internal/EventReader.java:74-102 | on writer output, the name read is exactly the identifier the writer put there |
| RoundTrip.ValueStep | slf4j-toys/src/main/java/br/com/danielferber/slf4jtoys/slf4j/profiler/internal/EventReader.java:104-133 | on writer output, the value read is exactly the clean value the writer put there |
| RoundTrip.ReadPairsFrom | slf4j-toys/src/main/java/br/com/danielferber/slf4jtoys/slf4j/profiler/internal/EventData.java:64-73 | the read loop over rendered single-valued properties collects exactly the written pairs, in order |
| RoundTrip.SinglesRoundTrip | slf4j-toys/src/main/java/br/com/danielferber/slf4jtoys/slf4j/profiler/internal/LoggerMessageWriter.java:73-83 | single-valued properties (identifier names, non-empty values free of '\|', ';' and quote) read back pair by pair, consuming the whole text |
| RoundTrip.MultiValuedLineDoesNotParse | slf4j-toys/src/main/java/br/com/danielferber/slf4jtoys/slf4j/profiler/internal/EventReader.java:105-110 | as written, after the first value of a multi-valued property the reader still expects '=' and fails on '\|' |
| RoundTrip.ReadStringFixedAgrees | slf4j-toys/src/main/java/br/com/danielferber/slf4jtoys/slf4j/profiler/internal/EventReader.java:104-110 | the corrected read returns what `ReadString` returns but leaves the reader expecting '\|' |
| RoundTrip.MultiValuedRoundTripFixed | slf4j-toys/src/main/java/br/com/danielferber/slf4jtoys/slf4j/profiler/internal/LoggerMessageWriter.java:85-131 | with the corrected read, a property of one to four clean values reads back value by value up to the end |
| RoundTrip.ReadOwnOutputFails | slf4j-toys/src/main/java/br/com/danielferber/slf4jtoys/slf4j/profiler/internal/EventData.java:58-66 | as written, `read` fails on what `write` produced, because the reader starts on the prefix character |
| RoundTrip.ReadFixedRoundTrip | slf4j-toys/src/main/java/br/com/danielferber/slf4jtoys/slf4j/profiler/internal/EventData.java:58-74 | reading the extracted text instead gives true and exactly the written pairs |
| MeterData.FullId | slf4j-toys/src/main/java/org/usefultoys/slf4j/meter/MeterData.java:105-110 | position by position: the category, '/', then the decimal position when there is no name, or the name, '#' and the position |
| MeterData.FullIdParses | slf4j-toys/src/main/java/org/usefultoys/slf4j/meter/MeterData.java:105-110 | splitting the id after `category/` at its last '#' gives back the name and the position, whatever characters the name holds |
| MeterData.FullIdDistinguishesPositions | slf4j-toys/src/main/java/org/usefultoys/slf4j/meter/MeterData.java:105-110 | two records differing only in position have different ids |
| MeterData.OutcomeClassification | slf4j-toys/src/main/java/org/usefultoys/slf4j/meter/MeterData.java:164-182 | OK excludes reject and fail; a stopped record is OK, rejected or failed; an unstopped one is none of these and not slow |
| MeterData.IsOK | slf4j-toys/src/main/java/org/usefultoys/slf4j/meter/MeterData.java:172-174 | OK implies stopped, not rejected and not failed |
| MeterData.IsReject | slf4j-toys/src/main/java/org/usefultoys/slf4j/meter/MeterData.java:176-178 | rejected implies stopped |
| MeterData.IsFail | slf4j-toys/src/main/java/org/usefultoys/slf4j/meter/MeterData.java:180-182 | failed implies stopped |
| MeterData.IsSlow | slf4j-toys/src/main/java/org/usefultoys/slf4j/meter/MeterData.java:397-399 | slow implies started, stopped, a non-zero limit and an execution time above it |
| MeterData.ExecutionTime | slf4j-toys/src/main/java/org/usefultoys/slf4j/meter/MeterData.java:401-408 | 0 before the start; stop minus start once stopped; now minus start in between |
| MeterData.WaitingTime | slf4j-toys/src/main/java/org/usefultoys/slf4j/meter/MeterData.java:410-415 | start minus creation once started, else now minus creation |
| MeterData.WaitingPlusExecution | slf4j-toys/src/main/java/org/usefultoys/slf4j/meter/MeterData.java:401-415 | once started, waiting plus execution spans from creation to the stop, or to now |
| MeterData.SlowMeansOverLimit | slf4j-toys/src/main/java/org/usefultoys/slf4j/meter/MeterData.java:397-408 | slow exactly when the limit is non-zero, the record started and stopped, and the execution time exceeds the limit |
| MeterData.Reset | slf4j-toys/src/main/java/org/usefultoys/slf4j/meter/MeterData.java:196-213 | every field of the class becomes null or 0 and the context null, so no status predicate holds |
| MeterData.StatusLabel | slf4j-toys/src/main/java/org/usefultoys/slf4j/meter/MeterData.java:273-294 | each of the seven labels is chosen exactly in its case, stopped cases first, then STARTED, PROGRESS and SCHEDULED |
| MeterData.FieldOfKey | slf4j-toys/src/main/java/org/usefultoys/slf4j/meter/MeterData.java:428-441 | every field's wire name dispatches back to that field |
| MeterData.WriteFields | slf4j-toys/src/main/java/org/usefultoys/slf4j/meter/MeterData.java:443-493 | exactly the present fields are written: non-null strings, non-zero numbers, a non-empty context, and fail as (class, message or "") |
| MeterData.ReadProperty | slf4j-toys/src/main/java/org/usefultoys/slf4j/meter/MeterData.java:496-542 | an unknown name is passed on; a known name with the wrong shape of value is a mismatch; otherwise the field is stored and the position kept |
| MeterData.Normalize | slf4j-toys/src/main/java/org/usefultoys/slf4j/meter/MeterData.java:453-455 | a fail message beside a class is never null; without a class it is lost; an empty context becomes null |
| MeterData.ReadAllIsStoreAll | slf4j-toys/src/main/java/org/usefultoys/slf4j/meter/MeterData.java:496-542 | reading written properties is storing the written fields in order |
| MeterData.WriteReadRoundTrip | slf4j-toys/src/main/java/org/usefultoys/slf4j/meter/MeterData.java:443-542 | folding the read over what was written, from a reset record, restores every field except for the three lossy cases |
| Counters.Next | slf4j-toys/src/main/java/org/usefultoys/slf4j/meter/Meter.java:87-88 | the key's counter is created at 0 if absent, then incremented; the new value is the position; other keys are unchanged |
| Counters.Construct | slf4j-toys/src/main/java/org/usefultoys/slf4j/meter/Meter.java:97-99 | after a series of constructions, each counter is its initial value plus the number of constructions under its key |
| Counters.ConstructPosition | slf4j-toys/src/main/java/org/usefultoys/slf4j/meter/Meter.java:97-99 | each construction gets its key's initial value plus its rank among the constructions under that key so far |
| Counters.SameKeyIncreasing | slf4j-toys/src/main/java/org/usefultoys/slf4j/meter/Meter.java:87-88 | two meters with the same key never share a position |
| Counters.FreshKeyCountsFromOne | slf4j-toys/src/main/java/org/usefultoys/slf4j/meter/Meter.java:97-99 | meters created in turn under an unused key get 1, 2, 3, … |
| Logging.Printed | slf4j-toys/src/main/java/br/com/danielferber/slf4jtoys/slf4j/profiler/meter/Meter.java:512-519 | the printed calls are exactly the calls made at or above the threshold, and never more of them |
| Logging.StopDiagnostics | slf4j-toys/src/main/java/org/usefultoys/slf4j/meter/Meter.java:677-686 | every call is an error under the given marker, at most two of them, and there are none exactly when the meter was started and not yet stopped |
| Logging.PrintedAppend | slf4j-toys/src/main/java/br/com/danielferber/slf4jtoys/slf4j/profiler/meter/Meter.java:512-519 | what a logger prints of two call sequences in turn is what it prints of each, in order |
| Meter.New | slf4j-toys/src/main/java/org/usefultoys/slf4j/meter/Meter.java:81-90 | the category is the key; the position is its counter after the increment; the meter is unstarted |
| Meter.NewNamed | slf4j-toys/src/main/java/org/usefultoys/slf4j/meter/Meter.java:92-102 | the key is `category/name`; the position is its counter after the increment |
| Meter.Sub | slf4j-toys/src/main/java/org/usefultoys/slf4j/meter/Meter.java:130-140 | a null name is diagnosed but the sub-meter is still made: same category, name extended with '/', key `category/name`, a copy of the context, the next position of its key |
| Meter.SubIsNamedMeter | slf4j-toys/src/main/java/org/usefultoys/slf4j/meter/Meter.java:130-140 | a sub-meter is exactly the meter the named constructor makes on the extended name, plus a copy of the parent's context |
| Meter.Describe | slf4j-toys/src/main/java/org/usefultoys/slf4j/meter/Meter.java:149-156 | the description is replaced even by null, which is diagnosed |
| Meter.LimitMilliseconds | slf4j-toys/src/main/java/org/usefultoys/slf4j/meter/Meter.java:189-197 | a non-positive limit is diagnosed and changes nothing; otherwise only the limit changes, to the one `long` congruent to ms × 1,000,000 modulo 2^64 |
| Meter.LimitAsWritten | slf4j-toys/src/main/java/org/usefultoys/slf4j/meter/Meter.java:195 | the stored limit is `ms * 1000 * 1000` with each multiplication wrapping as a `long` does |
| Meter.Iterations | slf4j-toys/src/main/java/org/usefultoys/slf4j/meter/Meter.java:207-215 | a non-positive expectation is diagnosed and changes nothing; otherwise it is stored |
| Meter.Put | slf4j-toys/src/main/java/org/usefultoys/slf4j/meter/Meter.java:464-475 | a null name is diagnosed and changes nothing; otherwise the context is created if needed and the name bound; nothing else changes |
| Meter.CtxFlag | slf4j-toys/src/main/java/org/usefultoys/slf4j/meter/Meter.java:224-235 | a null name is diagnosed and changes nothing; otherwise the name is bound to null in the (possibly new) context, nothing is logged and nothing else changes |
| Meter.CtxLong | slf4j-toys/src/main/java/org/usefultoys/slf4j/meter/Meter.java:264-275 | a null name is diagnosed and changes nothing; otherwise the name is bound to the decimal text, which parses back to the value, and nothing else changes |
| Meter.CtxBool | slf4j-toys/src/main/java/org/usefultoys/slf4j/meter/Meter.java:284-295 | a null name is diagnosed and changes nothing; otherwise the name is bound to "true" or "false" and nothing else changes |
| Meter.CtxBoxed | slf4j-toys/src/main/java/org/usefultoys/slf4j/meter/Meter.java:444-455 | a null name is diagnosed and changes nothing; otherwise the name is bound to the value's text, or to "<null>" for a null value, and nothing else changes |
| Meter.Unctx | slf4j-toys/src/main/java/org/usefultoys/slf4j/meter/Meter.java:510-521 | a null name is diagnosed; an absent context is left alone; otherwise only that name is removed |
| Meter.UnctxUndoesPut | slf4j-toys/src/main/java/org/usefultoys/slf4j/meter/Meter.java:464-521 | removing a name just added to a context that lacked it gives the meter back |
| Meter.UnctxAfterFirstPut | slf4j-toys/src/main/java/org/usefultoys/slf4j/meter/Meter.java:470-519 | on a meter with no context, adding and removing a name leaves an empty context, not none |
| Meter.Start | slf4j-toys/src/main/java/org/usefultoys/slf4j/meter/Meter.java:531-563 | an unstarted meter saves the current meter and becomes current; a second start is diagnosed and leaves both; start and last-progress times become now either way; the report exactly with debug, the data line exactly with trace; the calls come in that order, each at most once, and no other call is made; debug clears the context; nothing else changes |
| Meter.StartCallsPrinted | slf4j-toys/src/main/java/org/usefultoys/slf4j/meter/Meter.java:546-553 | with error enabled, a logger prints every call `start` makes, in order: the guarded report calls are never made below the threshold |
| Meter.Inc | slf4j-toys/src/main/java/org/usefultoys/slf4j/meter/Meter.java:571-578 | one more iteration; an unstarted meter is only diagnosed |
| Meter.IncBy | slf4j-toys/src/main/java/org/usefultoys/slf4j/meter/Meter.java:586-598 | a non-positive step is diagnosed and leaves the iteration; otherwise it is added; the iteration never decreases |
| Meter.IncTo | slf4j-toys/src/main/java/org/usefultoys/slf4j/meter/Meter.java:606-622 | a non-positive target changes nothing; a non-forward target is diagnosed and still assigned |
| Meter.IncRepeated | slf4j-toys/src/main/java/org/usefultoys/slf4j/meter/Meter.java:571-598 | on a started meter, n increments equal one `incBy(n)`, the events included |
| Meter.IncToIsIncBy | slf4j-toys/src/main/java/org/usefultoys/slf4j/meter/Meter.java:586-622 | a forward `incTo(n)` is `incBy` of the distance |
| Meter.Progress | slf4j-toys/src/main/java/org/usefultoys/slf4j/meter/Meter.java:632-664 | reports only with new iterations and more than the period since the last report, then records both; the slow data line exactly when reported with trace and slow, the plain one exactly when not slow; diagnostic, message and data line come in that order, each at most once, and no other call is made; a report with info clears the context; nothing else changes |
| Meter.ProgressSpacing | slf4j-toys/src/main/java/org/usefultoys/slf4j/meter/Meter.java:640-642 | after a report, a progress within the period reports nothing and changes nothing |
| Meter.ProgressNeedsIterations | slf4j-toys/src/main/java/org/usefultoys/slf4j/meter/Meter.java:640 | without new iterations, progress never reports |
| Meter.Concluded | slf4j-toys/src/main/java/org/usefultoys/slf4j/meter/Meter.java:696-715 | the slow message at warn or the plain one at info, the slow or plain data line at trace, all only with warn enabled |
| Meter.Reported | slf4j-toys/src/main/java/org/usefultoys/slf4j/meter/Meter.java:675-790 | the error diagnostics come first, then the report; each of the four messages appears exactly under its level and slowness, at most one message before at most one data line and nothing else; the saved meter becomes current |
| Meter.Ok | slf4j-toys/src/main/java/org/usefultoys/slf4j/meter/Meter.java:675-721 | the stop time is overwritten and the result is OK; the saved meter becomes current; stop diagnostics come first; the slow or plain message and the slow or plain data line each exactly under its level and slowness, in that order and with no other call; warn clears the context; nothing else changes |
| Meter.CauseText | slf4j-toys/src/main/java/org/usefultoys/slf4j/meter/Meter.java:748-759 | a string is kept, an enum gives its name, a throwable its simple name, another object its text, null nothing |
| Meter.Bad | slf4j-toys/src/main/java/org/usefultoys/slf4j/meter/Meter.java:732-790 | as `ok` with result BAD: stop diagnostics first, both messages and both data lines exactly under their level and slowness, in that order after the diagnostics and with no other call, warn clears the context, nothing else changes; a null cause is diagnosed and keeps the previous cause |
| Meter.Fail | slf4j-toys/src/main/java/org/usefultoys/slf4j/meter/Meter.java:802-842 | result FAIL; the stop time is overwritten; the saved meter becomes current; a null throwable is diagnosed and leaves the exception fields; the report exactly with error, the data line exactly with trace, in that order after the diagnostics and with no other call; error clears the context; nothing else changes |
| Meter.Close | slf4j-toys/src/main/java/org/usefultoys/slf4j/meter/Meter.java:897-901 | a stopped meter is left exactly as it is and nothing is logged; an unstopped one is exactly `fail(null)`: same state, same current meter, same calls |
| Meter.CloseTwice | slf4j-toys/src/main/java/org/usefultoys/slf4j/meter/Meter.java:897-901 | a second close changes nothing and logs nothing |
| Meter.CloseAfterOk | slf4j-toys/src/main/java/org/usefultoys/slf4j/meter/Meter.java:897-901 | close after `ok` changes nothing, and the outcome stays OK |
| Meter.LastCallWins | slf4j-toys/src/main/java/org/usefultoys/slf4j/meter/Meter.java:804-820 | `fail` after `ok` ends FAIL at the later time, and the repeat is diagnosed |
| Meter.NestedStartsRestoreCurrent | slf4j-toys/src/main/java/org/usefultoys/slf4j/meter/Meter.java:538-539 | nested meters hand the current meter back in order: inner stop restores the outer, outer stop restores the original |
| LegacyMeter.New | slf4j-toys/src/main/java/br/com/danielferber/slf4jtoys/slf4j/profiler/meter/Meter.java:52-60 | the position is the incremented counter of the category alone |
| LegacyMeter.Sub | slf4j-toys/src/main/java/br/com/danielferber/slf4jtoys/slf4j/profiler/meter/Meter.java:81-87 | a fresh meter on category `category.name`, with its own counter and a copy of the context |
| LegacyMeter.Limit | slf4j-toys/src/main/java/br/com/danielferber/slf4jtoys/slf4j/profiler/meter/Meter.java:127-130 | sets the time limit and nothing else |
| LegacyMeter.SubCountsPerName | slf4j-toys/src/main/java/br/com/danielferber/slf4jtoys/slf4j/profiler/meter/Meter.java:81-87 | two sub-meters of one name share a category and get successive positions |
| LegacyMeter.Put | slf4j-toys/src/main/java/br/com/danielferber/slf4jtoys/slf4j/profiler/meter/Meter.java:154-160 | the context is created on first use and the name bound; other names keep their values; nothing else changes |
| LegacyMeter.Unctx | slf4j-toys/src/main/java/br/com/danielferber/slf4jtoys/slf4j/profiler/meter/Meter.java:371-377 | no context is left alone; otherwise only that key goes and every other key keeps its value |
| LegacyMeter.UnctxUndoesPut | slf4j-toys/src/main/java/br/com/danielferber/slf4jtoys/slf4j/profiler/meter/Meter.java:154-377 | removing a key just added to a context that lacked it gives the meter back |
| LegacyMeter.Start | slf4j-toys/src/main/java/br/com/danielferber/slf4jtoys/slf4j/profiler/meter/Meter.java:388-413 | a second start is diagnosed and still overwrites the start and last-progress times, and nothing else changes; the report exactly with debug, the data line exactly with trace, in that order and with no other call |
| LegacyMeter.Inc | slf4j-toys/src/main/java/br/com/danielferber/slf4jtoys/slf4j/profiler/meter/Meter.java:422-425 | the iteration goes up; nothing else changes |
| LegacyMeter.IncBy | slf4j-toys/src/main/java/br/com/danielferber/slf4jtoys/slf4j/profiler/meter/Meter.java:434-437 | the iteration moves by exactly the step, unchecked |
| LegacyMeter.IncTo | slf4j-toys/src/main/java/br/com/danielferber/slf4jtoys/slf4j/profiler/meter/Meter.java:446-449 | the iteration becomes exactly the argument, even backwards |
| LegacyMeter.IncRepeated | slf4j-toys/src/main/java/br/com/danielferber/slf4jtoys/slf4j/profiler/meter/Meter.java:422-437 | n increments equal one `incBy(n)` |
| LegacyMeter.Progress | slf4j-toys/src/main/java/br/com/danielferber/slf4jtoys/slf4j/profiler/meter/Meter.java:460-482 | throttled on new iterations and more than 2,000,000 ns since the last report; reports at info under the OK marker; the slow data line is logged unguarded, the plain one exactly when not slow and trace is enabled; in that order and with no other call |
| LegacyMeter.ProgressSpacing | slf4j-toys/src/main/java/br/com/danielferber/slf4jtoys/slf4j/profiler/meter/Meter.java:463-465 | after a report, a progress within 2,000,000 ns does nothing |
| LegacyMeter.Ok | slf4j-toys/src/main/java/br/com/danielferber/slf4jtoys/slf4j/profiler/meter/Meter.java:494-526 | the stop time is overwritten and success set, and nothing else changes; stop diagnostics come first; the report exactly with info; the slow data line is logged exactly when slow, the plain one exactly when not slow and trace is enabled; in that order and with no other call |
| LegacyMeter.SlowOkLineDropped | slf4j-toys/src/main/java/br/com/danielferber/slf4jtoys/slf4j/profiler/meter/Meter.java:512-519 | a slow meter's `ok` logs the slow data line even with trace disabled; a logger above trace drops it and prints the stop diagnostics, then the info report if enabled |
| LegacyMeter.Fail | slf4j-toys/src/main/java/br/com/danielferber/slf4jtoys/slf4j/profiler/meter/Meter.java:539-573 | the stop time is overwritten and success cleared; the exception fields are set from a non-null throwable and kept for a null one; nothing else changes; stop diagnostics first, then the report exactly with warn and the data line exactly with trace, with no other call |
| LegacyMeter.Close | slf4j-toys/src/main/java/br/com/danielferber/slf4jtoys/slf4j/profiler/meter/Meter.java:596-600 | a stopped meter is left as it is and nothing is logged; an unstopped one is exactly `fail(null)`, calls included |
| LegacyMeter.FailAfterOk | slf4j-toys/src/main/java/br/com/danielferber/slf4jtoys/slf4j/profiler/meter/Meter.java:542-555 | `fail(null)` after `ok` clears success, takes the later stop time, keeps the exception fields and is diagnosed |
| LegacyMeter.CloseAfterStop | slf4j-toys/src/main/java/br/com/danielferber/slf4jtoys/slf4j/profiler/meter/Meter.java:596-600 | close after `ok`, or a second close, changes nothing |
| Session.StringProperty | slf4j-toys/src/main/java/org/usefultoys/slf4j/Session.java:68-71 | the value, or the default when unset |
| Session.IntProperty | slf4j-toys/src/main/java/org/usefultoys/slf4j/Session.java:81-91 | the default when unset or not an int numeral, else the parsed value |
| Session.LongProperty | slf4j-toys/src/main/java/org/usefultoys/slf4j/Session.java:93-103 | the default when unset or not a long numeral, else the parsed value |
| Session.IntPropertyRoundTrip | slf4j-toys/src/main/java/org/usefultoys/slf4j/Session.java:81-91 | a long written in decimal reads back as itself when it fits an int, else as the default |
| Session.LongPropertyRoundTrip | slf4j-toys/src/main/java/org/usefultoys/slf4j/Session.java:93-103 | a long written in decimal reads back as itself |
| Session.BoolProperty | slf4j-toys/src/main/java/org/usefultoys/slf4j/Session.java:73-79 | the default only when unset; otherwise true exactly for "true" in any letter case |
| Session.BoolPropertyIsLowerTrue | slf4j-toys/src/main/java/org/usefultoys/slf4j/Session.java:73-79 | a set property is true exactly when its text, lower-cased, is "true" |
| Session.UnitOf | slf4j-toys/src/main/java/org/usefultoys/slf4j/Session.java:111-123 | the unit found is a real suffix, with "ms" checked before "s"; no unit means no suffix matches |
| Session.MillisecondsProperty | slf4j-toys/src/main/java/org/usefultoys/slf4j/Session.java:105-129 | unset, no unit or a failed parse gives the default; otherwise the prefix times the unit's milliseconds, as a long |
| Session.MillisecondsRoundTrip | slf4j-toys/src/main/java/org/usefultoys/slf4j/Session.java:111-124 | a long written with any unit suffix reads back as that many units in milliseconds |
| Session.BareNumberGivesDefault | slf4j-toys/src/main/java/org/usefultoys/slf4j/Session.java:120-122 | a value ending in a digit, such as "500", gives the default |
| Session.MillisBeforeSeconds | slf4j-toys/src/main/java/org/usefultoys/slf4j/Session.java:113-116 | "250ms" is 250 |
| Session.UnparseableGivesDefault | slf4j-toys/src/main/java/org/usefultoys/slf4j/Session.java:124-128 | a non-numeric amount before the suffix, as in "xs", gives the default |
| Session.BareSuffixGivesDefault | slf4j-toys/src/main/java/org/usefultoys/slf4j/Session.java:124-128 | a suffix with no amount, as in "h", gives the default |
| Session.StartWatcher | slf4j-toys/src/main/java/org/usefultoys/slf4j/Session.java:49-56 | an executor is ensured; the watcher task is scheduled only when there is no handle |
| Session.StartIdempotent | slf4j-toys/src/main/java/org/usefultoys/slf4j/Session.java:49-56 | starting twice is starting once |
| Session.StopWatcher | slf4j-toys/src/main/java/org/usefultoys/slf4j/Session.java:58-66 | the watcher task is cancelled and the executor dropped, but a handle is kept |
| Session.RestartDoesNotReschedule | slf4j-toys/src/main/java/org/usefultoys/slf4j/Session.java:53-66 | as written, start, stop, start leaves an executor but no running task |
| Session.StopWatcherFixed | slf4j-toys/src/main/java/org/usefultoys/slf4j/Session.java:58-66 | the corrected stop also clears the handle |
| Session.RestartReschedulesFixed | slf4j-toys/src/main/java/org/usefultoys/slf4j/Session.java:49-66 | with the corrected stop, a start after any stop runs the watcher again |
| WatcherEvent.Reset | slf4j-toys/src/main/java/br/com/danielferber/slf4jtoys/slf4j/profiler/watcher/WatcherEvent.java:39-45 | no uuid; counter and time 0 |
| WatcherEvent.Equals | slf4j-toys/src/main/java/br/com/danielferber/slf4jtoys/slf4j/profiler/watcher/WatcherEvent.java:56-77 | the same object is equal; null and other classes are not; otherwise equal exactly when counters agree and this uuid is non-null and equal; time is ignored |
| WatcherEvent.NullUuidEqualsOnlyItself | slf4j-toys/src/main/java/br/com/danielferber/slf4jtoys/slf4j/profiler/watcher/WatcherEvent.java:71-72 | an event with a null uuid equals only itself, even against identical fields |
| WatcherEvent.ResetEqualsOnlyItself | slf4j-toys/src/main/java/br/com/danielferber/slf4jtoys/slf4j/profiler/watcher/WatcherEvent.java:39-77 | a reset event equals itself and no other event |
| WatcherEvent.EqualsSymmetric | slf4j-toys/src/main/java/br/com/danielferber/slf4jtoys/slf4j/profiler/watcher/WatcherEvent.java:56-77 | equality between two events is symmetric |
| WatcherEvent.Hash | slf4j-toys/src/main/java/br/com/danielferber/slf4jtoys/slf4j/profiler/watcher/WatcherEvent.java:47-54 | the hash, computed in wrapping `int` arithmetic, always stays within the `int` range |
| WatcherEvent.HashExample | slf4j-toys/src/main/java/br/com/danielferber/slf4jtoys/slf4j/profiler/watcher/WatcherEvent.java:47-54 | an event with a null uuid and counter 0 hashes to 31 × 31 = 961, whatever its time |
| WatcherEvent.HashIgnoresTime | slf4j-toys/src/main/java/br/com/danielferber/slf4jtoys/slf4j/profiler/watcher/WatcherEvent.java:47-53 | the hash depends on counter and uuid only |
| WatcherEvent.EqualsImpliesEqualHash | slf4j-toys/src/main/java/br/com/danielferber/slf4jtoys/slf4j/profiler/watcher/WatcherEvent.java:47-77 | equal events have equal hash codes |
| WatcherEvent.ShowParses | slf4j-toys/src/main/java/br/com/danielferber/slf4jtoys/slf4j/profiler/watcher/WatcherEvent.java:80-82 | `uuid:counter` splits at its last ':' back into the uuid text and the counter, whatever the uuid contains |

## Left out

- Floating point: `readDouble`/`readDoubleOrZero`, the `double` writer overload, the `float`/`double` context overloads, iterations per second, and the unit-formatted, memory and load parts of the readable string.
- Calls into code that is not part of this model are parameters or opaque text: `Patterns.extractPlausibleMessage` (the `plausible` argument), the subclass hooks `reset` and `readProperty`, `Object.toString`, `Enum.name`, `Class.getName`/`getSimpleName` and `getLocalizedMessage`.
- `String.format`: `m(format, args…)` and `ctx(name, format, args…)` in both meter generations are not modelled.
- `EventWriter` and `Syntax` are not part of this model. `EventData.Write` renders through `LoggerMessageWriter` instead. The `Syntax` characters are abstract apart from the four the writer tests pin.
- The superclasses `SystemData` and `SystemStatusData` are not part of this model. `MeterData` properties that those superclasses read are reported as passed on (`Unknown`). `MeterData.Reset` keeps the position, which belongs to a superclass. The uuid, the thread ids and names, and `collectSystemStatus` are omitted.
- The `MeterData` read is modelled at field level, as a fold over (name, value) properties. It is not modelled through the legacy text reader, which belongs to the other package.
- Runtime hooks in the current `Meter`: `finalize`, `IllegalMeterUsage` stack forging, `run`/`call`/`safeCall`, `getCurrentInstance`, and the catch-all `BUG` handlers. The modelled transitions never throw.
- Time and iteration arithmetic is on unbounded integers. `long` wrap-around is modelled only where a multiplication scales user input: `limitMilliseconds`, the `Session` duration, and the hash.
- Meter.Inc: the iteration is unbounded, so `long` overflow at 2^63 - 1 is not modelled.
- The default watcher's executor and scheduling are reduced to two fields: the handle state and whether an executor exists.
- WatcherEvent.Hash and WatcherEvent.StringHash: characters are Unicode scalar values. A supplementary character hashes as one value, where Java hashes it as two UTF-16 units.
- EventReader.ReadLong: digits are ASCII only. `Long.parseLong` also accepts the other Unicode decimal digits (`Character.digit`), a set that depends on the JDK's Unicode version.
- EventReader.ReadLongOrZero: digits are ASCII only, as for `ReadLong`.
- Session.IntProperty: digits are ASCII only. `Integer.parseInt` also accepts the other Unicode decimal digits.
- Session.LongProperty: digits are ASCII only. `Long.parseLong` also accepts the other Unicode decimal digits.
- Session.MillisecondsProperty: the amount's digits are ASCII only, as for `LongProperty`.
- MessageWriter.Property: names and values are non-null strings. `StringBuilder.append` writes a `null` name or value as the text "null", which is what passing "null" gives, so no `Option` is taken.
- MessageWriter.WriteQuotedString: the string is non-null. For `null`, `String.replace` throws `NullPointerException`, and that failure is not modelled.
- MeterData.WriteFields: context values are strings, so a context entry whose Java value is `null` is not modelled.
- Session.BoolProperty: case folding is ASCII only. Java's `equalsIgnoreCase` folds no other character onto "true", so the results agree.
- Concurrency of the counter registry and of the thread-local current meter: a single thread is modelled.

## Findings

| source | as written | input that shows it | evidently intended | confidence | as-written member | corrected member |
|---|---|---|---|---|---|---|
| slf4j-toys/src/main/java/br/com/danielferber/slf4jtoys/slf4j/profiler/internal/EventReader.java:105-110 | `readString` clears the first-value flag only on the branch where it is already false | the writer output `a=x\|y`: the second `readString` expects '=' and meets '\|' | after the first value, later values of the property are read after '\|' | high, not executed | RoundTrip.MultiValuedLineDoesNotParse | RoundTrip.MultiValuedRoundTripFixed |
| slf4j-toys/src/main/java/br/com/danielferber/slf4jtoys/slf4j/profiler/internal/EventData.java:63-65 | `read` resets the reader over the whole message, not the extracted plausible part | the output of `write` for any properties: the reader starts on the prefix character, before DATA_OPEN | the reader runs over the extracted text | medium (the extraction is not part of this model), not executed | RoundTrip.ReadOwnOutputFails | RoundTrip.ReadFixedRoundTrip |
| slf4j-toys/src/main/java/org/usefultoys/slf4j/Session.java:58-66 | `stopDefaultWatcher` cancels the watcher task but never clears its handle | start, stop, start: the second start finds the old handle and schedules nothing | stopping clears the handle, so a later start schedules again | medium, not executed | Session.RestartDoesNotReschedule | Session.RestartReschedulesFixed |

=== FILE: counters.dfy ===
/**
 * The static per-key creation counter both meter generations keep
 * (`ConcurrentMap<String, AtomicLong>`): each construction does
 * `putIfAbsent(key, 0)` and takes `incrementAndGet()` as its position. The
 * map is an explicit value here, threaded through every construction.
 */
module Counters {
  type Registry = map<string, nat>

  /** The counter of `key`, or 0 when it has none yet. */
  function Current(reg: Registry, key: string): nat {
    if key in reg then reg[key] else 0
  }

  datatype Issued = Issued(registry: Registry, position: nat)

  /** One construction under `key`: the counter is created at 0 if absent, then incremented and read. */
  function Next(reg: Registry, key: string): (r: Issued)
    ensures r.position == Current(reg, key) + 1
    ensures r.registry.Keys == reg.Keys + {key}
    ensures Current(r.registry, key) == r.position
    ensures forall k :: k != key ==> Current(r.registry, k) == Current(reg, k)
  {
    var position := Current(reg, key) + 1;
    Issued(reg[key := position], position)
  }

  /** How many of `keys` are `k`. */
  function Occurrences(keys: seq<string>, k: string): nat {
    if |keys| == 0 then 0
    else Occurrences(keys[..|keys| - 1], k) + (if keys[|keys| - 1] == k then 1 else 0)
  }

  datatype Run = Run(registry: Registry, positions: seq<nat>)

  /**
   * Constructions under `keys`, in order. Every counter ends at its initial
   * value plus the number of constructions under it.
   */
  function Construct(reg: Registry, keys: seq<string>): (r: Run)
    ensures |r.positions| == |keys|
    ensures forall k :: Current(r.registry, k) == Current(reg, k) + Occurrences(keys, k)
  {
    if |keys| == 0 then Run(reg, [])
    else
      var before := Construct(reg, keys[..|keys| - 1]);
      var step := Next(before.registry, keys[|keys| - 1]);
      Run(step.registry, before.positions + [step.position])
  }

  /** The i-th construction gets its key's initial value plus its rank among the constructions under that key so far. */
  lemma {:induction false} ConstructPosition(reg: Registry, keys: seq<string>, i: nat)
    requires i < |keys|
    ensures Construct(reg, keys).positions[i] == Current(reg, keys[i]) + Occurrences(keys[..i + 1], keys[i])
  {
    var front := keys[..|keys| - 1];
    if i < |front| {
      ConstructPosition(reg, front, i);
      assert front[..i + 1] == keys[..i + 1];
    } else {
      assert keys[..i + 1] == keys;
    }
  }

  lemma {:induction false} OccurrencesGrow(keys: seq<string>, i: nat, j: nat)
    requires i + 1 < j <= |keys| && keys[j - 1] == keys[i]
    ensures Occurrences(keys[..i + 1], keys[i]) < Occurrences(keys[..j], keys[i])
  {
    assert keys[..j][..j - 1] == keys[..j - 1];
    OccurrencesMonotone(keys, i + 1, j - 1, keys[i]);
  }

  lemma {:induction false} OccurrencesMonotone(keys: seq<string>, i: nat, j: nat, k: string)
    requires i <= j <= |keys|
    ensures Occurrences(keys[..i], k) <= Occurrences(keys[..j], k)
    decreases j - i
  {
    if i < j {
      OccurrencesMonotone(keys, i, j - 1, k);
      assert keys[..j][..j - 1] == keys[..j - 1];
    }
  }

  /** Two constructions under the same key never share a position: the later one is larger. */
  lemma SameKeyIncreasing(reg: Registry, keys: seq<string>, i: nat, j: nat)
    requires i < j < |keys| && keys[i] == keys[j]
    ensures Construct(reg, keys).positions[i] < Construct(reg, keys).positions[j]
  {
    ConstructPosition(reg, keys, i);
    ConstructPosition(reg, keys, j);
    OccurrencesGrow(keys, i, j + 1);
  }

  lemma {:induction false} OccurrencesOfRepeat(key: string, n: nat)
    ensures Occurrences(seq(n, _ => key), key) == n
  {
    if n > 0 {
      assert seq(n, _ => key)[..n - 1] == seq(n - 1, _ => key);
      OccurrencesOfRepeat(key, n - 1);
    }
  }

  /** Meters created one after another under a key nobody used get positions 1, 2, 3, … */
  lemma FreshKeyCountsFromOne(reg: Registry, key: string, n: nat)
    requires key !in reg
    ensures Construct(reg, seq(n, _ => key)).positions == seq(n, i => i + 1)
  {
    var keys := seq(n, _ => key);
    var r := Construct(reg, keys);
    forall i | 0 <= i < n
      ensures r.positions[i] == i + 1
    {
      ConstructPosition(reg, keys, i);
      assert keys[..i + 1] == seq(i + 1, _ => key);
      OccurrencesOfRepeat(key, i + 1);
    }
  }
}

=== FILE: event_data.dfy ===
/**
 * The legacy event base class: `write` wraps the properties between the
 * message prefix with DATA_OPEN and DATA_CLOSE; `read` drives the reader
 * property by property. Extracting the plausible part of a log line is not
 * modelled: its outcome is a parameter. The subclass hooks (`reset`,
 * `readProperty`) are parameters too.
 */
module EventData {
  import opened Wrappers
  import opened Syntax
  import opened EventReader
  import MessageWriter

  /** The outcome of a subclass's `readProperty`: the updated event and reader, or `false`. */
  datatype Step<E> = Recognized(event: E, reader: Reader) | Unrecognized

  type PropertyReader<!E> = (E, Reader, string) -> Result<Step<E>, ReadError>

  /** A `readProperty` reads on from where the name ended and never moves the cursor back. */
  ghost predicate KeepsCursor<E(!new)>(rp: PropertyReader<E>) {
    forall e: E, r: Reader, name: string ::
      r.start <= |r.chars| && rp(e, r, name).Success? && rp(e, r, name).value.Recognized? ==>
        && rp(e, r, name).value.reader.chars == r.chars
        && r.start <= rp(e, r, name).value.reader.start <= |r.chars|
  }

  /** The `while (r.hasMore())` loop of `read`. */
  function ReadLoop<E(!new)>(syn: Alphabet, e: E, r: Reader, rp: PropertyReader<E>): (res: Result<(E, Reader), ReadError>)
    requires KeepsCursor(rp) && r.start <= |r.chars|
    ensures !HasMore(r) ==> res == Success((e, r))
    ensures HasMore(r) && ReadPropertyName(syn, r).Failure? ==> res == Failure(ReadPropertyName(syn, r).error)
    ensures HasMore(r) && ReadPropertyName(syn, r).Success? ==>
              var named := ReadPropertyName(syn, r);
              && (rp(e, named.value.1, named.value.0).Failure? ==> res == Failure(rp(e, named.value.1, named.value.0).error))
              && (rp(e, named.value.1, named.value.0) == Success(Unrecognized) ==> res == Failure(UnknownProperty))
    // the loop ends only when every character has been consumed
    ensures res.Success? ==> !HasMore(res.value.1) && res.value.1.chars == r.chars
    decreases |r.chars| - r.start
  {
    if !HasMore(r) then Success((e, r))
    else
      var named :- ReadPropertyName(syn, r);
      var step :- rp(e, named.1, named.0);
      match step
      case Unrecognized => Failure(UnknownProperty)
      case Recognized(e', r') => ReadLoop(syn, e', r', rp)
  }

  /**
   * `read(message)`: `plausible` is what the prefix extraction found in
   * `message`, and `resetEvent` is the event after its `reset()`. As in the
   * original, the reader runs over the whole message.
   */
  function Read<E(!new)>(syn: Alphabet, plausible: Option<string>, message: string, e: E, resetEvent: E, rp: PropertyReader<E>): (res: Result<(bool, E), ReadError>)
    requires KeepsCursor(rp)
    // nothing recognised: false, and the event is left as it was
    ensures plausible.None? ==> res == Success((false, e))
    // otherwise parsing starts from the reset event and a fresh reader
    ensures plausible.Some? && ReadLoop(syn, resetEvent, Reset(message), rp).Failure? ==>
              res == Failure(ReadLoop(syn, resetEvent, Reset(message), rp).error)
    ensures plausible.Some? && ReadLoop(syn, resetEvent, Reset(message), rp).Success? ==>
              res == Success((true, ReadLoop(syn, resetEvent, Reset(message), rp).value.0))
    ensures res.Success? && res.value.0 ==> plausible.Some?
  {
    match plausible
    case None => Success((false, e))
    case Some(_) =>
      var done :- ReadLoop(syn, resetEvent, Reset(message), rp);
      Success((true, done.0))
  }

  /** `read` as evidently intended: the reader runs over the extracted part only. */
  function ReadFixed<E(!new)>(syn: Alphabet, plausible: Option<string>, message: string, e: E, resetEvent: E, rp: PropertyReader<E>): (res: Result<(bool, E), ReadError>)
    requires KeepsCursor(rp)
    ensures plausible.None? ==> res == Success((false, e))
    ensures plausible.Some? && ReadLoop(syn, resetEvent, Reset(plausible.value), rp).Success? ==>
              res == Success((true, ReadLoop(syn, resetEvent, Reset(plausible.value), rp).value.0))
    ensures plausible.Some? && ReadLoop(syn, resetEvent, Reset(plausible.value), rp).Failure? ==>
              res == Failure(ReadLoop(syn, resetEvent, Reset(plausible.value), rp).error)
  {
    match plausible
    case None => Success((false, e))
    case Some(text) =>
      var done :- ReadLoop(syn, resetEvent, Reset(text), rp);
      Success((true, done.0))
  }

  /**
   * `write(sb)`: the prefix character and DATA_OPEN, the properties as the
   * writer renders them, then DATA_CLOSE, appended to `sb`.
   */
  function Write(syn: Alphabet, prefix: char, props: seq<MessageWriter.Prop>, sb: string): (out: string)
    requires MessageWriter.WellFormed(props)
    ensures out == sb + [prefix, syn.dataOpen] + MessageWriter.Render(props) + [syn.dataClose]
  {
    var w := MessageWriter.OpenData(syn, MessageWriter.Reset(sb), prefix);
    assert w == MessageWriter.Reset(sb + [prefix, syn.dataOpen]);
    MessageWriter.WriteAllRenders(sb + [prefix, syn.dataOpen], props);
    MessageWriter.CloseData(syn, MessageWriter.WriteAll(w, props)).builder
  }
}

=== FILE: event_reader.dfy ===
/**
 * The legacy cursor parser for `name=v1|v2;name2=v` lines. A `Reader` is the
 * parser's whole state; every read returns the value read together with the
 * advanced reader, or the error the parser throws.
 *
 * Behaviour is kept as written, including three quirks:
 * - `ReadString` never clears `firstValue` after consuming '=', so a second
 *   value of one property again expects '=' (see `MultiValuedLineDoesNotParse`);
 * - `ReadMap` tests `firstValue` the other way round from `ReadString`, so a
 *   map property must start with '|' (see `MapPropertyRejected`);
 * - `ReadString` stops only at '|', ';' and end of input, never at map
 *   punctuation, so a map entry never parses (see `ReadMap`'s contract).
 */
module EventReader {
  import opened Wrappers
  import opened Syntax
  import Text

  /** What the parser throws: `EOFException`, the `IOException` messages, and an array index out of bounds. */
  datatype ReadError =
    | EndOfInput
    | Expected(op: char)
    | InvalidIdentifier
    | InvalidLong
    | IndexOutOfBounds
    | UnknownProperty

  datatype Reader = Reader(chars: string, start: nat, firstProperty: bool, firstValue: bool)

  predicate HasMore(r: Reader) {
    r.start < |r.chars|
  }

  /** Characters at which an unquoted value ends. */
  predicate IsValueStop(c: char) {
    c == PROPERTY_DIV || c == PROPERTY_SEPARATOR
  }

  function Reset(encoded: string): (r: Reader)
    ensures r.chars == encoded && r.start == 0
    ensures r.firstProperty && r.firstValue
    ensures HasMore(r) <==> |encoded| > 0
  {
    Reader(encoded, 0, true, true)
  }

  /** Consumes exactly the character `op`. */
  function ReadOperator(r: Reader, op: char): (res: Result<Reader, ReadError>)
    ensures !HasMore(r) ==> res == Failure(EndOfInput)
    ensures HasMore(r) && r.chars[r.start] != op ==> res == Failure(Expected(op))
    ensures res.Success? <==> HasMore(r) && r.chars[r.start] == op
    ensures res.Success? ==> res.value == r.(start := r.start + 1)
  {
    if r.start >= |r.chars| then Failure(EndOfInput)
    else if r.chars[r.start] != op then Failure(Expected(op))
    else Success(r.(start := r.start + 1))
  }

  /** End of the longest run of identifier-part characters starting at `i`. */
  function IdentifierEnd(syn: Alphabet, chars: string, i: nat): (end: nat)
    requires i <= |chars|
    ensures i <= end <= |chars|
    ensures forall k :: i <= k < end ==> syn.identPart(chars[k])
    ensures end == |chars| || !syn.identPart(chars[end])
    decreases |chars| - i
  {
    if i == |chars| || !syn.identPart(chars[i]) then i else IdentifierEnd(syn, chars, i + 1)
  }

  /** Where the name of the next property begins: after the ';' unless it is the first property. */
  function NameStart(r: Reader): nat {
    if r.firstProperty then r.start else r.start + 1
  }

  function ReadPropertyName(syn: Alphabet, r: Reader): (res: Result<(string, Reader), ReadError>)
    // every property but the first is preceded by ';'
    ensures !r.firstProperty && ReadOperator(r, PROPERTY_SEPARATOR).Failure? ==>
              res == Failure(ReadOperator(r, PROPERTY_SEPARATOR).error)
    ensures (r.firstProperty || ReadOperator(r, PROPERTY_SEPARATOR).Success?) ==>
              && (NameStart(r) >= |r.chars| ==> res == Failure(EndOfInput))
              && (NameStart(r) < |r.chars| && !syn.identStart(r.chars[NameStart(r)]) ==> res == Failure(InvalidIdentifier))
              // an identifier start at the name's position always reads
              && (NameStart(r) < |r.chars| && syn.identStart(r.chars[NameStart(r)]) ==> res.Success?)
    // the name is the longest identifier at the cursor, which is left just past it
    ensures res.Success? ==>
              var name := res.value.0;
              var r' := res.value.1;
              && syn.IsIdentifier(name)
              && (!r.firstProperty ==> r.chars[r.start] == PROPERTY_SEPARATOR)
              && r'.chars == r.chars
              && r'.start == NameStart(r) + |name| <= |r.chars|
              && r.chars[NameStart(r)..r'.start] == name
              && (r'.start == |r.chars| || !syn.identPart(r.chars[r'.start]))
              && !r'.firstProperty && r'.firstValue
  {
    var r1 :- if !r.firstProperty then ReadOperator(r, PROPERTY_SEPARATOR) else Success(r.(firstProperty := false));
    var r2 := r1.(firstValue := true);
    if r2.start >= |r2.chars| then Failure(EndOfInput)
    else if !syn.identStart(r2.chars[r2.start]) then Failure(InvalidIdentifier)
    else
      var end := IdentifierEnd(syn, r2.chars, r2.start + 1);
      Success((r2.chars[r2.start..end], r2.(start := end)))
  }

  /** How many quote characters stand right before position `k`, looking no further back than `i`. */
  function QuoteRun(syn: Alphabet, chars: string, i: nat, k: nat): (n: nat)
    requires i <= k <= |chars|
    ensures n <= k - i
    decreases k - i
  {
    if k == i || chars[k - 1] != syn.quote then 0 else 1 + QuoteRun(syn, chars, i, k - 1)
  }

  /**
   * Whether position `k` is escaped in a value that starts at `i`: an odd
   * run of quote characters stands right before it. Each quote escapes the
   * character after it, another quote included, so quotes pair up.
   */
  predicate Escaped(syn: Alphabet, chars: string, i: nat, k: nat)
    requires i <= k <= |chars|
  {
    QuoteRun(syn, chars, i, k) % 2 == 1
  }

  /** A '|' or ';' at `k` that no quote escapes, in a value that starts at `i`. */
  predicate UnescapedStop(syn: Alphabet, chars: string, i: nat, k: nat)
    requires i <= k < |chars|
  {
    IsValueStop(chars[k]) && !Escaped(syn, chars, i, k)
  }

  /** No position in [i, end) is an unescaped stop. */
  predicate NoUnescapedStop(syn: Alphabet, chars: string, i: nat, end: nat)
    requires i <= end <= |chars|
  {
    forall k :: i <= k < end ==> !UnescapedStop(syn, chars, i, k)
  }

  /** A stop right after an unescaped quote is escaped. */
  lemma QuotedStopEscaped(syn: Alphabet, chars: string, i: nat, k: nat)
    requires i < k < |chars| && chars[k - 1] == syn.quote && !Escaped(syn, chars, i, k - 1)
    ensures Escaped(syn, chars, i, k) && !UnescapedStop(syn, chars, i, k)
  {
  }

  /** Starting one later, past a character that is not a quote, sees the same quote runs. */
  lemma {:induction false} SkipPlain(syn: Alphabet, chars: string, i: nat, k: nat)
    requires i < k <= |chars| && chars[i] != syn.quote
    ensures QuoteRun(syn, chars, i, k) == QuoteRun(syn, chars, i + 1, k)
    decreases k - i
  {
    if k > i + 1 && chars[k - 1] == syn.quote {
      SkipPlain(syn, chars, i, k - 1);
    }
  }

  /** Starting two later, past a quote and the character it escapes, sees runs of the same parity. */
  lemma {:induction false} SkipQuoted(syn: Alphabet, chars: string, i: nat, k: nat)
    requires i + 2 <= k <= |chars| && chars[i] == syn.quote
    ensures Escaped(syn, chars, i, k) == Escaped(syn, chars, i + 2, k)
    decreases k - i
  {
    if k == i + 2 {
      assert QuoteRun(syn, chars, i, i + 1) == 1;
    } else if chars[k - 1] == syn.quote {
      SkipQuoted(syn, chars, i, k - 1);
    }
  }

  /**
   * End of an unquoted value starting at `i`: the first '|' or ';' not
   * escaped by the quote character, or the end of input. A quote as the last
   * character escapes nothing and is an end-of-input error.
   */
  function ValueEnd(syn: Alphabet, chars: string, i: nat): (res: Result<nat, ReadError>)
    requires i <= |chars|
    ensures res.Success? ==> i <= res.value <= |chars|
    ensures res.Success? ==> res.value == |chars| || IsValueStop(chars[res.value])
    ensures res.Failure? ==> res.error == EndOfInput && |chars| > 0 && chars[|chars| - 1] == syn.quote
    // the value runs to the first unescaped stop ...
    ensures res.Success? ==> NoUnescapedStop(syn, chars, i, res.value)
    ensures res.Success? && res.value < |chars| ==> UnescapedStop(syn, chars, i, res.value)
    // ... or to the end of input, unless the last quote there has nothing to escape
    ensures res.Success? && res.value == |chars| ==> !Escaped(syn, chars, i, |chars|)
    ensures res.Failure? ==>
              Escaped(syn, chars, i, |chars|) && NoUnescapedStop(syn, chars, i, |chars|)
    decreases |chars| - i
  {
    if i >= |chars| then Success(i)
    else if IsValueStop(chars[i]) then Success(i)
    else if chars[i] == syn.quote then
      if i + 1 >= |chars| then Failure(EndOfInput)
      else
        var res := ValueEnd(syn, chars, i + 2);
        assert QuoteRun(syn, chars, i, i + 1) == 1;
        forall k | i + 2 <= k <= |chars|
          ensures Escaped(syn, chars, i, k) == Escaped(syn, chars, i + 2, k)
          ensures k < |chars| ==> UnescapedStop(syn, chars, i, k) == UnescapedStop(syn, chars, i + 2, k)
        {
          SkipQuoted(syn, chars, i, k);
        }
        assert !UnescapedStop(syn, chars, i, i) && !UnescapedStop(syn, chars, i, i + 1);
        res
    else
      var res := ValueEnd(syn, chars, i + 1);
      forall k | i + 1 <= k <= |chars|
        ensures QuoteRun(syn, chars, i, k) == QuoteRun(syn, chars, i + 1, k)
        ensures k < |chars| ==> UnescapedStop(syn, chars, i, k) == UnescapedStop(syn, chars, i + 1, k)
      {
        SkipPlain(syn, chars, i, k);
      }
      assert !UnescapedStop(syn, chars, i, i);
      res
  }

  /** The operator that precedes a value read by `ReadString`. */
  function ValueOperator(r: Reader): char {
    if r.firstValue then PROPERTY_EQUALS else PROPERTY_DIV
  }

  /** Reads one raw value, escapes retained. */
  function ReadString(syn: Alphabet, r: Reader): (res: Result<(string, Reader), ReadError>)
    ensures ReadOperator(r, ValueOperator(r)).Failure? ==> res == Failure(ReadOperator(r, ValueOperator(r)).error)
    ensures ReadOperator(r, ValueOperator(r)).Success? && r.start + 1 >= |r.chars| ==> res == Failure(EndOfInput)
    ensures res.Failure? && res.error == EndOfInput ==>
              r.start + 1 >= |r.chars| || (r.chars[|r.chars| - 1] == syn.quote && Escaped(syn, r.chars, r.start + 1, |r.chars|))
    ensures res.Failure? ==> ReadOperator(r, ValueOperator(r)).Failure? || res.error == EndOfInput
    // past the operator, the read fails exactly when a final quote is left unpaired and no stop came before it
    ensures ReadOperator(r, ValueOperator(r)).Success? && r.start + 1 < |r.chars| ==>
              (res.Failure? <==> Escaped(syn, r.chars, r.start + 1, |r.chars|) && NoUnescapedStop(syn, r.chars, r.start + 1, |r.chars|))
    ensures res.Success? ==>
              var value := res.value.0;
              var r' := res.value.1;
              && HasMore(r) && r.chars[r.start] == ValueOperator(r)
              && r'.chars == r.chars
              && r'.start == r.start + 1 + |value| <= |r.chars|
              && r.chars[r.start + 1..r'.start] == value
              && (r'.start == |r.chars| || IsValueStop(r.chars[r'.start]))
              // the value is the raw text up to the first stop no quote escapes; escapes are kept
              && NoUnescapedStop(syn, r.chars, r.start + 1, r'.start)
              && (r'.start == |r.chars| || UnescapedStop(syn, r.chars, r.start + 1, r'.start))
              // the flags are never changed, whichever operator was consumed
              && r'.firstProperty == r.firstProperty && r'.firstValue == r.firstValue
  {
    var r1 :- if r.firstValue then ReadOperator(r, PROPERTY_EQUALS) else ReadOperator(r, PROPERTY_DIV);
    // The flag is cleared only on the '|' branch, where it is already false.
    var r2 := if r.firstValue then r1 else r1.(firstValue := false);
    if r2.start >= |r2.chars| then Failure(EndOfInput)
    else
      var end :- ValueEnd(syn, r2.chars, r2.start);
      Success((r2.chars[r2.start..end], r2.(start := end)))
  }

  /** A '|' right after a quote does not end the value: it is read, quote and all, into the value. */
  lemma EscapedDivKept(syn: Alphabet, v: char)
    requires !IsValueStop(syn.quote) && !IsValueStop(v) && v != syn.quote
    ensures var text := [PROPERTY_EQUALS, v, syn.quote, PROPERTY_DIV, v];
            ReadString(syn, Reader(text, 0, false, true)) == Success((text[1..], Reader(text, 5, false, true)))
  {
    var text := [PROPERTY_EQUALS, v, syn.quote, PROPERTY_DIV, v];
    assert ValueEnd(syn, text, 4) == Success(5);
    assert ValueEnd(syn, text, 2) == Success(5);
    assert ValueEnd(syn, text, 1) == Success(5);
    var r := Reader(text, 0, false, true);
    assert ReadOperator(r, PROPERTY_EQUALS) == Success(r.(start := 1));
    assert text[1..5] == text[1..];
  }

  function ReadLong(syn: Alphabet, r: Reader): (res: Result<(int, Reader), ReadError>)
    ensures ReadString(syn, r).Failure? ==> res == Failure(ReadString(syn, r).error)
    ensures ReadString(syn, r).Success? && Text.ParseLong(ReadString(syn, r).value.0).None? ==>
              res == Failure(InvalidLong)
    ensures ReadString(syn, r).Success? && Text.ParseLong(ReadString(syn, r).value.0).Some? ==>
              res == Success((Text.ParseLong(ReadString(syn, r).value.0).value, ReadString(syn, r).value.1))
    ensures res.Success? ==>
              && ReadString(syn, r).Success?
              && Text.ParseLong(ReadString(syn, r).value.0) == Some(res.value.0)
              && res.value.1 == ReadString(syn, r).value.1
  {
    var sr :- ReadString(syn, r);
    match Text.ParseLong(sr.0)
    case None => Failure(InvalidLong)
    case Some(v) => Success((v, sr.1))
  }

  function ReadLongOrZero(syn: Alphabet, r: Reader): (res: Result<(int, Reader), ReadError>)
    ensures ReadString(syn, r).Failure? ==> res == Failure(ReadString(syn, r).error)
    ensures ReadString(syn, r).Success? && ReadString(syn, r).value.0 == "" ==>
              res == Success((0, ReadString(syn, r).value.1))
    ensures ReadString(syn, r).Success? && ReadString(syn, r).value.0 != "" ==>
              res == ReadLong(syn, r)
  {
    var sr :- ReadString(syn, r);
    if sr.0 == "" then Success((0, sr.1))
    else
      match Text.ParseLong(sr.0)
      case None => Failure(InvalidLong)
      case Some(v) => Success((v, sr.1))
  }

  /** The operator `ReadMap` consumes first: the flag test is the reverse of `ReadString`'s. */
  function MapOperator(r: Reader): char {
    if !r.firstValue then PROPERTY_EQUALS else PROPERTY_DIV
  }

  /**
   * Reads `{key=value,...}` into a key-ordered map. An empty map returns with
   * the cursor ON the closing character; otherwise the cursor skips the
   * closing character and the one after it.
   */
  function ReadMap(syn: Alphabet, r: Reader): (res: Result<(map<string, string>, Reader), ReadError>)
    ensures ReadOperator(r, MapOperator(r)).Failure? ==> res == Failure(ReadOperator(r, MapOperator(r)).error)
    ensures ReadOperator(r, MapOperator(r)).Success? ==>
              && (r.start + 1 >= |r.chars| ==> res == Failure(EndOfInput))
              && (r.start + 1 < |r.chars| && r.chars[r.start + 1] != syn.mapOpen ==> res == Failure(Expected(syn.mapOpen)))
              && (r.start + 2 >= |r.chars| ==> res.Failure?)
              && (r.start + 2 < |r.chars| && r.chars[r.start + 1] == syn.mapOpen && r.chars[r.start + 2] == syn.mapClose ==>
                    res == Success((map[], r.(start := r.start + 2, firstValue := false))))
    ensures res.Success? ==>
              && HasMore(r) && r.chars[r.start] == MapOperator(r)
              && r.start + 2 < |r.chars| && r.chars[r.start + 1] == syn.mapOpen
              && res.value.1.chars == r.chars && !res.value.1.firstValue
              && r.start + 2 <= res.value.1.start <= |r.chars|
    // unless MAP_EQUAL is '|' or ';', only the empty map is ever returned
    ensures syn.mapEqual != PROPERTY_DIV && syn.mapEqual != PROPERTY_SEPARATOR && res.Success? ==>
              res.value.0 == map[]
  {
    var r1 :- if !r.firstValue then ReadOperator(r, PROPERTY_EQUALS) else ReadOperator(r, PROPERTY_DIV);
    var r2 := if !r.firstValue then r1 else r1.(firstValue := false);
    if r2.start >= |r2.chars| then Failure(EndOfInput)
    else if r2.chars[r2.start] != syn.mapOpen then Failure(Expected(syn.mapOpen))
    else
      var r3 := r2.(start := r2.start + 1);
      if r3.start >= |r3.chars| then Failure(EndOfInput)
      else if r3.chars[r3.start] == syn.mapClose then Success((map[], r3))
      else ReadEntries(syn, r3, map[])
  }

  /** One `key MAP_EQUAL value` entry of a map. */
  function ReadEntry(syn: Alphabet, r: Reader): (res: Result<(string, string, Reader), ReadError>)
    requires r.start <= |r.chars|
    ensures res.Success? ==>
              && res.value.2.chars == r.chars && res.value.2.firstValue == r.firstValue
              && r.start < res.value.2.start <= |r.chars|
    // a key ends at '|', ';' or end of input, where MAP_EQUAL is then expected
    ensures syn.mapEqual != PROPERTY_DIV && syn.mapEqual != PROPERTY_SEPARATOR ==> res.Failure?
  {
    var key :- ReadString(syn, r);
    var afterEqual :- ReadOperator(key.1, syn.mapEqual);
    var value :- ReadString(syn, afterEqual);
    Success((key.0, value.0, value.1))
  }

  /** The character two before `end` closes a map: a read that stops at `end` has just consumed MAP_CLOSE. */
  predicate ClosedBefore(syn: Alphabet, chars: string, end: nat)
  {
    2 <= end <= |chars| && chars[end - 2] == syn.mapClose
  }

  /** The `do { key MAP_EQUAL value } while (c == MAP_SEPARATOR)` loop of `ReadMap`. */
  function ReadEntries(syn: Alphabet, r: Reader, entries: map<string, string>): (res: Result<(map<string, string>, Reader), ReadError>)
    requires r.start <= |r.chars|
    ensures res.Success? ==>
              && res.value.1.chars == r.chars && res.value.1.firstValue == r.firstValue
              && r.start < res.value.1.start <= |r.chars|
    // a successful read ends one character past the closing MAP_CLOSE
    ensures res.Success? ==> r.start + 2 <= res.value.1.start && ClosedBefore(syn, r.chars, res.value.1.start)
    // no entry can be read, so neither can the map
    ensures syn.mapEqual != PROPERTY_DIV && syn.mapEqual != PROPERTY_SEPARATOR ==> res.Failure?
    decreases |r.chars| - r.start
  {
    match ReadEntry(syn, r)
    case Failure(e) => Failure(e)
    case Success((key, value, r3)) =>
      if r3.start >= |r3.chars| then Failure(IndexOutOfBounds)
      else
        var c := r3.chars[r3.start];
        if r3.start + 1 >= |r3.chars| then Failure(EndOfInput)
        else if c == syn.mapSeparator then ReadEntries(syn, r3.(start := r3.start + 1), entries[key := value])
        else if c != syn.mapClose then Failure(Expected(syn.mapClose))
        else Success((entries[key := value], r3.(start := r3.start + 2)))
  }

  /**
   * A map property as a writer would render it, `name={}`, is rejected: after
   * a property name `ReadMap` expects '|' rather than '='.
   */
  lemma MapPropertyRejected(syn: Alphabet, name: string)
    requires syn.Valid() && syn.IsIdentifier(name)
    ensures var text := name + [PROPERTY_EQUALS, syn.mapOpen, syn.mapClose];
            && ReadPropertyName(syn, Reset(text)) == Success((name, Reader(text, |name|, false, true)))
            && ReadMap(syn, Reader(text, |name|, false, true)) == Failure(Expected(PROPERTY_DIV))
  {
    var text := name + [PROPERTY_EQUALS, syn.mapOpen, syn.mapClose];
    assert text[|name|] == PROPERTY_EQUALS;
    var end := IdentifierEnd(syn, text, 1);
    assert end == |name|;
    assert text[0..end] == name;
  }
}

=== FILE: legacy_meter.dfy ===
/**
 * The operation tracker of the earlier generation (`br.com` `Meter`) as pure
 * transitions over its own state record. It has no thread-current meter,
 * records success as a flag, checks no arguments, and makes some of its
 * trace calls without asking whether trace is enabled (those calls appear in
 * the returned list whatever the threshold; the logger then drops them).
 */
module LegacyMeter {
  import opened Wrappers
  import Text
  import opened Counters
  import opened Logging

  /** The progress throttle in nanoseconds (an instance field that nothing changes). */
  const LIMIT_PROGRESS_TIME: int := 2_000_000

  /**
   * The context is a `HashMap`, which takes a `null` key as well as `null`
   * values, so both are `Option`s here.
   */
  type Context = map<Option<string>, Option<string>>

  datatype State = State(
    category: string,
    position: nat,
    description: Option<string>,
    createTime: int,
    startTime: int,
    stopTime: int,
    currentIteration: int,
    expectedIteration: int,
    timeLimit: int,
    context: Option<Context>,
    success: bool,
    exceptionClass: Option<string>,
    exceptionMessage: Option<string>,
    lastProgressTime: int,
    lastProgressIteration: int)

  datatype Out = Out(meter: State, events: seq<Emission>)

  datatype Created = Created(registry: Registry, meter: State)

  /** `new Meter(logger)`: the position is the incremented counter of the category alone. */
  function New(reg: Registry, category: string, now: int): (c: Created)
    ensures c.meter.position == Current(reg, category) + 1
    ensures c.registry == reg[category := c.meter.position]
    ensures c.meter.category == category && c.meter.createTime == now
    ensures c.meter.startTime == 0 && c.meter.stopTime == 0 && c.meter.currentIteration == 0
    ensures c.meter.context.None? && !c.meter.success
  {
    var issued := Next(reg, category);
    Created(issued.registry,
      State(category, issued.position, None, now, 0, 0, 0, 0, 0, None, false, None, None, 0, 0))
  }

  /**
   * `sub(name)`: a fresh meter on the category `category.name` (so with its
   * own counter), carrying a copy of this meter's context.
   */
  function Sub(reg: Registry, m: State, name: Option<string>, now: int): (c: Created)
    ensures c.meter.category == m.category + "." + Text.NullText(name)
    ensures c.meter.position == Current(reg, c.meter.category) + 1
    ensures c.registry == reg[c.meter.category := c.meter.position]
    ensures c.meter.context == m.context
    ensures c.meter.startTime == 0 && c.meter.stopTime == 0 && c.meter.currentIteration == 0
  {
    var made := New(reg, m.category + "." + Text.NullText(name), now);
    Created(made.registry, made.meter.(context := m.context))
  }

  /** Sub-meters of the same name get successive positions under their own category. */
  lemma SubCountsPerName(reg: Registry, m: State, name: Option<string>, now: int, later: int)
    ensures var first := Sub(reg, m, name, now);
            var second := Sub(first.registry, m, name, later);
            second.meter.category == first.meter.category
            && second.meter.position == first.meter.position + 1
  {
  }

  /** `limit(t)`: the time limit, unchecked. */
  function Limit(m: State, t: int): (r: State)
    ensures r.timeLimit == t
    ensures r.(timeLimit := m.timeLimit) == m
  {
    m.(timeLimit := t)
  }

  // ---------------------------------------------------------------- context

  function ContextOf(m: State): Context {
    if m.context.Some? then m.context.value else map[]
  }

  /** Every `ctx(name, …)` overload: the map is created on first use, then `name` is bound to `value`. */
  function Put(m: State, name: Option<string>, value: Option<string>): (r: State)
    ensures r.context.Some? && name in r.context.value && r.context.value[name] == value
    ensures forall k :: k != name && k in ContextOf(m) ==> k in r.context.value && r.context.value[k] == ContextOf(m)[k]
    ensures forall k :: k in r.context.value ==> k == name || k in ContextOf(m)
    ensures r == m.(context := r.context)
  {
    m.(context := Some(ContextOf(m)[name := value]))
  }

  /** `unctx(name)`: no context means nothing to do; otherwise just that key goes. */
  function Unctx(m: State, name: Option<string>): (r: State)
    ensures m.context.None? ==> r == m
    ensures m.context.Some? ==> r.context.Some? && name !in r.context.value
    ensures m.context.Some? ==> forall k :: k != name ==> (k in r.context.value <==> k in m.context.value)
    ensures m.context.Some? ==> forall k :: k != name && k in m.context.value ==> r.context.value[k] == m.context.value[k]
    ensures r == m.(context := r.context)
  {
    if m.context.None? then m else m.(context := Some(m.context.value - {name}))
  }

  lemma UnctxUndoesPut(m: State, name: Option<string>, value: Option<string>)
    requires m.context.Some? && name !in m.context.value
    ensures Unctx(Put(m, name, value), name) == m
  {
    assert m.context.value[name := value] - {name} == m.context.value;
  }

  // ---------------------------------------------------------------- lifecycle

  /**
   * `start()`: a second start is diagnosed and then overwrites the start and
   * last-progress times anyway; with debug enabled it reports, with trace
   * enabled it writes the data line.
   */
  function Start(m: State, now: int, threshold: nat): (o: Out)
    ensures o.meter == m.(startTime := now, lastProgressTime := now)
    ensures Emission(Error, InconsistentStart) in o.events <==> m.startTime != 0
    ensures Emission(Debug, MsgStart) in o.events <==> Enabled(threshold, Debug)
    ensures Emission(Trace, DataStart) in o.events <==> Enabled(threshold, Trace)
    // in that order, and nothing else
    ensures Staged(o.events, 0, {Emission(Error, InconsistentStart), Emission(Debug, MsgStart), Emission(Trace, DataStart)})
  {
    Out(m.(startTime := now, lastProgressTime := now),
      (if m.startTime != 0 then [Emission(Error, InconsistentStart)] else [])
      + (if Enabled(threshold, Debug) then [Emission(Debug, MsgStart)] else [])
      + (if Enabled(threshold, Trace) then [Emission(Trace, DataStart)] else []))
  }

  /** `inc()`. */
  function Inc(m: State): (r: State)
    ensures r.currentIteration > m.currentIteration
    ensures r == m.(currentIteration := r.currentIteration)
  {
    m.(currentIteration := m.currentIteration + 1)
  }

  /** `incBy(i)`, unchecked: a negative step goes backwards. */
  function IncBy(m: State, i: int): (r: State)
    ensures r.currentIteration - m.currentIteration == i
    ensures r == m.(currentIteration := r.currentIteration)
  {
    m.(currentIteration := m.currentIteration + i)
  }

  /** `incTo(i)`, unchecked: the counter becomes exactly `i`, even below where it was. */
  function IncTo(m: State, i: int): (r: State)
    ensures r.currentIteration == i
    ensures r == m.(currentIteration := i)
  {
    m.(currentIteration := i)
  }

  /** `n` calls of `inc()` are one `incBy(n)`. */
  lemma {:induction false} IncRepeated(m: State, n: nat)
    ensures Repeat(m, n) == IncBy(m, n)
  {
    if n > 0 {
      IncRepeated(m, n - 1);
    }
  }

  function Repeat(m: State, n: nat): State {
    if n == 0 then m else Inc(Repeat(m, n - 1))
  }

  predicate SlowAt(m: State, t: int) {
    m.startTime != 0 && m.timeLimit != 0 && t - m.startTime > m.timeLimit
  }

  predicate ProgressDue(m: State, now: int) {
    m.currentIteration > m.lastProgressIteration && now - m.lastProgressTime > LIMIT_PROGRESS_TIME
  }

  /**
   * `progress()`: when the throttle lets it through, the last-progress pair
   * becomes (iteration, now); with info enabled it reports under the OK
   * marker; a slow meter writes the slow data line unconditionally, otherwise
   * the data line needs trace enabled.
   */
  function Progress(m: State, now: int, threshold: nat): (o: Out)
    ensures !ProgressDue(m, now) ==> o == Out(m, [])
    ensures ProgressDue(m, now) ==>
              o.meter == m.(lastProgressIteration := m.currentIteration, lastProgressTime := now)
    ensures o.meter.lastProgressIteration >= m.lastProgressIteration
    ensures Emission(Info, MsgOk) in o.events <==> ProgressDue(m, now) && Enabled(threshold, Info)
    ensures Emission(Trace, DataSlowProgress) in o.events <==> ProgressDue(m, now) && SlowAt(m, now)
    ensures Emission(Trace, DataProgress) in o.events <==> ProgressDue(m, now) && !SlowAt(m, now) && Enabled(threshold, Trace)
    ensures Emission(Info, MsgProgress) !in o.events
    // in that order, and nothing else
    ensures Staged(o.events, 0, {Emission(Info, MsgOk), Emission(Trace, DataSlowProgress), Emission(Trace, DataProgress)})
  {
    if !ProgressDue(m, now) then Out(m, [])
    else
      Out(m.(lastProgressIteration := m.currentIteration, lastProgressTime := now),
        Reported(SlowAt(m, now), DataProgress, DataSlowProgress, threshold))
  }

  /** Two progress reports are more than the throttle period apart. */
  lemma ProgressSpacing(m: State, now: int, later: int, threshold: nat)
    requires ProgressDue(m, now)
    requires later - now <= LIMIT_PROGRESS_TIME
    ensures var after := Progress(m, now, threshold).meter;
            Progress(after, later, threshold) == Out(after, [])
  {
  }

  /** The two diagnostics every terminal call begins with. */
  function Stopping(m: State, marker: Marker): seq<Emission> {
    StopDiagnostics(m.startTime, m.stopTime, marker)
  }


  /**
   * What `progress` and `ok` log once they report: with info enabled the
   * message line under the OK marker; then a slow meter's data line, logged
   * whatever the threshold, or else the plain one when trace is enabled.
   */
  function Reported(slow: bool, data: Marker, slowData: Marker, threshold: nat): (es: seq<Emission>)
    requires data != slowData && Stage(data) == 2 && Stage(slowData) == 2
    ensures Emission(Info, MsgOk) in es <==> Enabled(threshold, Info)
    ensures Emission(Trace, slowData) in es <==> slow
    ensures Emission(Trace, data) in es <==> !slow && Enabled(threshold, Trace)
    ensures forall e :: e in es ==> e.level != Error
    ensures Staged(es, 0, {Emission(Info, MsgOk), Emission(Trace, slowData), Emission(Trace, data)})
  {
    (if Enabled(threshold, Info) then [Emission(Info, MsgOk)] else [])
    + (if slow then [Emission(Trace, slowData)]
       else if Enabled(threshold, Trace) then [Emission(Trace, data)] else [])
  }

  /**
   * `ok()`: the stop time is overwritten (last call wins) and success set;
   * with info enabled it reports; a slow meter writes the slow data line
   * unconditionally, otherwise the data line needs trace enabled.
   */
  function Ok(m: State, now: int, threshold: nat): (o: Out)
    ensures o.meter == m.(stopTime := now, success := true)
    ensures |o.events| >= |Stopping(m, InconsistentOk)|
    ensures o.events[..|Stopping(m, InconsistentOk)|] == Stopping(m, InconsistentOk)
    ensures Emission(Info, MsgOk) in o.events <==> Enabled(threshold, Info)
    ensures Emission(Trace, DataSlowOk) in o.events <==> SlowAt(m, now)
    ensures Emission(Trace, DataOk) in o.events <==> !SlowAt(m, now) && Enabled(threshold, Trace)
    // after the diagnostics, in that order, and nothing else
    ensures Staged(o.events, |Stopping(m, InconsistentOk)|,
                   {Emission(Info, MsgOk), Emission(Trace, DataSlowOk), Emission(Trace, DataOk)})
  {
    var diagnosed := Stopping(m, InconsistentOk);
    var report := Reported(SlowAt(m, now), DataOk, DataSlowOk, threshold);
    AfterDiagnostics(diagnosed, report, Emission(Info, MsgOk));
    AfterDiagnostics(diagnosed, report, Emission(Trace, DataSlowOk));
    AfterDiagnostics(diagnosed, report, Emission(Trace, DataOk));
    StagedAfter(diagnosed, report, {Emission(Info, MsgOk), Emission(Trace, DataSlowOk), Emission(Trace, DataOk)});
    assert (diagnosed + report)[..|diagnosed|] == diagnosed;
    Out(m.(stopTime := now, success := true), diagnosed + report)
  }

  datatype Thrown = Thrown(className: string, message: Option<string>)

  /**
   * `fail(throwable)`: the stop time is overwritten and success cleared; the
   * exception fields are set only from a non-`null` throwable. With warn
   * enabled it reports, with trace enabled it writes the data line.
   */
  function Fail(m: State, thrown: Option<Thrown>, now: int, threshold: nat): (o: Out)
    ensures o.meter.stopTime == now && !o.meter.success
    ensures thrown.Some? ==>
              o.meter.exceptionClass == Some(thrown.value.className) && o.meter.exceptionMessage == thrown.value.message
    // nothing else changes
    ensures o.meter == m.(stopTime := now, success := false,
                          exceptionClass := o.meter.exceptionClass, exceptionMessage := o.meter.exceptionMessage)
    ensures thrown.None? ==> o.meter == m.(stopTime := now, success := false)
    ensures |o.events| >= |Stopping(m, InconsistentFail)|
    ensures o.events[..|Stopping(m, InconsistentFail)|] == Stopping(m, InconsistentFail)
    ensures Emission(Warn, MsgFail) in o.events <==> Enabled(threshold, Warn)
    ensures Emission(Trace, DataFail) in o.events <==> Enabled(threshold, Trace)
    // after the diagnostics, in that order, and nothing else
    ensures Staged(o.events, |Stopping(m, InconsistentFail)|, {Emission(Warn, MsgFail), Emission(Trace, DataFail)})
  {
    var stopped := match thrown
      case Some(t) => m.(stopTime := now, success := false,
                         exceptionClass := Some(t.className), exceptionMessage := t.message)
      case None => m.(stopTime := now, success := false);
    var diagnosed := Stopping(m, InconsistentFail);
    var report := Failing(threshold);
    AfterDiagnostics(diagnosed, report, Emission(Warn, MsgFail));
    AfterDiagnostics(diagnosed, report, Emission(Trace, DataFail));
    StagedAfter(diagnosed, report, {Emission(Warn, MsgFail), Emission(Trace, DataFail)});
    assert (diagnosed + report)[..|diagnosed|] == diagnosed;
    Out(stopped, diagnosed + report)
  }

  /** What `fail` logs after its diagnostics: the message line with warn enabled, the data line with trace enabled. */
  function Failing(threshold: nat): (es: seq<Emission>)
    ensures Emission(Warn, MsgFail) in es <==> Enabled(threshold, Warn)
    ensures Emission(Trace, DataFail) in es <==> Enabled(threshold, Trace)
    ensures Staged(es, 0, {Emission(Warn, MsgFail), Emission(Trace, DataFail)})
  {
    (if Enabled(threshold, Warn) then [Emission(Warn, MsgFail)] else [])
    + (if Enabled(threshold, Trace) then [Emission(Trace, DataFail)] else [])
  }

  /** `close()`: only a meter not yet stopped fails, with no throwable. */
  function Close(m: State, now: int, threshold: nat): (o: Out)
    ensures m.stopTime != 0 ==> o == Out(m, [])
    ensures m.stopTime == 0 ==> o.meter == m.(stopTime := now, success := false)
    ensures m.stopTime == 0 ==> o == Fail(m, None, now, threshold)
  {
    if m.stopTime == 0 then Fail(m, None, now, threshold) else Out(m, [])
  }

  /** The last terminal call wins: `fail` after `ok` clears success, keeps the exception fields without a throwable. */
  lemma FailAfterOk(m: State, now: int, later: int, threshold: nat)
    requires now != 0
    ensures var done := Fail(Ok(m, now, threshold).meter, None, later, threshold);
            !done.meter.success && done.meter.stopTime == later
            && done.meter.exceptionClass == m.exceptionClass
            && Emission(Error, InconsistentFail) in done.events
  {
    var done := Fail(Ok(m, now, threshold).meter, None, later, threshold);
    assert done.events[0] == Emission(Error, InconsistentFail);
  }

  /** Closing after `ok`, or closing twice, changes nothing. */
  lemma CloseAfterStop(m: State, now: int, later: int, threshold: nat)
    requires now != 0
    ensures var done := Ok(m, now, threshold).meter;
            Close(done, later, threshold) == Out(done, []) && done.success
    ensures var closed := Close(m, now, threshold).meter;
            Close(closed, later, threshold) == Out(closed, [])
  {
  }

  /**
   * The slow data line of `ok` is logged without asking whether trace is
   * enabled. A logger above trace drops it and prints the other calls as
   * made: the stop diagnostics, then the report at info if enabled.
   */
  lemma SlowOkLineDropped(m: State, now: int, threshold: nat)
    requires SlowAt(m, now)
    requires !Enabled(threshold, Trace) && Enabled(threshold, Error)
    ensures Emission(Trace, DataSlowOk) in Ok(m, now, threshold).events
    ensures Printed(threshold, Ok(m, now, threshold).events) ==
              Stopping(m, InconsistentOk) + (if Enabled(threshold, Info) then [Emission(Info, MsgOk)] else [])
  {
    var diagnosed := Stopping(m, InconsistentOk);
    var message := if Enabled(threshold, Info) then [Emission(Info, MsgOk)] else [];
    var line := [Emission(Trace, DataSlowOk)];
    assert Reported(true, DataOk, DataSlowOk, threshold) == message + line;
    assert Ok(m, now, threshold).events == diagnosed + (message + line);
    LineDropped(threshold, diagnosed, message, Emission(Trace, DataSlowOk));
  }

  /** Calls at enabled levels, then one below the threshold: the last is dropped. */
  lemma LineDropped(threshold: nat, diagnosed: seq<Emission>, message: seq<Emission>, line: Emission)
    requires forall e :: e in diagnosed ==> Enabled(threshold, e.level)
    requires forall e :: e in message ==> Enabled(threshold, e.level)
    requires !Enabled(threshold, line.level)
    ensures Printed(threshold, diagnosed + (message + [line])) == diagnosed + message
  {
    PrintedAppend(threshold, diagnosed, message + [line]);
    PrintedAppend(threshold, message, [line]);
    assert forall i :: 0 <= i < |diagnosed| ==> diagnosed[i] in diagnosed;
    assert forall i :: 0 <= i < |message| ==> message[i] in message;
    PrintedAllEnabled(threshold, diagnosed);
    PrintedAllEnabled(threshold, message);
    PrintedOne(threshold, line);
    assert message + [] == message;
  }
}

=== FILE: logging.dfy ===
/**
 * The logger calls a meter makes, as values. A transition returns, in order,
 * the calls it made: each is a level and a marker. Calls a meter guards with
 * `isXEnabled()` depend on the logger's threshold, which is a parameter; an
 * unguarded call is a call whatever the threshold, and whether the logger
 * prints it is up to the logger (see `Printed`).
 */
module Logging {
  datatype Level = Trace | Debug | Info | Warn | Error

  function Rank(l: Level): nat {
    match l
    case Trace => 0
    case Debug => 1
    case Info => 2
    case Warn => 3
    case Error => 4
  }

  /** `isXEnabled()` of a logger that prints levels of rank `threshold` and above (5 prints nothing). */
  predicate Enabled(threshold: nat, l: Level) {
    Rank(l) >= threshold
  }

  /** The markers meters attach to their calls. */
  datatype Marker =
    | Illegal
    | InconsistentStart | InconsistentIncrement | InconsistentProgress
    | InconsistentOk | InconsistentBad | InconsistentFail
    | MsgStart | DataStart
    | MsgProgress | DataProgress | DataSlowProgress
    | MsgOk | MsgSlowOk | DataOk | DataSlowOk
    | MsgBad | MsgSlowBad | DataBad | DataSlowBad
    | MsgFail | DataFail

  datatype Emission = Emission(level: Level, marker: Marker)

  /**
   * Where a call sits in what one meter operation logs: the diagnostics
   * first, then the message line, then the data line.
   */
  function Stage(k: Marker): nat {
    match k
    case MsgStart | MsgProgress | MsgOk | MsgSlowOk | MsgBad | MsgSlowBad | MsgFail => 1
    case DataStart | DataProgress | DataSlowProgress | DataOk | DataSlowOk | DataBad | DataSlowBad | DataFail => 2
    case _ => 0
  }

  /**
   * From index `n` on, every call is one of `allowed` and sits at a later
   * stage than the call before it, so no call repeats and none comes out of
   * order. Together with a statement of which allowed calls occur, this
   * fixes the calls from `n` on completely.
   */
  predicate Staged(es: seq<Emission>, n: nat, allowed: set<Emission>) {
    n <= |es|
    && (forall i :: n <= i < |es| ==> es[i] in allowed)
    && (forall i, j :: n <= i < j < |es| ==> Stage(es[i].marker) < Stage(es[j].marker))
  }

  /** A call below error is found after the diagnostics exactly when the report holds it. */
  lemma AfterDiagnostics(diagnosed: seq<Emission>, report: seq<Emission>, e: Emission)
    requires forall x :: x in diagnosed ==> x.level == Error
    requires e.level != Error
    ensures e in diagnosed + report <==> e in report
  {
  }

  /** Calls staged on their own stay staged behind any prefix. */
  lemma StagedAfter(prefix: seq<Emission>, es: seq<Emission>, allowed: set<Emission>)
    requires Staged(es, 0, allowed)
    ensures Staged(prefix + es, |prefix|, allowed)
  {
    var all := prefix + es;
    assert forall i :: |prefix| <= i < |all| ==> all[i] == es[i - |prefix|];
  }

  /** A diagnostic, if any, followed by staged report calls is staged from the start. */
  lemma StagedBehind(diagnosed: seq<Emission>, es: seq<Emission>, allowed: set<Emission>)
    requires |diagnosed| <= 1 && forall x :: x in diagnosed ==> x in allowed && Stage(x.marker) == 0
    requires Staged(es, 0, allowed) && forall y :: y in es ==> Stage(y.marker) > 0
    ensures Staged(diagnosed + es, 0, allowed)
  {
    var all := diagnosed + es;
    assert forall i :: |diagnosed| <= i < |all| ==> all[i] == es[i - |diagnosed|];
    assert forall i :: 0 <= i < |diagnosed| ==> all[i] == diagnosed[i];
  }

  /**
   * The checks every terminal call of a meter begins with: an error for a
   * meter already stopped, then one for a meter never started.
   */
  function StopDiagnostics(startTime: int, stopTime: int, marker: Marker): (es: seq<Emission>)
    ensures |es| <= 2 && forall e :: e in es ==> e == Emission(Error, marker)
    ensures |es| == 0 <==> startTime != 0 && stopTime == 0
  {
    (if stopTime != 0 then [Emission(Error, marker)] else [])
    + (if startTime == 0 then [Emission(Error, marker)] else [])
  }

  /** The calls among `es` that a logger with this threshold prints, in the order they were made. */
  function Printed(threshold: nat, es: seq<Emission>): (ps: seq<Emission>)
    ensures |ps| <= |es|
    ensures forall e :: e in ps <==> e in es && Enabled(threshold, e.level)
  {
    if |es| == 0 then []
    else
      var rest := Printed(threshold, es[1..]);
      assert es == [es[0]] + es[1..];
      if Enabled(threshold, es[0].level) then [es[0]] + rest else rest
  }

  /** A single call is printed exactly when its level is enabled. */
  lemma PrintedOne(threshold: nat, e: Emission)
    ensures Printed(threshold, [e]) == (if Enabled(threshold, e.level) then [e] else [])
  {
    assert [e][1..] == [];
  }

  /**
   * The logger decides call by call: what it prints of two stretches of calls
   * is what it prints of the first followed by what it prints of the second.
   * With `PrintedOne` this fixes `Printed` completely, order included.
   */
  lemma {:induction false} PrintedAppend(threshold: nat, a: seq<Emission>, b: seq<Emission>)
    ensures Printed(threshold, a + b) == Printed(threshold, a) + Printed(threshold, b)
    decreases |a|
  {
    if |a| > 0 {
      assert (a + b)[0] == a[0];
      assert (a + b)[1..] == a[1..] + b;
      PrintedAppend(threshold, a[1..], b);
    } else {
      assert a + b == b;
    }
  }

  /** Calls all at enabled levels are printed as made. */
  lemma {:induction false} PrintedAllEnabled(threshold: nat, es: seq<Emission>)
    requires forall i :: 0 <= i < |es| ==> Enabled(threshold, es[i].level)
    ensures Printed(threshold, es) == es
    decreases |es|
  {
    if |es| > 0 {
      PrintedAllEnabled(threshold, es[1..]);
      assert es == [es[0]] + es[1..];
    }
  }
}

=== FILE: message_writer.dfy ===
/**
 * The legacy writer that renders `name=v1|v2;name2=v` text into a string
 * builder. A `Writer` is the builder's content plus the first-property flag;
 * every operation returns the writer after the append.
 */
module MessageWriter {
  import opened Syntax
  import Text
  import opened Wrappers

  datatype Writer = Writer(builder: string, firstProperty: bool)

  /** A property to write: its name and its one to four values. */
  type Prop = (string, seq<string>)

  function Reset(builder: string): (w: Writer)
    ensures w.builder == builder && w.firstProperty
  {
    Writer(builder, true)
  }

  /** Number of occurrences of `c` in `s`. */
  function Count(s: string, c: char): nat {
    if |s| == 0 then 0 else (if s[0] == c then 1 else 0) + Count(s[1..], c)
  }

  /** `s` with every '"' replaced by `\"`. */
  function Escape(s: string): (e: string)
    ensures |e| == |s| + Count(s, STRING_DELIM)
    ensures |e| > 0 ==> e[0] != STRING_DELIM
  {
    if |s| == 0 then ""
    else (if s[0] == STRING_DELIM then STRING_DELIM_QUOTED else [s[0]]) + Escape(s[1..])
  }

  /** Reference inverse of `Escape`: every `\"` becomes '"' again. */
  function Unescape(e: string): string {
    if |e| == 0 then ""
    else if |e| >= 2 && e[..2] == STRING_DELIM_QUOTED then [STRING_DELIM] + Unescape(e[2..])
    else [e[0]] + Unescape(e[1..])
  }

  lemma {:induction false} UnescapeEscape(s: string)
    ensures Unescape(Escape(s)) == s
  {
    if |s| > 0 {
      var t := s[1..];
      UnescapeEscape(t);
      if s[0] == STRING_DELIM {
        assert Escape(s) == STRING_DELIM_QUOTED + Escape(t);
        assert (STRING_DELIM_QUOTED + Escape(t))[2..] == Escape(t);
      } else {
        assert Escape(s) == [s[0]] + Escape(t);
        assert ([s[0]] + Escape(t))[1..] == Escape(t);
        if |Escape(t)| > 0 {
          assert ([s[0]] + Escape(t))[..2] == [s[0], Escape(t)[0]];
        }
      }
    }
  }

  /** Appends `"`, the escaped string and `"`; the quoted text unescapes to `s`. */
  function WriteQuotedString(w: Writer, s: string): (w': Writer)
    ensures w'.firstProperty == w.firstProperty
    ensures |w'.builder| == |w.builder| + |s| + 2 + Count(s, STRING_DELIM)
    ensures w'.builder[..|w.builder|] == w.builder
    ensures w'.builder[|w.builder|] == STRING_DELIM && w'.builder[|w'.builder| - 1] == STRING_DELIM
    ensures Unescape(w'.builder[|w.builder| + 1..|w'.builder| - 1]) == s
  {
    var b := w.builder + [STRING_DELIM] + Escape(s) + [STRING_DELIM];
    assert b[|w.builder| + 1..|b| - 1] == Escape(s);
    UnescapeEscape(s);
    w.(builder := b)
  }

  /** Appends the prefix character and DATA_OPEN. */
  function OpenData(syn: Alphabet, w: Writer, c: char): (w': Writer)
    ensures w'.firstProperty == w.firstProperty
    ensures |w'.builder| == |w.builder| + 2 && w'.builder[..|w.builder|] == w.builder
    ensures w'.builder[|w.builder|] == c && w'.builder[|w.builder| + 1] == syn.dataOpen
  {
    w.(builder := w.builder + [c] + [syn.dataOpen])
  }

  /** Appends DATA_CLOSE. */
  function CloseData(syn: Alphabet, w: Writer): (w': Writer)
    ensures w'.firstProperty == w.firstProperty
    ensures |w'.builder| == |w.builder| + 1 && w'.builder[..|w.builder|] == w.builder
    ensures w'.builder[|w.builder|] == syn.dataClose
  {
    w.(builder := w.builder + [syn.dataClose])
  }

  /** The values of one property, separated by '|' in argument order. */
  function Join(values: seq<string>): string
    requires |values| >= 1
  {
    if |values| == 1 then values[0] else values[0] + [PROPERTY_DIV] + Join(values[1..])
  }

  /** Reference inverse of `Join`: the pieces of `s` between '|' characters. */
  function Split(s: string): (pieces: seq<string>)
    ensures |pieces| >= 1
  {
    if |s| == 0 then [""]
    else
      var rest := Split(s[1..]);
      if s[0] == PROPERTY_DIV then [""] + rest else [[s[0]] + rest[0]] + rest[1..]
  }

  lemma {:induction false} SplitPiece(v: string, tail: string)
    requires PROPERTY_DIV !in v
    ensures Split(v + tail) == [v + Split(tail)[0]] + Split(tail)[1..]
  {
    if |v| > 0 {
      SplitPiece(v[1..], tail);
      var st := Split(tail);
      var rest := Split(v[1..] + tail);
      assert (v + tail)[0] == v[0] && v[0] != PROPERTY_DIV;
      assert (v + tail)[1..] == v[1..] + tail;
      assert Split(v + tail) == [[v[0]] + rest[0]] + rest[1..];
      assert rest[0] == v[1..] + st[0] && rest[1..] == st[1..];
      assert [v[0]] + (v[1..] + st[0]) == v + st[0];
    } else {
      assert v + tail == tail;
      assert v + Split(tail)[0] == Split(tail)[0];
    }
  }

  /** Splitting what `Join` wrote recovers the values, when no value contains '|'. */
  lemma {:induction false} SplitJoin(values: seq<string>)
    requires |values| >= 1
    requires forall i :: 0 <= i < |values| ==> PROPERTY_DIV !in values[i]
    ensures Split(Join(values)) == values
  {
    if |values| == 1 {
      SplitPiece(values[0], "");
      assert values[0] + "" == values[0];
      assert Split("") == [""];
    } else {
      SplitJoin(values[1..]);
      var tail := [PROPERTY_DIV] + Join(values[1..]);
      SplitPiece(values[0], tail);
      assert Join(values) == values[0] + tail;
      assert tail[0] == PROPERTY_DIV && tail[1..] == Join(values[1..]);
      assert Split(tail) == [""] + Split(Join(values[1..]));
      assert values[0] + "" == values[0];
      assert values == [values[0]] + values[1..];
    }
  }

  /**
   * The four string overloads of `property`: ';' unless this is the first
   * property, then the name, '=' and the values joined by '|', all verbatim.
   */
  function Property(w: Writer, name: string, values: seq<string>): (w': Writer)
    requires 1 <= |values| <= 4
    ensures !w'.firstProperty
    ensures |w'.builder| > |w.builder| + |name| && w'.builder[..|w.builder|] == w.builder
  {
    var sep := if w.firstProperty then "" else [PROPERTY_SEPARATOR];
    Writer(w.builder + sep + name + [PROPERTY_EQUALS] + Join(values), false)
  }

  /**
   * What `Property` leaves behind: the builder only grows; a ';' comes first
   * unless this was the first property; then the name and '='; and the rest
   * splits on '|' back into the values, when no value contains '|'. The flag
   * is cleared.
   */
  lemma PropertyLayout(w: Writer, name: string, values: seq<string>)
    requires 1 <= |values| <= 4
    ensures var w' := Property(w, name, values);
            var at := |w.builder| + (if w.firstProperty then 0 else 1);
            && !w'.firstProperty
            && at + |name| < |w'.builder|
            && w'.builder[..|w.builder|] == w.builder
            && (!w.firstProperty ==> w'.builder[|w.builder|] == PROPERTY_SEPARATOR)
            && w'.builder[at..at + |name|] == name
            && w'.builder[at + |name|] == PROPERTY_EQUALS
            && ((forall i :: 0 <= i < |values| ==> PROPERTY_DIV !in values[i]) ==>
                  Split(w'.builder[at + |name| + 1..]) == values)
  {
    var sep := if w.firstProperty then "" else [PROPERTY_SEPARATOR];
    var b := Property(w, name, values).builder;
    var at := |w.builder| + |sep|;
    assert b == w.builder + sep + name + [PROPERTY_EQUALS] + Join(values);
    assert b[at + |name| + 1..] == Join(values);
    if forall i :: 0 <= i < |values| ==> PROPERTY_DIV !in values[i] {
      SplitJoin(values);
    }
  }

  /** Decimal renderings of 64-bit values, in order. */
  function ShowAll(values: seq<int>): (texts: seq<string>)
    ensures |texts| == |values|
    ensures forall i :: 0 <= i < |values| ==> texts[i] == Text.ShowLong(values[i])
  {
    seq(|values|, i requires 0 <= i < |values| => Text.ShowLong(values[i]))
  }

  /** The `long` overloads: each value as `Long.toString`, then the string overload. */
  function PropertyLong(w: Writer, name: string, values: seq<int>): (w': Writer)
    requires 1 <= |values| <= 4
    requires forall i :: 0 <= i < |values| ==> Text.IsLong(values[i])
    ensures !w'.firstProperty
    ensures w'.builder == w.builder + (if w.firstProperty then "" else [PROPERTY_SEPARATOR]) + name + [PROPERTY_EQUALS] + Join(ShowAll(values))
    ensures Split(Join(ShowAll(values))) == ShowAll(values)
    ensures forall i :: 0 <= i < |values| ==> Text.ParseLong(ShowAll(values)[i]) == Some(values[i])
  {
    var texts := ShowAll(values);
    forall i | 0 <= i < |values|
      ensures PROPERTY_DIV !in texts[i]
      ensures Text.ParseLong(texts[i]) == Some(values[i])
    {
      Text.ParseShowLong(values[i]);
      NumeralHasNoDiv(values[i]);
    }
    SplitJoin(texts);
    Property(w, name, texts)
  }

  lemma NumeralHasNoDiv(n: int)
    ensures PROPERTY_DIV !in Text.ShowLong(n)
  {
    Text.NumeralChars(n);
  }

  predicate WellFormed(props: seq<Prop>) {
    forall i :: 0 <= i < |props| ==> 1 <= |props[i].1| <= 4
  }

  /** One property as text, without a separator. */
  function Item(p: Prop): string
    requires |p.1| >= 1
  {
    p.0 + [PROPERTY_EQUALS] + Join(p.1)
  }

  /** Properties each preceded by ';'. */
  function Tail(props: seq<Prop>): string
    requires WellFormed(props)
  {
    if |props| == 0 then "" else [PROPERTY_SEPARATOR] + Item(props[0]) + Tail(props[1..])
  }

  /** Reference rendering of a property list: items separated by exactly one ';'. */
  function Render(props: seq<Prop>): string
    requires WellFormed(props)
  {
    if |props| == 0 then "" else Item(props[0]) + Tail(props[1..])
  }

  /** Calls `property` once per list element, in order. */
  function WriteAll(w: Writer, props: seq<Prop>): Writer
    requires WellFormed(props)
    decreases |props|
  {
    if |props| == 0 then w else WriteAll(Property(w, props[0].0, props[0].1), props[1..])
  }

  lemma {:induction false} WriteAllTail(w: Writer, props: seq<Prop>)
    requires WellFormed(props)
    requires !w.firstProperty
    ensures WriteAll(w, props) == Writer(w.builder + Tail(props), w.firstProperty)
    decreases |props|
  {
    if |props| > 0 {
      var w1 := Property(w, props[0].0, props[0].1);
      WriteAllTail(w1, props[1..]);
    }
  }

  /** A fresh writer renders a property list exactly as `Render` describes it. */
  lemma {:induction false} WriteAllRenders(builder: string, props: seq<Prop>)
    requires WellFormed(props)
    ensures WriteAll(Reset(builder), props).builder == builder + Render(props)
    ensures WriteAll(Reset(builder), props).firstProperty <==> |props| == 0
  {
    if |props| > 0 {
      var w1 := Property(Reset(builder), props[0].0, props[0].1);
      WriteAllTail(w1, props[1..]);
    }
  }
}

=== FILE: meter.dfy ===
/**
 * The operation tracker of the current generation (`org.usefultoys` `Meter`)
 * as pure transitions over its own state record. Every transition takes the
 * clock reading `now` and the logger threshold as parameters and returns the
 * new state with the logger calls it made. The thread's "current meter"
 * (a `ThreadLocal`) is an explicit `Option<Ref>` that the lifecycle
 * transitions take and return; a meter is identified by its counter key and
 * position, which the registry never hands out twice.
 */
module Meter {
  import opened Wrappers
  import Text
  import opened Counters
  import opened Logging

  /** `Long.toString`-style text for a `null` boxed value or object. */
  const NULL_VALUE: string := "<null>"

  datatype Ref = Ref(key: string, position: nat)

  /** `Result.OK`, `Result.BAD`, `Result.FAIL`. */
  datatype Outcome = Ok | Bad | Fail

  datatype State = State(
    key: string,
    category: string,
    name: Option<string>,
    position: nat,
    description: Option<string>,
    createTime: int,
    startTime: int,
    stopTime: int,
    iteration: int,
    expectedIterations: int,
    timeLimit: int,
    context: Option<map<string, Option<string>>>,
    result: Option<Outcome>,
    cause: Option<string>,
    exceptionClass: Option<string>,
    exceptionMessage: Option<string>,
    lastProgressTime: int,
    lastProgressIteration: int,
    previous: Option<Ref>)

  function Self(m: State): Ref {
    Ref(m.key, m.position)
  }

  /** A transition that leaves the thread's current meter alone. */
  datatype Out = Out(meter: State, events: seq<Emission>)

  /** A transition that may replace the thread's current meter. */
  datatype Moved = Moved(meter: State, current: Option<Ref>, events: seq<Emission>)

  /** A construction: the updated registry and the new meter. */
  datatype Created = Created(registry: Registry, meter: State, events: seq<Emission>)

  const IllegalCall := Emission(Error, Illegal)

  /** The counter key: the category alone, or `category + "/" + name` for the named constructor. */
  function CounterKey(category: string, named: bool, name: Option<string>): (k: string)
    ensures !named ==> k == category
    ensures named ==> k == category + "/" + Text.NullText(name)
  {
    if named then category + "/" + Text.NullText(name) else category
  }

  function Fresh(reg: Registry, category: string, named: bool, name: Option<string>, now: int): (c: Created)
  {
    var key := CounterKey(category, named, name);
    var issued := Next(reg, key);
    Created(issued.registry,
      State(key, category, if named then name else None, issued.position, None,
        now, 0, 0, 0, 0, 0, None, None, None, None, None, 0, 0, None),
      [])
  }

  /** `new Meter(logger)`: the category's counter is incremented and gives the position. */
  function New(reg: Registry, category: string, now: int): (c: Created)
    ensures c.meter.key == category
    ensures c.meter.position == Current(reg, category) + 1
    ensures c.registry == reg[category := c.meter.position]
    ensures c.meter.category == category && c.meter.name.None? && c.meter.createTime == now
    ensures c.meter.startTime == 0 && c.meter.stopTime == 0 && c.meter.iteration == 0
    ensures c.meter.result.None? && c.meter.context.None? && c.events == []
  {
    Fresh(reg, category, false, None, now)
  }

  /** `new Meter(logger, name)`: the counter of `category/name` is incremented and gives the position. */
  function NewNamed(reg: Registry, category: string, name: Option<string>, now: int): (c: Created)
    ensures c.meter.key == category + "/" + Text.NullText(name)
    ensures c.meter.position == Current(reg, category + "/" + Text.NullText(name)) + 1
    ensures c.registry == reg[category + "/" + Text.NullText(name) := c.meter.position]
    ensures c.meter.category == category && c.meter.name == name && c.meter.createTime == now
    ensures c.meter.startTime == 0 && c.meter.stopTime == 0 && c.meter.iteration == 0
    ensures c.meter.result.None? && c.meter.context.None? && c.events == []
  {
    Fresh(reg, category, true, name, now)
  }

  /**
   * `sub(name)`: a named meter on the same category whose name extends this
   * meter's name with `/`, carrying a copy of the context. A `null` name is
   * diagnosed but the sub-meter is still created.
   */
  function Sub(reg: Registry, m: State, name: Option<string>, now: int): (c: Created)
    ensures c.meter.category == m.category
    ensures m.name.None? ==> c.meter.name == name
    ensures m.name.Some? ==> c.meter.name == Some(m.name.value + "/" + Text.NullText(name))
    ensures c.meter.key == m.category + "/" + Text.NullText(c.meter.name)
    ensures c.meter.position == Current(reg, c.meter.key) + 1
    ensures c.registry == reg[c.meter.key := c.meter.position]
    ensures c.meter.context == m.context
    ensures c.meter.startTime == 0 && c.meter.stopTime == 0
    ensures c.events == (if name.None? then [IllegalCall] else [])
  {
    var subName := if m.name.None? then name else Some(m.name.value + "/" + Text.NullText(name));
    var made := NewNamed(reg, m.category, subName, now);
    Created(made.registry, made.meter.(context := m.context),
      if name.None? then [IllegalCall] else [])
  }

  /**
   * A sub-meter is the meter the named constructor makes for the extended
   * name: same key, same position, same registry; only the context is copied
   * over.
   */
  lemma SubIsNamedMeter(reg: Registry, m: State, name: Option<string>, now: int)
    ensures var extended := if m.name.None? then name else Some(m.name.value + "/" + Text.NullText(name));
            var sub := Sub(reg, m, name, now);
            var named := NewNamed(reg, m.category, extended, now);
            sub.registry == named.registry && sub.meter == named.meter.(context := m.context)
  {
  }

  /** `m(message)`: the description is replaced even by `null`, which is diagnosed. */
  function Describe(m: State, message: Option<string>): (o: Out)
    ensures o.meter == m.(description := message)
    ensures o.events == (if message.None? then [IllegalCall] else [])
  {
    Out(m.(description := message), if message.None? then [IllegalCall] else [])
  }

  /** `limitMilliseconds(ms)`: a non-positive limit is refused; otherwise stored in nanoseconds (as a `long`). */
  function LimitMilliseconds(m: State, ms: int): (o: Out)
    ensures ms <= 0 ==> o == Out(m, [IllegalCall])
    ensures ms > 0 ==> o.events == [] && o.meter == m.(timeLimit := o.meter.timeLimit)
    ensures ms > 0 && Text.IsLong(ms * 1_000_000) ==> o.meter.timeLimit == ms * 1_000_000
    ensures ms > 0 ==> (o.meter.timeLimit - ms * 1_000_000) % 0x1_0000_0000_0000_0000 == 0
    ensures ms > 0 ==> Text.IsLong(o.meter.timeLimit)
  {
    // Two wrapping `long` multiplications by 1000 wrap the same as one by 1,000,000 (`LimitAsWritten`).
    if ms <= 0 then Out(m, [IllegalCall])
    else Out(m.(timeLimit := Text.WrapLong(ms * 1_000_000)), [])
  }

  /** The stored limit is `timeLimitMilliseconds * 1000 * 1000` evaluated as Java does, one wrapping step at a time. */
  lemma LimitAsWritten(m: State, ms: int)
    requires ms > 0
    ensures LimitMilliseconds(m, ms).meter.timeLimit == Text.WrapLong(Text.WrapLong(ms * 1000) * 1000)
  {
    Text.WrapLongMul(ms * 1000, 1000);
    assert ms * 1000 * 1000 == ms * 1_000_000;
  }

  /** `iterations(n)`: a non-positive expectation is refused. */
  function Iterations(m: State, n: int): (o: Out)
    ensures n <= 0 ==> o == Out(m, [IllegalCall])
    ensures n > 0 ==> o == Out(m.(expectedIterations := n), [])
  {
    if n <= 0 then Out(m, [IllegalCall]) else Out(m.(expectedIterations := n), [])
  }

  // ---------------------------------------------------------------- context

  function ContextOf(m: State): map<string, Option<string>> {
    if m.context.Some? then m.context.value else map[]
  }

  /**
   * The common shape of every `ctx(name, …)` overload: a `null` name is
   * refused; otherwise the context is created on first use and `name` is
   * bound to `value` (`None` is a `null` value).
   */
  function Put(m: State, name: Option<string>, value: Option<string>): (o: Out)
    ensures name.None? ==> o == Out(m, [IllegalCall])
    ensures name.Some? ==> o.events == [] && o.meter == m.(context := o.meter.context)
    ensures name.Some? ==> o.meter.context == Some(ContextOf(m)[name.value := value])
  {
    match name
    case None => Out(m, [IllegalCall])
    case Some(n) => Out(m.(context := Some(ContextOf(m)[n := value])), [])
  }

  /** `ctx(name)`: the name with a `null` value. */
  function CtxFlag(m: State, name: Option<string>): (o: Out)
    ensures name.None? ==> o == Out(m, [IllegalCall])
    ensures name.Some? ==> o.events == [] && o.meter == m.(context := o.meter.context)
    ensures name.Some? ==> o.meter.context == Some(ContextOf(m)[name.value := None])
  {
    Put(m, name, None)
  }

  /** `ctx(name, int)` and `ctx(name, long)`: the decimal text of the value. */
  function CtxLong(m: State, name: Option<string>, value: int): (o: Out)
    requires Text.IsLong(value)
    ensures name.None? ==> o == Out(m, [IllegalCall])
    ensures name.Some? ==> o.events == [] && o.meter == m.(context := o.meter.context)
    ensures name.Some? ==> o.meter.context == Some(ContextOf(m)[name.value := Some(Text.ShowLong(value))])
    ensures name.Some? ==> Text.ParseLong(o.meter.context.value[name.value].value) == Some(value)
  {
    Text.ParseShowLong(value);
    Put(m, name, Some(Text.ShowLong(value)))
  }

  /** `ctx(name, boolean)`: `Boolean.toString`. */
  function CtxBool(m: State, name: Option<string>, value: bool): (o: Out)
    ensures name.None? ==> o == Out(m, [IllegalCall])
    ensures name.Some? ==> o.events == [] && o.meter == m.(context := o.meter.context)
    ensures name.Some? ==> o.meter.context == Some(ContextOf(m)[name.value := Some(if value then "true" else "false")])
  {
    Put(m, name, Some(if value then "true" else "false"))
  }

  /**
   * `ctx(name, Integer|Long|Boolean|Object)`: the value's `toString` (given
   * as `text`), or `"<null>"` for a `null` reference.
   */
  function CtxBoxed(m: State, name: Option<string>, text: Option<string>): (o: Out)
    ensures name.None? ==> o == Out(m, [IllegalCall])
    ensures name.Some? ==> o.events == [] && o.meter == m.(context := o.meter.context)
    ensures name.Some? && text.None? ==> o.meter.context == Some(ContextOf(m)[name.value := Some(NULL_VALUE)])
    ensures name.Some? && text.Some? ==> o.meter.context == Some(ContextOf(m)[name.value := text])
  {
    Put(m, name, Some(if text.None? then NULL_VALUE else text.value))
  }

  /** `unctx(name)`: a `null` name is refused; an absent context is left alone; otherwise the name is removed. */
  function Unctx(m: State, name: Option<string>): (o: Out)
    ensures name.None? ==> o == Out(m, [IllegalCall])
    ensures name.Some? && m.context.None? ==> o == Out(m, [])
    ensures name.Some? && m.context.Some? ==>
              o.events == [] && o.meter == m.(context := Some(m.context.value - {name.value}))
  {
    match name
    case None => Out(m, [IllegalCall])
    case Some(n) => if m.context.None? then Out(m, []) else Out(m.(context := Some(m.context.value - {n})), [])
  }

  /** Removing a name just added gives back the context, provided it existed and lacked the name. */
  lemma UnctxUndoesPut(m: State, name: string, value: Option<string>)
    requires m.context.Some? && name !in m.context.value
    ensures Unctx(Put(m, Some(name), value).meter, Some(name)).meter == m
  {
    assert m.context.value[name := value] - {name} == m.context.value;
  }

  /** On a meter with no context yet, the same pair leaves an empty context behind instead of none. */
  lemma UnctxAfterFirstPut(m: State, name: string, value: Option<string>)
    requires m.context.None?
    ensures Unctx(Put(m, Some(name), value).meter, Some(name)).meter == m.(context := Some(map[]))
  {
    assert map[name := value] - {name} == map[];
  }

  /** What logging a message does to the context: it is cleared if it exists. */
  function Cleared(context: Option<map<string, Option<string>>>): Option<map<string, Option<string>>> {
    if context.Some? then Some(map[]) else None
  }

  // ---------------------------------------------------------------- lifecycle

  /**
   * `start()`: a meter not yet started saves the thread's current meter and
   * becomes current; a started one is diagnosed and leaves both alone. In
   * both cases the start and last-progress times become `now`. With debug
   * enabled it reports, with trace also the data line, and clears the context.
   */
  function Start(m: State, current: Option<Ref>, now: int, threshold: nat): (s: Moved)
    ensures s.meter.startTime == now && s.meter.lastProgressTime == now
    ensures m.startTime == 0 ==> s.current == Some(Self(m)) && s.meter.previous == current
    ensures m.startTime != 0 ==> s.current == current && s.meter.previous == m.previous
    ensures Emission(Error, InconsistentStart) in s.events <==> m.startTime != 0
    ensures Emission(Debug, MsgStart) in s.events <==> Enabled(threshold, Debug)
    ensures Emission(Trace, DataStart) in s.events <==> Enabled(threshold, Trace)
    // in that order, and nothing else
    ensures Staged(s.events, 0, {Emission(Error, InconsistentStart), Emission(Debug, MsgStart), Emission(Trace, DataStart)})
    ensures Self(s.meter) == Self(m)
    // nothing else changes, except that debug clears the context
    ensures s.meter == m.(startTime := now, lastProgressTime := now, previous := s.meter.previous, context := s.meter.context)
    ensures s.meter.context == (if Enabled(threshold, Debug) then Cleared(m.context) else m.context)
  {
    var diagnosed := if m.startTime != 0 then [Emission(Error, InconsistentStart)] else [];
    var previous := if m.startTime != 0 then m.previous else current;
    var current' := if m.startTime != 0 then current else Some(Self(m));
    var started := m.(startTime := now, lastProgressTime := now, previous := previous);
    var report := Announced(started, threshold);
    AfterDiagnostics(diagnosed, report.events, Emission(Debug, MsgStart));
    AfterDiagnostics(diagnosed, report.events, Emission(Trace, DataStart));
    StagedBehind(diagnosed, report.events,
                 {Emission(Error, InconsistentStart), Emission(Debug, MsgStart), Emission(Trace, DataStart)});
    Moved(report.meter, current', diagnosed + report.events)
  }

  /** The report `start` makes: with debug enabled the message, with trace also the data line, and the context is cleared. */
  function Announced(started: State, threshold: nat): (o: Out)
    ensures o.meter == (if Enabled(threshold, Debug) then started.(context := Cleared(started.context)) else started)
    ensures Emission(Debug, MsgStart) in o.events <==> Enabled(threshold, Debug)
    ensures Emission(Trace, DataStart) in o.events <==> Enabled(threshold, Trace)
    ensures forall e :: e in o.events ==> e.level != Error && Stage(e.marker) > 0
    ensures Staged(o.events, 0, {Emission(Error, InconsistentStart), Emission(Debug, MsgStart), Emission(Trace, DataStart)})
  {
    if !Enabled(threshold, Debug) then Out(started, [])
    else Out(started.(context := Cleared(started.context)),
             [Emission(Debug, MsgStart)] + (if Enabled(threshold, Trace) then [Emission(Trace, DataStart)] else []))
  }

  function NotStarted(m: State): seq<Emission> {
    if m.startTime == 0 then [Emission(Error, InconsistentIncrement)] else []
  }

  /** `inc()`: one more iteration; an unstarted meter is diagnosed but counts anyway. */
  function Inc(m: State): (o: Out)
    ensures o.meter == m.(iteration := m.iteration + 1)
    ensures Emission(Error, InconsistentIncrement) in o.events <==> m.startTime == 0
  {
    Out(m.(iteration := m.iteration + 1), NotStarted(m))
  }

  /** `incBy(k)`: a non-positive step is refused (after the not-started diagnostic); otherwise added. */
  function IncBy(m: State, k: int): (o: Out)
    ensures k <= 0 ==> o.meter == m && IllegalCall in o.events
    ensures k > 0 ==> o.meter == m.(iteration := m.iteration + k) && IllegalCall !in o.events
    ensures o.meter.iteration >= m.iteration
    ensures Emission(Error, InconsistentIncrement) in o.events <==> m.startTime == 0
  {
    if k <= 0 then Out(m, NotStarted(m) + [IllegalCall])
    else Out(m.(iteration := m.iteration + k), NotStarted(m))
  }

  /**
   * `incTo(n)`: a non-positive target is refused; a target not beyond the
   * current iteration is diagnosed as non-forward and still assigned.
   */
  function IncTo(m: State, n: int): (o: Out)
    ensures n <= 0 ==> o.meter == m && o.events == NotStarted(m) + [IllegalCall]
    ensures n > 0 ==> o.meter == m.(iteration := n)
    ensures n > 0 && n <= m.iteration ==> o.events == NotStarted(m) + [IllegalCall]
    ensures n > 0 && n > m.iteration ==> o.events == NotStarted(m)
  {
    if n <= 0 then Out(m, NotStarted(m) + [IllegalCall])
    else if n <= m.iteration then Out(m.(iteration := n), NotStarted(m) + [IllegalCall])
    else Out(m.(iteration := n), NotStarted(m))
  }

  /** `n` calls of `inc()`. */
  function Repeat(m: State, n: nat): Out {
    if n == 0 then Out(m, []) else
      var before := Repeat(m, n - 1);
      var step := Inc(before.meter);
      Out(step.meter, before.events + step.events)
  }

  /**
   * On a started meter, `n` calls of `inc()` are one `incBy(n)`: the same
   * iteration and no diagnostic either way.
   */
  lemma {:induction false} IncRepeated(m: State, n: nat)
    requires m.startTime != 0 && n > 0
    ensures Repeat(m, n) == IncBy(m, n)
  {
    if n > 1 {
      IncRepeated(m, n - 1);
    }
  }

  /** A forward `incTo` is the `incBy` of the difference, diagnostics included. */
  lemma IncToIsIncBy(m: State, n: int)
    requires n > m.iteration && n > 0
    ensures IncTo(m, n) == IncBy(m, n - m.iteration)
  {
  }

  /** The progress throttle: new iterations since the last report, and more than `period` since then. */
  predicate ProgressDue(m: State, now: int, period: int) {
    m.iteration > m.lastProgressIteration && now - m.lastProgressTime > period
  }

  predicate SlowAt(m: State, t: int) {
    m.startTime != 0 && m.timeLimit != 0 && t - m.startTime > m.timeLimit
  }

  /**
   * `progress()`: an unstarted meter is diagnosed. When the throttle lets it
   * through, the last-progress pair becomes (iteration, now); with info
   * enabled it reports, with trace also the (slow) data line, and clears the
   * context.
   */
  function Progress(m: State, now: int, period: int, threshold: nat): (o: Out)
    ensures o.meter.lastProgressIteration >= m.lastProgressIteration
    ensures ProgressDue(m, now, period) ==>
              o.meter.lastProgressIteration == m.iteration && o.meter.lastProgressTime == now
    ensures !ProgressDue(m, now, period) ==> o.meter == m
    ensures Emission(Info, MsgProgress) in o.events <==> ProgressDue(m, now, period) && Enabled(threshold, Info)
    ensures Emission(Trace, DataSlowProgress) in o.events <==> ProgressDue(m, now, period) && Enabled(threshold, Trace) && SlowAt(m, now)
    ensures Emission(Trace, DataProgress) in o.events <==> ProgressDue(m, now, period) && Enabled(threshold, Trace) && !SlowAt(m, now)
    ensures Emission(Error, InconsistentProgress) in o.events <==> m.startTime == 0
    // in that order, and nothing else
    ensures Staged(o.events, 0, {Emission(Error, InconsistentProgress), Emission(Info, MsgProgress),
                                 Emission(Trace, DataSlowProgress), Emission(Trace, DataProgress)})
    // nothing else changes, except that a report clears the context
    ensures o.meter == m.(lastProgressIteration := o.meter.lastProgressIteration, lastProgressTime := o.meter.lastProgressTime,
                          context := o.meter.context)
    ensures o.meter.context == (if ProgressDue(m, now, period) && Enabled(threshold, Info) then Cleared(m.context) else m.context)
  {
    var diagnosed := if m.startTime == 0 then [Emission(Error, InconsistentProgress)] else [];
    if !ProgressDue(m, now, period) then Out(m, diagnosed)
    else
      var report := ProgressReport(m.(lastProgressIteration := m.iteration, lastProgressTime := now), SlowAt(m, now), threshold);
      AfterDiagnostics(diagnosed, report.events, Emission(Info, MsgProgress));
      AfterDiagnostics(diagnosed, report.events, Emission(Trace, DataSlowProgress));
      AfterDiagnostics(diagnosed, report.events, Emission(Trace, DataProgress));
      StagedBehind(diagnosed, report.events, {Emission(Error, InconsistentProgress), Emission(Info, MsgProgress),
                                              Emission(Trace, DataSlowProgress), Emission(Trace, DataProgress)});
      Out(report.meter, diagnosed + report.events)
  }

  /**
   * The report `progress` makes once the throttle lets it through: with
   * info enabled the message, with trace also the (slow) data line, and the
   * context is cleared.
   */
  function ProgressReport(reported: State, slow: bool, threshold: nat): (o: Out)
    ensures o.meter == (if Enabled(threshold, Info) then reported.(context := Cleared(reported.context)) else reported)
    ensures Emission(Info, MsgProgress) in o.events <==> Enabled(threshold, Info)
    ensures Emission(Trace, DataSlowProgress) in o.events <==> Enabled(threshold, Trace) && slow
    ensures Emission(Trace, DataProgress) in o.events <==> Enabled(threshold, Trace) && !slow
    ensures forall e :: e in o.events ==> e.level != Error && Stage(e.marker) > 0
    ensures Staged(o.events, 0, {Emission(Error, InconsistentProgress), Emission(Info, MsgProgress),
                                 Emission(Trace, DataSlowProgress), Emission(Trace, DataProgress)})
  {
    if !Enabled(threshold, Info) then Out(reported, [])
    else
      var data := if !Enabled(threshold, Trace) then []
        else if slow then [Emission(Trace, DataSlowProgress)]
        else [Emission(Trace, DataProgress)];
      Out(reported.(context := Cleared(reported.context)), [Emission(Info, MsgProgress)] + data)
  }

  /** After a report at `now`, another progress within the period reports nothing and changes nothing. */
  lemma ProgressSpacing(m: State, now: int, later: int, period: int, threshold: nat)
    requires ProgressDue(m, now, period)
    requires later - now <= period
    ensures var after := Progress(m, now, period, threshold).meter;
            Progress(after, later, period, threshold).meter == after
            && Emission(Info, MsgProgress) !in Progress(after, later, period, threshold).events
  {
  }

  /** Without new iterations, progress never reports, however much time has passed. */
  lemma ProgressNeedsIterations(m: State, now: int, period: int, threshold: nat)
    requires m.iteration <= m.lastProgressIteration
    ensures Progress(m, now, period, threshold).meter == m
    ensures Emission(Info, MsgProgress) !in Progress(m, now, period, threshold).events
  {
  }

  /** The two diagnostics every terminal call begins with. */
  function Stopping(m: State, marker: Marker): seq<Emission> {
    StopDiagnostics(m.startTime, m.stopTime, marker)
  }


  /** The stop diagnostics, then one more error when the call's argument was `null`. */
  function Diagnosed(m: State, marker: Marker, nullArgument: bool): (es: seq<Emission>)
    ensures forall e :: e in es ==> e == Emission(Error, marker)
    ensures |es| >= |Stopping(m, marker)| && es[..|Stopping(m, marker)|] == Stopping(m, marker)
    ensures |es| == |Stopping(m, marker)| + (if nullArgument then 1 else 0)
    ensures nullArgument ==> es[|Stopping(m, marker)|] == Emission(Error, marker)
  {
    Stopping(m, marker) + (if nullArgument then [Emission(Error, marker)] else [])
  }

  /** A prefix of a prefix is a prefix, and the element after it is the same in both. */
  lemma PrefixWithin<T>(a: seq<T>, b: seq<T>, c: seq<T>)
    requires |b| <= |a| && a[..|b|] == b && |c| <= |b| && b[..|c|] == c
    ensures a[..|c|] == c
    ensures |c| < |b| ==> a[|c|] == b[|c|]
  {
    assert a[..|c|] == a[..|b|][..|c|];
    if |c| < |b| {
      assert a[|c|] == a[..|b|][|c|];
    }
  }

  /**
   * The report `ok` and `bad` make once stopped: with warn enabled, the slow
   * message at warn or else (info enabled) the plain one at info; with trace
   * enabled, the (slow) data line; and the context is cleared.
   */
  function Concluded(m: State, msg: Marker, slowMsg: Marker, data: Marker, slowData: Marker, threshold: nat): (o: Out)
    requires data != slowData
    requires Stage(msg) == 1 && Stage(slowMsg) == 1 && Stage(data) == 2 && Stage(slowData) == 2
    ensures o.meter == (if Enabled(threshold, Warn) then m.(context := Cleared(m.context)) else m)
    ensures forall e :: e in o.events ==> e.level != Error
    ensures Emission(Warn, slowMsg) in o.events <==> Enabled(threshold, Warn) && SlowAt(m, m.stopTime)
    ensures Emission(Info, msg) in o.events <==> Enabled(threshold, Info) && !SlowAt(m, m.stopTime)
    ensures Emission(Trace, slowData) in o.events <==> Enabled(threshold, Trace) && SlowAt(m, m.stopTime)
    ensures Emission(Trace, data) in o.events <==> Enabled(threshold, Trace) && !SlowAt(m, m.stopTime)
    ensures Staged(o.events, 0, {Emission(Warn, slowMsg), Emission(Info, msg), Emission(Trace, slowData), Emission(Trace, data)})
  {
    if !Enabled(threshold, Warn) then Out(m, [])
    else
      var slow := SlowAt(m, m.stopTime);
      var message := if slow then [Emission(Warn, slowMsg)] else if Enabled(threshold, Info) then [Emission(Info, msg)] else [];
      var line := if !Enabled(threshold, Trace) then [] else if slow then [Emission(Trace, slowData)] else [Emission(Trace, data)];
      Out(m.(context := Cleared(m.context)), message + line)
  }

  /**
   * The whole of a call to `ok` or `bad` once the meter is `stopped`: the
   * error diagnostics come first, then the report; the thread's current
   * meter goes back to the one saved by `start`.
   */
  function Reported(m: State, stopped: State, diagnosed: seq<Emission>,
                    msg: Marker, slowMsg: Marker, data: Marker, slowData: Marker, threshold: nat): (s: Moved)
    requires data != slowData
    requires Stage(msg) == 1 && Stage(slowMsg) == 1 && Stage(data) == 2 && Stage(slowData) == 2
    requires forall e :: e in diagnosed ==> e.level == Error
    ensures s.current == m.previous
    ensures s.meter == (if Enabled(threshold, Warn) then stopped.(context := Cleared(stopped.context)) else stopped)
    ensures |s.events| >= |diagnosed| && s.events[..|diagnosed|] == diagnosed
    ensures Emission(Warn, slowMsg) in s.events <==> Enabled(threshold, Warn) && SlowAt(stopped, stopped.stopTime)
    ensures Emission(Info, msg) in s.events <==> Enabled(threshold, Info) && !SlowAt(stopped, stopped.stopTime)
    ensures Emission(Trace, slowData) in s.events <==> Enabled(threshold, Trace) && SlowAt(stopped, stopped.stopTime)
    ensures Emission(Trace, data) in s.events <==> Enabled(threshold, Trace) && !SlowAt(stopped, stopped.stopTime)
    ensures Staged(s.events, |diagnosed|, {Emission(Warn, slowMsg), Emission(Info, msg), Emission(Trace, slowData), Emission(Trace, data)})
  {
    var report := Concluded(stopped, msg, slowMsg, data, slowData, threshold);
    AfterDiagnostics(diagnosed, report.events, Emission(Warn, slowMsg));
    AfterDiagnostics(diagnosed, report.events, Emission(Info, msg));
    AfterDiagnostics(diagnosed, report.events, Emission(Trace, slowData));
    AfterDiagnostics(diagnosed, report.events, Emission(Trace, data));
    StagedAfter(diagnosed, report.events,
                {Emission(Warn, slowMsg), Emission(Info, msg), Emission(Trace, slowData), Emission(Trace, data)});
    assert (diagnosed + report.events)[..|diagnosed|] == diagnosed;
    Moved(report.meter, m.previous, diagnosed + report.events)
  }

  /**
   * `ok()`: the stop time is overwritten (last call wins), the result is OK
   * and the thread's current meter goes back to the one saved by `start`.
   */
  function Ok(m: State, current: Option<Ref>, now: int, threshold: nat): (s: Moved)
    ensures s.meter.stopTime == now && s.meter.result == Some(Outcome.Ok)
    ensures s.current == m.previous
    ensures |s.events| >= |Stopping(m, InconsistentOk)|
    ensures s.events[..|Stopping(m, InconsistentOk)|] == Stopping(m, InconsistentOk)
    ensures Emission(Warn, MsgSlowOk) in s.events <==> Enabled(threshold, Warn) && SlowAt(m, now)
    ensures Emission(Info, MsgOk) in s.events <==> Enabled(threshold, Info) && !SlowAt(m, now)
    ensures Emission(Trace, DataSlowOk) in s.events <==> Enabled(threshold, Trace) && SlowAt(m, now)
    ensures Emission(Trace, DataOk) in s.events <==> Enabled(threshold, Trace) && !SlowAt(m, now)
    // after the diagnostics, in that order, and nothing else
    ensures Staged(s.events, |Stopping(m, InconsistentOk)|,
                   {Emission(Warn, MsgSlowOk), Emission(Info, MsgOk), Emission(Trace, DataSlowOk), Emission(Trace, DataOk)})
    // nothing else changes, except that warn clears the context
    ensures s.meter == m.(stopTime := now, result := Some(Outcome.Ok), context := s.meter.context)
    ensures s.meter.context == (if Enabled(threshold, Warn) then Cleared(m.context) else m.context)
  {
    var stopped := m.(stopTime := now, result := Some(Outcome.Ok));
    Reported(m, stopped, Stopping(m, InconsistentOk), MsgOk, MsgSlowOk, DataOk, DataSlowOk, threshold)
  }

  /** What `bad(cause)` is given: the instanceof tests are the variants. */
  datatype Cause =
    | CauseString(text: string)
    | CauseEnum(enumName: string)
    | CauseThrowable(simpleName: string)
    | CauseObject(toText: string)
    | CauseNull

  /** The cause text `bad` records, or `None` for `null`, which leaves the previous cause. */
  function CauseText(c: Cause): (t: Option<string>)
    ensures c.CauseNull? <==> t.None?
    ensures c.CauseString? ==> t == Some(c.text)
    ensures c.CauseEnum? ==> t == Some(c.enumName)
    ensures c.CauseThrowable? ==> t == Some(c.simpleName)
    ensures c.CauseObject? ==> t == Some(c.toText)
  {
    match c
    case CauseString(s) => Some(s)
    case CauseEnum(n) => Some(n)
    case CauseThrowable(n) => Some(n)
    case CauseObject(s) => Some(s)
    case CauseNull => None
  }

  /**
   * `bad(cause)`: like `ok`, with result BAD and the cause recorded; a `null`
   * cause is diagnosed and the previous cause kept.
   */
  function Bad(m: State, current: Option<Ref>, cause: Cause, now: int, threshold: nat): (s: Moved)
    ensures s.meter.stopTime == now && s.meter.result == Some(Outcome.Bad)
    ensures s.current == m.previous
    ensures cause.CauseNull? ==> s.meter.cause == m.cause
    ensures !cause.CauseNull? ==> s.meter.cause == CauseText(cause)
    ensures |s.events| >= |Stopping(m, InconsistentBad)|
    ensures s.events[..|Stopping(m, InconsistentBad)|] == Stopping(m, InconsistentBad)
    ensures cause.CauseNull? <==> |s.events| > |Stopping(m, InconsistentBad)| && s.events[|Stopping(m, InconsistentBad)|] == Emission(Error, InconsistentBad)
    ensures Emission(Warn, MsgSlowBad) in s.events <==> Enabled(threshold, Warn) && SlowAt(m, now)
    ensures Emission(Info, MsgBad) in s.events <==> Enabled(threshold, Info) && !SlowAt(m, now)
    ensures Emission(Trace, DataSlowBad) in s.events <==> Enabled(threshold, Trace) && SlowAt(m, now)
    ensures Emission(Trace, DataBad) in s.events <==> Enabled(threshold, Trace) && !SlowAt(m, now)
    // after the diagnostics, in that order, and nothing else
    ensures Staged(s.events, |Stopping(m, InconsistentBad)| + (if cause.CauseNull? then 1 else 0),
                   {Emission(Warn, MsgSlowBad), Emission(Info, MsgBad), Emission(Trace, DataSlowBad), Emission(Trace, DataBad)})
    // nothing else changes, except that warn clears the context
    ensures s.meter == m.(stopTime := now, result := Some(Outcome.Bad), cause := s.meter.cause, context := s.meter.context)
    ensures s.meter.context == (if Enabled(threshold, Warn) then Cleared(m.context) else m.context)
  {
    var text := CauseText(cause);
    var stopped := m.(stopTime := now, result := Some(Outcome.Bad),
                      cause := if text.Some? then text else m.cause);
    var diagnosed := Diagnosed(m, InconsistentBad, text.None?);
    var s := Reported(m, stopped, diagnosed, MsgBad, MsgSlowBad, DataBad, DataSlowBad, threshold);
    PrefixWithin(s.events, diagnosed, Stopping(m, InconsistentBad));
    assert |diagnosed| == |Stopping(m, InconsistentBad)| + (if cause.CauseNull? then 1 else 0);
    s
  }

  /** A throwable handed to `fail`: its class name and its (possibly `null`) localized message. */
  datatype Thrown = Thrown(className: string, message: Option<string>)

  /**
   * `fail(throwable)`: result FAIL, the stop time overwritten, the current
   * meter restored; the exception fields are set from a non-`null`
   * throwable, a `null` one is diagnosed and leaves them. With error
   * enabled it reports, with trace also the data line, and clears the context.
   */
  function Fail(m: State, current: Option<Ref>, thrown: Option<Thrown>, now: int, threshold: nat): (s: Moved)
    ensures s.meter.stopTime == now && s.meter.result == Some(Outcome.Fail)
    ensures s.current == m.previous
    ensures thrown.Some? ==>
              s.meter.exceptionClass == Some(thrown.value.className) && s.meter.exceptionMessage == thrown.value.message
    ensures thrown.None? ==>
              s.meter.exceptionClass == m.exceptionClass && s.meter.exceptionMessage == m.exceptionMessage
    ensures |s.events| >= |Stopping(m, InconsistentFail)|
    ensures s.events[..|Stopping(m, InconsistentFail)|] == Stopping(m, InconsistentFail)
    ensures Emission(Error, MsgFail) in s.events <==> Enabled(threshold, Error)
    ensures thrown.None? <==>
              |s.events| > |Stopping(m, InconsistentFail)| && s.events[|Stopping(m, InconsistentFail)|] == Emission(Error, InconsistentFail)
    ensures Emission(Trace, DataFail) in s.events <==> Enabled(threshold, Trace)
    // after the diagnostics, in that order, and nothing else
    ensures Staged(s.events, |Stopping(m, InconsistentFail)| + (if thrown.None? then 1 else 0),
                   {Emission(Error, MsgFail), Emission(Trace, DataFail)})
    // nothing else changes, except that error clears the context
    ensures s.meter == m.(stopTime := now, result := Some(Outcome.Fail), exceptionClass := s.meter.exceptionClass,
                          exceptionMessage := s.meter.exceptionMessage, context := s.meter.context)
    ensures s.meter.context == (if Enabled(threshold, Error) then Cleared(m.context) else m.context)
  {
    var diagnosed := Diagnosed(m, InconsistentFail, thrown.None?);
    var stopped := match thrown
      case Some(t) => m.(stopTime := now, result := Some(Outcome.Fail),
                         exceptionClass := Some(t.className), exceptionMessage := t.message)
      case None => m.(stopTime := now, result := Some(Outcome.Fail));
    var report := Failed(stopped, threshold);
    StagedAfter(diagnosed, report.events, {Emission(Error, MsgFail), Emission(Trace, DataFail)});
    assert (diagnosed + report.events)[..|diagnosed|] == diagnosed;
    PrefixWithin(diagnosed + report.events, diagnosed, Stopping(m, InconsistentFail));
    Moved(report.meter, m.previous, diagnosed + report.events)
  }

  /**
   * The report `fail` makes once stopped: with error enabled the message,
   * with trace also the data line, and the context is cleared.
   */
  function Failed(stopped: State, threshold: nat): (o: Out)
    ensures o.meter == (if Enabled(threshold, Error) then stopped.(context := Cleared(stopped.context)) else stopped)
    ensures Emission(Error, MsgFail) in o.events <==> Enabled(threshold, Error)
    ensures Emission(Trace, DataFail) in o.events <==> Enabled(threshold, Trace)
    ensures Staged(o.events, 0, {Emission(Error, MsgFail), Emission(Trace, DataFail)})
  {
    if !Enabled(threshold, Error) then Out(stopped, [])
    else Out(stopped.(context := Cleared(stopped.context)),
             [Emission(Error, MsgFail)] + (if Enabled(threshold, Trace) then [Emission(Trace, DataFail)] else []))
  }

  /** `close()`: a meter not yet stopped fails with no throwable; a stopped one is left exactly as it is. */
  function Close(m: State, current: Option<Ref>, now: int, threshold: nat): (s: Moved)
    ensures m.stopTime != 0 ==> s == Moved(m, current, [])
    ensures m.stopTime == 0 ==>
              s.meter.result == Some(Outcome.Fail) && s.meter.stopTime == now
              && s.current == m.previous && s.meter.exceptionClass == m.exceptionClass
    ensures m.stopTime == 0 ==> s == Fail(m, current, None, now, threshold)
  {
    if m.stopTime == 0 then Fail(m, current, None, now, threshold) else Moved(m, current, [])
  }

  /** Closing twice is closing once, as long as the clock did not read 0 the first time. */
  lemma CloseTwice(m: State, current: Option<Ref>, now: int, later: int, threshold: nat)
    requires now != 0
    ensures var once := Close(m, current, now, threshold);
            Close(once.meter, once.current, later, threshold) == Moved(once.meter, once.current, [])
  {
  }

  /** Closing after `ok` changes nothing: the outcome stays OK. */
  lemma CloseAfterOk(m: State, current: Option<Ref>, now: int, later: int, threshold: nat)
    requires now != 0
    ensures var done := Ok(m, current, now, threshold);
            Close(done.meter, done.current, later, threshold) == Moved(done.meter, done.current, [])
            && done.meter.result == Some(Outcome.Ok)
  {
  }

  /** The last terminal call wins: `ok` then `fail` ends FAIL at the later time, with the repeat diagnosed. */
  lemma LastCallWins(m: State, current: Option<Ref>, thrown: Option<Thrown>, now: int, later: int, threshold: nat)
    requires now != 0
    ensures var first := Ok(m, current, now, threshold);
            var second := Fail(first.meter, first.current, thrown, later, threshold);
            second.meter.result == Some(Outcome.Fail) && second.meter.stopTime == later
            && Emission(Error, InconsistentFail) in second.events
  {
    var first := Ok(m, current, now, threshold);
    var second := Fail(first.meter, first.current, thrown, later, threshold);
    assert second.events[0] == Emission(Error, InconsistentFail);
  }

  /**
   * Meters started inside one another hand the thread's current meter back
   * in order: an inner meter started while the outer one is current restores
   * the outer one when it stops, and the outer one then restores whatever
   * was current before it.
   */
  lemma NestedStartsRestoreCurrent(outer: State, inner: State, current: Option<Ref>,
                                   t1: int, t2: int, t3: int, t4: int, threshold: nat)
    requires outer.startTime == 0 && inner.startTime == 0
    ensures var a := Start(outer, current, t1, threshold);
            var b := Start(inner, a.current, t2, threshold);
            var c := Ok(b.meter, b.current, t3, threshold);
            var d := Ok(a.meter, c.current, t4, threshold);
            a.current == Some(Self(outer)) && b.current == Some(Self(inner))
            && c.current == Some(Self(outer)) && d.current == current
  {
  }

  /**
   * Everything `start` logs is asked for first, so a logger that prints
   * errors prints every call it makes, in order.
   */
  lemma StartCallsPrinted(m: State, current: Option<Ref>, now: int, threshold: nat)
    requires Enabled(threshold, Error)
    ensures Printed(threshold, Start(m, current, now, threshold).events) == Start(m, current, now, threshold).events
  {
    PrintedAllEnabled(threshold, Start(m, current, now, threshold).events);
  }
}

=== FILE: meter_data.dfy ===
/**
 * The record behind every meter message: identity, the three times, the
 * iteration counters, the outcome fields and the context. Times and counters
 * are Java `long`s; they are unbounded here because nothing below adds or
 * subtracts them except the two elapsed-time readings, which are left
 * unbounded (see the README). `position` belongs to the superclass, which
 * is not part of this model; it is kept as the one field `Reset` does not
 * touch.
 */
module MeterData {
  import opened Wrappers
  import Text

  datatype Record = Record(
    position: int,
    category: Option<string>,
    name: Option<string>,
    parent: Option<string>,
    description: Option<string>,
    pathId: Option<string>,
    rejectId: Option<string>,
    createTime: int,
    startTime: int,
    stopTime: int,
    iteration: int,
    expectedIterations: int,
    failClass: Option<string>,
    failMessage: Option<string>,
    timeLimit: int,
    context: Option<map<string, string>>)

  /** `getFullID`: `category/position`, or `category/name#position` when there is a name. */
  function FullId(d: Record): (id: string)
    ensures var cat := Text.NullText(d.category);
            var digits := Text.ShowLong(d.position);
            && |id| > |cat|
            && id[..|cat| + 1] == cat + "/"
            && (d.name.None? ==> |id| == |cat| + 1 + |digits| && id[|cat| + 1..] == digits)
            && (d.name.Some? ==>
                  var n := d.name.value;
                  && |id| == |cat| + 2 + |n| + |digits|
                  && id[|cat| + 1..|cat| + 1 + |n|] == n
                  && id[|cat| + 1 + |n|] == '#'
                  && id[|cat| + 2 + |n|..] == digits)
  {
    var head := Text.NullText(d.category) + "/";
    match d.name
    case None =>
      var id := head + Text.ShowLong(d.position);
      assert id[..|head|] == head;
      id
    case Some(n) =>
      var id := head + n + "#" + Text.ShowLong(d.position);
      assert id[..|head|] == head;
      assert id[|head|..|head| + |n|] == n;
      id
  }

  /**
   * Reading an id back, given its category: what follows the category and
   * '/' is split at its last '#' into the name and the position; without a
   * '#' there is no name.
   */
  function ParseFullId(category: Option<string>, id: string): (r: Option<(Option<string>, int)>)
    ensures r.Some? ==> Text.IsLong(r.value.1)
  {
    var cat := Text.NullText(category);
    if |id| <= |cat| then None
    else
      var rest := id[|cat| + 1..];
      match Text.LastIndexOf(rest, '#')
      case None =>
        (match Text.ParseLong(rest)
         case None => None
         case Some(p) => Some((None, p)))
      case Some(i) =>
        match Text.ParseLong(rest[i + 1..])
        case None => None
        case Some(p) => Some((Some(rest[..i]), p))
  }

  /** The id gives back the name and the position, whatever characters the name holds. */
  lemma FullIdParses(d: Record)
    requires Text.IsLong(d.position)
    ensures ParseFullId(d.category, FullId(d)) == Some((d.name, d.position))
  {
    var cat := Text.NullText(d.category);
    var digits := Text.ShowLong(d.position);
    var rest := FullId(d)[|cat| + 1..];
    match d.name
    case None =>
      assert rest == digits;
      DigitsParse(d.position);
    case Some(n) =>
      assert rest == n + ['#'] + digits;
      NamedDigitsParse(n, d.position);
  }

  /** The digits of a position hold no '#' and read back as the position. */
  lemma DigitsParse(p: int)
    requires Text.IsLong(p)
    ensures Text.LastIndexOf(Text.ShowLong(p), '#') == None
    ensures Text.ParseLong(Text.ShowLong(p)) == Some(p)
  {
    Text.NumeralChars(p);
    Text.ParseShowLong(p);
  }

  /** After a name and '#', the last '#' is the one before the digits, which read back as the position. */
  lemma NamedDigitsParse(n: string, p: int)
    requires Text.IsLong(p)
    ensures var rest := n + ['#'] + Text.ShowLong(p);
            && Text.LastIndexOf(rest, '#') == Some(|n|)
            && rest[..|n|] == n
            && Text.ParseLong(rest[|n| + 1..]) == Some(p)
  {
    var digits := Text.ShowLong(p);
    Text.NumeralChars(p);
    Text.ParseShowLong(p);
    assert '#' !in digits;
    Text.LastIndexOfJoined(n, '#', digits);
    var rest := n + ['#'] + digits;
    assert rest[|n| + 1..] == digits && rest[..|n|] == n;
  }

  /** Two records of the same category and name but at different positions have different ids. */
  lemma FullIdDistinguishesPositions(a: Record, b: Record)
    requires a.category == b.category && a.name == b.name
    requires Text.IsLong(a.position) && Text.IsLong(b.position) && a.position != b.position
    ensures FullId(a) != FullId(b)
  {
    FullIdParses(a);
    FullIdParses(b);
  }

  predicate IsStarted(d: Record) { d.startTime != 0 }

  predicate IsStopped(d: Record) { d.stopTime != 0 }

  /** `isOK`: stopped with neither a failure nor a rejection. */
  function IsOK(d: Record): (ok: bool)
    ensures ok ==> IsStopped(d) && !IsReject(d) && !IsFail(d)
  {
    d.stopTime != 0 && d.failClass.None? && d.rejectId.None?
  }

  /** `isReject`: stopped with a rejection id. */
  function IsReject(d: Record): (rejected: bool)
    ensures rejected ==> IsStopped(d)
  {
    d.stopTime != 0 && d.rejectId.Some?
  }

  /** `isFail`: stopped with a failure class. */
  function IsFail(d: Record): (failed: bool)
    ensures failed ==> IsStopped(d)
  {
    d.stopTime != 0 && d.failClass.Some?
  }

  /** `isSlow`: a limit is set, and the run from start to stop took longer. */
  function IsSlow(d: Record): (slow: bool)
    ensures slow ==> IsStarted(d) && IsStopped(d) && d.timeLimit != 0
    ensures slow ==> d.stopTime - d.startTime > d.timeLimit
  {
    d.timeLimit != 0 && d.stopTime != 0 && d.startTime != 0 && d.stopTime - d.startTime > d.timeLimit
  }

  /** A stopped record is exactly one of OK, or rejected or failed; OK excludes both. */
  lemma OutcomeClassification(d: Record)
    ensures IsOK(d) ==> !IsReject(d) && !IsFail(d)
    ensures IsStopped(d) <==> IsOK(d) || IsReject(d) || IsFail(d)
    ensures !IsStopped(d) ==> !IsOK(d) && !IsReject(d) && !IsFail(d) && !IsSlow(d)
  {
  }

  /** `getExecutionTime` against the clock reading `now`. */
  function ExecutionTime(d: Record, now: int): (t: int)
    ensures !IsStarted(d) ==> t == 0
    ensures IsStarted(d) ==> t == (if IsStopped(d) then d.stopTime else now) - d.startTime
  {
    if d.startTime == 0 then 0
    else if d.stopTime == 0 then now - d.startTime
    else d.stopTime - d.startTime
  }

  /** `getWaitingTime` against the clock reading `now`. */
  function WaitingTime(d: Record, now: int): (t: int)
    ensures t == (if IsStarted(d) then d.startTime else now) - d.createTime
  {
    if d.startTime == 0 then now - d.createTime else d.startTime - d.createTime
  }

  /** Once started, waiting plus executing spans from creation to the stop (or to now). */
  lemma WaitingPlusExecution(d: Record, now: int)
    requires IsStarted(d)
    ensures WaitingTime(d, now) + ExecutionTime(d, now) == (if IsStopped(d) then d.stopTime else now) - d.createTime
  {
  }

  /** A slow record is one whose execution time exceeds a non-zero limit. */
  lemma SlowMeansOverLimit(d: Record, now: int)
    ensures IsSlow(d) <==> d.timeLimit != 0 && IsStarted(d) && IsStopped(d) && ExecutionTime(d, now) > d.timeLimit
  {
  }

  /** `resetImpl`: every field of this class back to null or zero. */
  function Reset(d: Record): (r: Record)
    ensures r.position == d.position
    ensures !IsStarted(r) && !IsStopped(r) && !IsOK(r) && !IsReject(r) && !IsFail(r) && !IsSlow(r)
    ensures r.category.None? && r.name.None? && r.parent.None? && r.description.None?
    ensures r.pathId.None? && r.rejectId.None? && r.failClass.None? && r.failMessage.None?
    ensures r.createTime == 0 && r.iteration == 0 && r.expectedIterations == 0 && r.timeLimit == 0
    ensures r.context.None?
  {
    Record(d.position, None, None, None, None, None, None, 0, 0, 0, 0, 0, None, None, 0, None)
  }

  /** The status word at the head of `readableString`. */
  function StatusLabel(d: Record): (word: string)
    ensures word == "OK (Slow)" <==> IsOK(d) && IsSlow(d)
    ensures word == "OK" <==> IsOK(d) && !IsSlow(d)
    ensures word == "REJECT" <==> IsReject(d)
    ensures word == "FAIL" <==> IsFail(d) && !IsReject(d)
    ensures word == "STARTED" <==> !IsStopped(d) && IsStarted(d) && d.iteration == 0
    ensures word == "PROGRESS" <==> !IsStopped(d) && IsStarted(d) && d.iteration != 0
    ensures word == "SCHEDULED" <==> !IsStopped(d) && !IsStarted(d)
  {
    if d.stopTime != 0 then
      if d.failClass.None? && d.rejectId.None? then
        if d.timeLimit != 0 && d.startTime != 0 && d.stopTime - d.startTime > d.timeLimit then "OK (Slow)" else "OK"
      else if d.rejectId.Some? then "REJECT"
      else "FAIL"
    else if d.startTime != 0 && d.iteration == 0 then "STARTED"
    else if d.startTime != 0 then "PROGRESS"
    else "SCHEDULED"
  }

  /** The fields written as properties, each under its own name. */
  datatype Field =
    | Description | RejectId | PathId | Fail | Category | Name | Parent
    | CreateTime | StartTime | StopTime | Iteration | ExpectedIterations | TimeLimit | Context

  /** The property name of each field (`PROP_DESCRIPTION`, `EVENT_CATEGORY`, ...). */
  function Key(f: Field): string {
    match f
    case Description => "d"
    case RejectId => "r"
    case PathId => "p"
    case Fail => "f"
    case Category => "c"
    case Name => "n"
    case Parent => "ep"
    case CreateTime => "t0"
    case StartTime => "t1"
    case StopTime => "t2"
    case Iteration => "i"
    case ExpectedIterations => "ei"
    case TimeLimit => "tl"
    case Context => "ctx"
  }

  /** The chain of name comparisons in `readPropertyImpl`. */
  function FieldOf(name: string): (f: Option<Field>)
    ensures f.Some? ==> Key(f.value) == name
  {
    if name == "d" then Some(Description)
    else if name == "c" then Some(Category)
    else if name == "n" then Some(Name)
    else if name == "ep" then Some(Parent)
    else if name == "f" then Some(Fail)
    else if name == "r" then Some(RejectId)
    else if name == "p" then Some(PathId)
    else if name == "t0" then Some(CreateTime)
    else if name == "t1" then Some(StartTime)
    else if name == "t2" then Some(StopTime)
    else if name == "i" then Some(Iteration)
    else if name == "ei" then Some(ExpectedIterations)
    else if name == "tl" then Some(TimeLimit)
    else if name == "ctx" then Some(Context)
    else None
  }

  /** Every field is recognised under its own name, so no two fields share a name. */
  lemma FieldOfKey(f: Field)
    ensures FieldOf(Key(f)) == Some(f)
  {
  }

  /** The shapes of property value the event writer emits. */
  datatype Value =
    | Text(s: string)
    | Pair(first: string, second: string)
    | Number(n: int)
    | Entries(m: map<string, string>)

  datatype Property = Property(name: string, value: Value)

  /** The fields in the order `writePropertiesImpl` writes them. */
  const Order: seq<Field> := [Description, RejectId, PathId, Fail, Category, Name, Parent,
                              CreateTime, StartTime, StopTime, Iteration, ExpectedIterations, TimeLimit, Context]

  lemma OrderComplete(f: Field)
    ensures f in Order
  {
  }

  /** Position of a field in `Order`. */
  function Rank(f: Field): nat {
    match f
    case Description => 0
    case RejectId => 1
    case PathId => 2
    case Fail => 3
    case Category => 4
    case Name => 5
    case Parent => 6
    case CreateTime => 7
    case StartTime => 8
    case StopTime => 9
    case Iteration => 10
    case ExpectedIterations => 11
    case TimeLimit => 12
    case Context => 13
  }

  /** No field is written twice. */
  lemma OrderDistinct()
    ensures Distinct(Order)
  {
    assert forall i :: 0 <= i < |Order| ==> Rank(Order[i]) == i;
  }

  /** Whether `writePropertiesImpl` writes the field: non-null, non-zero, and for the context non-empty. */
  predicate Present(d: Record, f: Field) {
    match f
    case Description => d.description.Some?
    case RejectId => d.rejectId.Some?
    case PathId => d.pathId.Some?
    case Fail => d.failClass.Some?
    case Category => d.category.Some?
    case Name => d.name.Some?
    case Parent => d.parent.Some?
    case CreateTime => d.createTime != 0
    case StartTime => d.startTime != 0
    case StopTime => d.stopTime != 0
    case Iteration => d.iteration != 0
    case ExpectedIterations => d.expectedIterations != 0
    case TimeLimit => d.timeLimit != 0
    case Context => d.context.Some? && d.context.value != map[]
  }

  /** The value written for a field; a failure is the class and the message, or "" for no message. */
  function Written(d: Record, f: Field): Value {
    match f
    case Description => Text(d.description.GetOr(""))
    case RejectId => Text(d.rejectId.GetOr(""))
    case PathId => Text(d.pathId.GetOr(""))
    case Fail => Pair(d.failClass.GetOr(""), d.failMessage.GetOr(""))
    case Category => Text(d.category.GetOr(""))
    case Name => Text(d.name.GetOr(""))
    case Parent => Text(d.parent.GetOr(""))
    case CreateTime => Number(d.createTime)
    case StartTime => Number(d.startTime)
    case StopTime => Number(d.stopTime)
    case Iteration => Number(d.iteration)
    case ExpectedIterations => Number(d.expectedIterations)
    case TimeLimit => Number(d.timeLimit)
    case Context => Entries(d.context.GetOr(map[]))
  }

  function Fields(ws: seq<(Field, Value)>): (fs: seq<Field>)
    ensures |fs| == |ws| && forall i :: 0 <= i < |ws| ==> fs[i] == ws[i].0
  {
    if |ws| == 0 then [] else [ws[0].0] + Fields(ws[1..])
  }

  /** The present fields among `fs`, in order, each with its written value. */
  function Select(d: Record, fs: seq<Field>): (ws: seq<(Field, Value)>)
    ensures forall f :: f in Fields(ws) <==> f in fs && Present(d, f)
    ensures forall i :: 0 <= i < |ws| ==> ws[i].1 == Written(d, ws[i].0)
  {
    if |fs| == 0 then []
    else
      var rest := Select(d, fs[1..]);
      assert forall f :: f in fs <==> f == fs[0] || f in fs[1..];
      if Present(d, fs[0]) then
        assert Fields([(fs[0], Written(d, fs[0]))] + rest) == [fs[0]] + Fields(rest);
        [(fs[0], Written(d, fs[0]))] + rest
      else rest
  }

  /** `writePropertiesImpl` as the fields it writes: exactly the present ones, in source order. */
  function WriteFields(d: Record): (ws: seq<(Field, Value)>)
    ensures forall f :: f in Fields(ws) <==> Present(d, f)
    ensures forall i :: 0 <= i < |ws| ==> ws[i].1 == Written(d, ws[i].0)
  {
    forall f: Field ensures f in Order {
      OrderComplete(f);
    }
    Select(d, Order)
  }

  /** `writePropertiesImpl` as the property list handed to the writer. */
  function WriteProperties(d: Record): (ps: seq<Property>)
    ensures |ps| == |WriteFields(d)|
    ensures forall i :: 0 <= i < |ps| ==> ps[i] == Property(Key(WriteFields(d)[i].0), WriteFields(d)[i].1)
  {
    var ws := WriteFields(d);
    seq(|ws|, i requires 0 <= i < |ws| => Property(Key(ws[i].0), ws[i].1))
  }

  /** What `readPropertyImpl` does with one property. */
  datatype Outcome =
    | Applied(record: Record)
    /** the name is not one of this class's: the superclass decides */
    | Unknown
    /** the name is known but the text is not of its shape: the reader throws */
    | Mismatch

  /** Whether a value has the shape the field is read with. */
  predicate Fits(f: Field, v: Value) {
    match f
    case Fail => v.Pair?
    case Context => v.Entries?
    case CreateTime | StartTime | StopTime | Iteration | ExpectedIterations | TimeLimit => v.Number?
    case _ => v.Text?
  }

  /** Stores a value read for field `f`; a value of the wrong shape is a read error. */
  function Store(d: Record, f: Field, v: Value): (o: Outcome)
    ensures o.Applied? <==> Fits(f, v)
    ensures o.Applied? ==> o.record.position == d.position
  {
    if !Fits(f, v) then Mismatch
    else
      Applied(match f
        case Description => d.(description := Some(v.s))
        case Category => d.(category := Some(v.s))
        case Name => d.(name := Some(v.s))
        case Parent => d.(parent := Some(v.s))
        case Fail => d.(failClass := Some(v.first), failMessage := Some(v.second))
        case RejectId => d.(rejectId := Some(v.s))
        case PathId => d.(pathId := Some(v.s))
        case CreateTime => d.(createTime := v.n)
        case StartTime => d.(startTime := v.n)
        case StopTime => d.(stopTime := v.n)
        case Iteration => d.(iteration := v.n)
        case ExpectedIterations => d.(expectedIterations := v.n)
        case TimeLimit => d.(timeLimit := v.n)
        case Context => d.(context := Some(v.m)))
  }

  /** `readPropertyImpl`: the field the name denotes takes the value read; other names go to the superclass. */
  function ReadProperty(d: Record, p: Property): (o: Outcome)
    ensures o.Unknown? <==> FieldOf(p.name).None?
    ensures o.Mismatch? <==> FieldOf(p.name).Some? && !Fits(FieldOf(p.name).value, p.value)
    ensures o.Applied? ==> o.record.position == d.position
  {
    match FieldOf(p.name)
    case None => Unknown
    case Some(f) => Store(d, f, p.value)
  }

  /** The read loop over a property list: every property must be applied. */
  function ReadAll(d: Record, ps: seq<Property>): Option<Record>
    decreases |ps|
  {
    if |ps| == 0 then Some(d)
    else
      match ReadProperty(d, ps[0])
      case Applied(d') => ReadAll(d', ps[1..])
      case _ => None
  }

  /** What survives a write and a read: the three documented losses. */
  function Normalize(d: Record): (n: Record)
    ensures n.failClass.Some? ==> n.failMessage == Some(d.failMessage.GetOr(""))
    ensures n.failClass.None? ==> n.failMessage.None?
    ensures n.context.Some? ==> n.context.value != map[]
    ensures n.context.Some? ==> n.context == d.context
  {
    d.(failMessage := if d.failClass.Some? then Some(d.failMessage.GetOr("")) else None,
       context := if d.context.Some? && d.context.value != map[] then d.context else None)
  }

  /** The content of one field of a record. */
  datatype Slot =
    | Str(o: Option<string>)
    | FailInfo(failClass: Option<string>, failMessage: Option<string>)
    | Num(n: int)
    | Ctx(c: Option<map<string, string>>)

  function Get(d: Record, f: Field): Slot {
    match f
    case Description => Str(d.description)
    case RejectId => Str(d.rejectId)
    case PathId => Str(d.pathId)
    case Fail => FailInfo(d.failClass, d.failMessage)
    case Category => Str(d.category)
    case Name => Str(d.name)
    case Parent => Str(d.parent)
    case CreateTime => Num(d.createTime)
    case StartTime => Num(d.startTime)
    case StopTime => Num(d.stopTime)
    case Iteration => Num(d.iteration)
    case ExpectedIterations => Num(d.expectedIterations)
    case TimeLimit => Num(d.timeLimit)
    case Context => Ctx(d.context)
  }

  /** The slot a fitting value is stored as. */
  function Slotted(v: Value): Slot {
    match v
    case Text(s) => Str(Some(s))
    case Pair(a, b) => FailInfo(Some(a), Some(b))
    case Number(n) => Num(n)
    case Entries(m) => Ctx(Some(m))
  }

  /** Records that agree on the position and on every field are equal. */
  lemma Extensionality(a: Record, b: Record)
    requires a.position == b.position
    requires forall f :: Get(a, f) == Get(b, f)
    ensures a == b
  {
    assert a.description == b.description by { assert Get(a, Description) == Get(b, Description); }
    assert a.rejectId == b.rejectId by { assert Get(a, RejectId) == Get(b, RejectId); }
    assert a.pathId == b.pathId by { assert Get(a, PathId) == Get(b, PathId); }
    assert a.failClass == b.failClass && a.failMessage == b.failMessage by { assert Get(a, Fail) == Get(b, Fail); }
    assert a.category == b.category by { assert Get(a, Category) == Get(b, Category); }
    assert a.name == b.name by { assert Get(a, Name) == Get(b, Name); }
    assert a.parent == b.parent by { assert Get(a, Parent) == Get(b, Parent); }
    assert a.createTime == b.createTime by { assert Get(a, CreateTime) == Get(b, CreateTime); }
    assert a.startTime == b.startTime by { assert Get(a, StartTime) == Get(b, StartTime); }
    assert a.stopTime == b.stopTime by { assert Get(a, StopTime) == Get(b, StopTime); }
    assert a.iteration == b.iteration by { assert Get(a, Iteration) == Get(b, Iteration); }
    assert a.expectedIterations == b.expectedIterations by { assert Get(a, ExpectedIterations) == Get(b, ExpectedIterations); }
    assert a.timeLimit == b.timeLimit by { assert Get(a, TimeLimit) == Get(b, TimeLimit); }
    assert a.context == b.context by { assert Get(a, Context) == Get(b, Context); }
  }

  /** Storing into one field sets that field and leaves every other field alone. */
  lemma StoreFrame(d: Record, f: Field, v: Value)
    requires Fits(f, v)
    ensures Get(Store(d, f, v).record, f) == Slotted(v)
    ensures forall g :: g != f ==> Get(Store(d, f, v).record, g) == Get(d, g)
  {
  }

  /** Reading field by field, without the detour through names. */
  function StoreAll(d: Record, ws: seq<(Field, Value)>): Option<Record>
    decreases |ws|
  {
    if |ws| == 0 then Some(d)
    else
      match Store(d, ws[0].0, ws[0].1)
      case Applied(d') => StoreAll(d', ws[1..])
      case _ => None
  }

  lemma {:induction false} ReadAllIsStoreAll(d: Record, ws: seq<(Field, Value)>)
    ensures ReadAll(d, seq(|ws|, i requires 0 <= i < |ws| => Property(Key(ws[i].0), ws[i].1))) == StoreAll(d, ws)
    decreases |ws|
  {
    var ps := seq(|ws|, i requires 0 <= i < |ws| => Property(Key(ws[i].0), ws[i].1));
    if |ws| > 0 {
      FieldOfKey(ws[0].0);
      assert ps[1..] == seq(|ws[1..]|, i requires 0 <= i < |ws[1..]| => Property(Key(ws[1..][i].0), ws[1..][i].1));
      match Store(d, ws[0].0, ws[0].1)
      case Applied(d') => ReadAllIsStoreAll(d', ws[1..]);
      case _ =>
    }
  }

  /** Every written value has the shape its field is read with. */
  lemma WrittenFits(d: Record, f: Field)
    ensures Fits(f, Written(d, f))
  {
  }

  predicate Distinct(fs: seq<Field>) {
    forall i, j :: 0 <= i < j < |fs| ==> fs[i] != fs[j]
  }

  /**
   * Storing the selected fields of `d` into `x` sets each selected field to
   * what its written value reads back as, and leaves the rest of `x`.
   */
  lemma {:induction false} StoreSelect(x: Record, d: Record, fs: seq<Field>)
    requires Distinct(fs)
    ensures StoreAll(x, Select(d, fs)).Some?
    ensures StoreAll(x, Select(d, fs)).value.position == x.position
    ensures forall g :: Get(StoreAll(x, Select(d, fs)).value, g) ==
                        if g in fs && Present(d, g) then Slotted(Written(d, g)) else Get(x, g)
    decreases |fs|
  {
    if |fs| > 0 {
      var f := fs[0];
      assert Distinct(fs[1..]);
      assert forall g :: g in fs <==> g == f || g in fs[1..];
      assert f !in fs[1..];
      if Present(d, f) {
        WrittenFits(d, f);
        var x' := Store(x, f, Written(d, f)).record;
        StoreFrame(x, f, Written(d, f));
        StoreSelect(x', d, fs[1..]);
        assert ([(f, Written(d, f))] + Select(d, fs[1..]))[1..] == Select(d, fs[1..]);
      } else {
        StoreSelect(x, d, fs[1..]);
      }
    }
  }

  /** A written field reads back as its normalised content; an unwritten one keeps its reset content, which is also its normalised content. */
  lemma FieldSurvives(d: Record, g: Field)
    ensures (if Present(d, g) then Slotted(Written(d, g)) else Get(Reset(d), g)) == Get(Normalize(d), g)
  {
  }

  /**
   * Writing a record and reading it back into a reset record restores every
   * field, except that a missing fail message becomes "" beside a fail class,
   * a fail message without a fail class is lost, and an empty context
   * becomes null.
   */
  lemma WriteReadRoundTrip(d: Record)
    ensures ReadAll(Reset(d), WriteProperties(d)) == Some(Normalize(d))
  {
    var x := Reset(d);
    var ws := WriteFields(d);
    ReadAllIsStoreAll(x, ws);
    assert WriteProperties(d) == seq(|ws|, i requires 0 <= i < |ws| => Property(Key(ws[i].0), ws[i].1));
    OrderDistinct();
    StoreSelect(x, d, Order);
    var r := StoreAll(x, ws).value;
    forall g
      ensures Get(r, g) == Get(Normalize(d), g)
    {
      OrderComplete(g);
      FieldSurvives(d, g);
    }
    Extensionality(r, Normalize(d));
  }
}

=== FILE: round_trip.dfy ===
/**
 * Reading writer output back through the property loop of `EventData`.
 * Single-valued properties with identifier names and non-empty values free of
 * '|', ';' and the quote character come back pair by pair (`SinglesRoundTrip`).
 * Two discrepancies are exhibited, each next to its correction:
 * - a multi-valued property does not read back, because `ReadString` never
 *   leaves its '=' state (`MultiValuedLineDoesNotParse`); `ReadStringFixed`
 *   clears it and reads every value back (`MultiValuedRoundTripFixed`);
 * - `EventData.Read` runs the reader over the whole log line, prefix
 *   included, so it never accepts `write` output (`ReadOwnOutputFails`);
 *   `EventData.ReadFixed` reads the extracted text (`ReadFixedRoundTrip`).
 */
module RoundTrip {
  import opened Wrappers
  import opened Syntax
  import opened EventReader
  import MessageWriter
  import EventData

  /** A value the reader returns verbatim: no value stop and no quote. */
  predicate Clean(syn: Alphabet, v: string) {
    forall k :: 0 <= k < |v| ==> !IsValueStop(v[k]) && v[k] != syn.quote
  }

  /** What the writer puts before a property name. */
  function Lead(firstProperty: bool): string {
    if firstProperty then "" else [PROPERTY_SEPARATOR]
  }

  /** The end of a value scan is exact over clean characters. */
  lemma {:induction false} ValueEndExact(syn: Alphabet, chars: string, i: nat, n: nat)
    requires i + n <= |chars|
    requires forall k :: i <= k < i + n ==> !IsValueStop(chars[k]) && chars[k] != syn.quote
    requires i + n == |chars| || IsValueStop(chars[i + n])
    ensures ValueEnd(syn, chars, i) == Success(i + n)
    decreases n
  {
    if n > 0 {
      ValueEndExact(syn, chars, i + 1, n - 1);
    }
  }

  /** `ReadPropertyName` returns exactly the identifier the writer put at the cursor. */
  lemma NameStep(syn: Alphabet, r: Reader, name: string, after: string)
    requires syn.IsIdentifier(name)
    requires r.start <= |r.chars|
    requires r.chars[r.start..] == Lead(r.firstProperty) + name + after
    requires |after| > 0 && !syn.identPart(after[0])
    ensures ReadPropertyName(syn, r) ==
              Success((name, Reader(r.chars, r.start + |Lead(r.firstProperty)| + |name|, false, true)))
  {
    var ns := NameStart(r);
    var stop := ns + |name|;
    var lead := Lead(r.firstProperty);
    SplitAt(r.chars, r.start, lead, name, after);
    assert ns == r.start + |lead|;
    forall k | ns + 1 <= k < stop
      ensures syn.identPart(r.chars[k])
    {
      assert r.chars[k] == r.chars[ns..stop][k - ns];
    }
    IdentifierRunEnds(syn, r.chars, ns + 1, stop);
    NameAt(syn, r, stop);
  }

  /** Unfolds `ReadPropertyName` once the identifier at the cursor is known to end at `stop`. */
  lemma NameAt(syn: Alphabet, r: Reader, stop: nat)
    requires NameStart(r) < |r.chars| && syn.identStart(r.chars[NameStart(r)])
    requires !r.firstProperty ==> r.chars[r.start] == PROPERTY_SEPARATOR
    requires NameStart(r) + 1 <= stop <= |r.chars|
    requires IdentifierEnd(syn, r.chars, NameStart(r) + 1) == stop
    ensures ReadPropertyName(syn, r) == Success((r.chars[NameStart(r)..stop], Reader(r.chars, stop, false, true)))
  {
  }

  /** Where the three parts of a text that follows `start` sit in the whole. */
  lemma SplitAt(chars: string, start: nat, pre: string, mid: string, post: string)
    requires start <= |chars| && chars[start..] == pre + mid + post
    ensures start + |pre| + |mid| + |post| == |chars|
    ensures chars[start + |pre|..start + |pre| + |mid|] == mid
    ensures |pre| > 0 ==> chars[start] == pre[0]
    ensures |post| > 0 ==> chars[start + |pre| + |mid|] == post[0]
  {
    var t := chars[start..];
    assert t[|pre|..|pre| + |mid|] == mid;
    if |pre| > 0 {
      assert chars[start] == t[0];
    }
    if |post| > 0 {
      assert chars[start + |pre| + |mid|] == t[|pre| + |mid|];
    }
  }

  /** An identifier run ends at the first character that cannot continue it. */
  lemma IdentifierRunEnds(syn: Alphabet, chars: string, from: nat, stop: nat)
    requires from <= stop < |chars|
    requires forall k :: from <= k < stop ==> syn.identPart(chars[k])
    requires !syn.identPart(chars[stop])
    ensures IdentifierEnd(syn, chars, from) == stop
  {
  }

  /** `ReadString` returns exactly the clean value after the operator at the cursor. */
  lemma ValueStep(syn: Alphabet, r: Reader, value: string, rest: string)
    requires r.start <= |r.chars|
    requires r.chars[r.start..] == [ValueOperator(r)] + value + rest
    requires |value| > 0 && Clean(syn, value)
    requires |rest| == 0 || IsValueStop(rest[0])
    ensures ReadString(syn, r) == Success((value, r.(start := r.start + 1 + |value|)))
  {
    ValueAt(syn, r.chars, r.start, ValueOperator(r), value, rest);
    ValueEndExact(syn, r.chars, r.start + 1, |value|);
  }

  /** Where the operator, a clean value and what follows sit in the whole text. */
  lemma ValueAt(syn: Alphabet, chars: string, start: nat, op: char, value: string, rest: string)
    requires start <= |chars| && chars[start..] == [op] + value + rest
    requires Clean(syn, value)
    requires |rest| == 0 || IsValueStop(rest[0])
    ensures start + 1 + |value| <= |chars| && chars[start] == op
    ensures forall k :: start + 1 <= k < start + 1 + |value| ==> !IsValueStop(chars[k]) && chars[k] != syn.quote
    ensures start + 1 + |value| == |chars| || IsValueStop(chars[start + 1 + |value|])
    ensures chars[start + 1..start + 1 + |value|] == value
  {
    var i := start + 1;
    assert chars[start] == chars[start..][0];
    forall k | i <= k < i + |value|
      ensures !IsValueStop(chars[k]) && chars[k] != syn.quote
    {
      assert chars[k] == chars[start..][k - start];
    }
    if |rest| > 0 {
      assert chars[i + |value|] == chars[start..][1 + |value|];
    }
    assert chars[i..i + |value|] == chars[start..][1..1 + |value|];
  }

  /**
   * `ReadLong` returns exactly the number whose `Long.toString` text follows
   * the operator at the cursor, as long as the quote character is neither a
   * digit nor '-'. An empty numeral never occurs, so `ReadLongOrZero` agrees.
   */
  lemma NumeralStep(syn: Alphabet, r: Reader, v: int, rest: string)
    requires Text.IsLong(v) && !Text.IsDigit(syn.quote) && syn.quote != '-'
    requires r.start <= |r.chars|
    requires r.chars[r.start..] == [ValueOperator(r)] + Text.ShowLong(v) + rest
    requires |rest| == 0 || IsValueStop(rest[0])
    ensures ReadLong(syn, r) == Success((v, r.(start := r.start + 1 + |Text.ShowLong(v)|)))
    ensures ReadLongOrZero(syn, r) == ReadLong(syn, r)
  {
    Text.NumeralChars(v);
    ValueStep(syn, r, Text.ShowLong(v), rest);
    Text.ParseShowLong(v);
  }

  /**
   * Reading at `start` gives the property `name`, then the number `v`, and
   * leaves the reader just before `rest`.
   */
  predicate ReadsNameThenLong(syn: Alphabet, chars: string, start: nat, firstProperty: bool, name: string, v: int, rest: string)
    requires |rest| <= |chars|
  {
    var r1 := Reader(chars, start + |Lead(firstProperty)| + |name|, false, true);
    && ReadPropertyName(syn, Reader(chars, start, firstProperty, true)) == Success((name, r1))
    && ReadLong(syn, r1) == Success((v, Reader(chars, |chars| - |rest|, false, true)))
  }

  /**
   * What the `long` overload of `property` writes reads back: the name, then
   * the number, with the reader left where the writer stopped, just before
   * whatever follows.
   */
  lemma PropertyLongReadsBack(syn: Alphabet, w: MessageWriter.Writer, name: string, v: int, rest: string)
    requires syn.Valid() && syn.IsIdentifier(name)
    requires Text.IsLong(v) && !Text.IsDigit(syn.quote) && syn.quote != '-'
    requires |rest| == 0 || rest[0] == PROPERTY_SEPARATOR
    ensures ReadsNameThenLong(syn, MessageWriter.PropertyLong(w, name, [v]).builder + rest, |w.builder|, w.firstProperty, name, v, rest)
  {
    LongWritten(w, name, v);
    WrittenLongReads(syn, w, MessageWriter.PropertyLong(w, name, [v]).builder, name, v, rest);
  }

  /** A text laid out as the `long` overload writes it reads back as the name and the number. */
  lemma WrittenLongReads(syn: Alphabet, w: MessageWriter.Writer, b: string, name: string, v: int, rest: string)
    requires syn.Valid() && syn.IsIdentifier(name)
    requires Text.IsLong(v) && !Text.IsDigit(syn.quote) && syn.quote != '-'
    requires |rest| == 0 || rest[0] == PROPERTY_SEPARATOR
    requires b == w.builder + Lead(w.firstProperty) + name + [PROPERTY_EQUALS] + Text.ShowLong(v)
    ensures ReadsNameThenLong(syn, b + rest, |w.builder|, w.firstProperty, name, v, rest)
  {
    LongLayout(w.builder, Lead(w.firstProperty), name, Text.ShowLong(v), rest);
    NameThenNumeral(syn, b + rest, |w.builder|, w.firstProperty, name, v, rest);
  }

  /** The `long` overload writes the name and the `Long.toString` text of the one value. */
  lemma LongWritten(w: MessageWriter.Writer, name: string, v: int)
    requires Text.IsLong(v)
    ensures MessageWriter.PropertyLong(w, name, [v]).builder ==
              w.builder + Lead(w.firstProperty) + name + [PROPERTY_EQUALS] + Text.ShowLong(v)
  {
    assert MessageWriter.Join(MessageWriter.ShowAll([v])) == Text.ShowLong(v);
  }

  /** Where the name and the numeral of a written property sit in the text. */
  lemma LongLayout(pre: string, lead: string, name: string, numeral: string, rest: string)
    ensures var chars := pre + lead + name + [PROPERTY_EQUALS] + numeral + rest;
            var after := [PROPERTY_EQUALS] + numeral + rest;
            && chars[|pre|..] == lead + name + after
            && chars[|pre| + |lead| + |name|..] == after
  {
    var after := [PROPERTY_EQUALS] + numeral + rest;
    var head := pre + (lead + name);
    assert pre + lead + name + [PROPERTY_EQUALS] + numeral + rest == head + after;
    assert head + after == pre + (lead + name + after);
    DropFront(pre, lead + name + after);
    DropFront(head, after);
  }

  /** A name then '=' and a numeral read back as that name and that number. */
  lemma NameThenNumeral(syn: Alphabet, chars: string, start: nat, firstProperty: bool, name: string, v: int, rest: string)
    requires syn.Valid() && syn.IsIdentifier(name)
    requires Text.IsLong(v) && !Text.IsDigit(syn.quote) && syn.quote != '-'
    requires |rest| == 0 || rest[0] == PROPERTY_SEPARATOR
    requires start <= |chars|
    requires chars[start..] == Lead(firstProperty) + name + ([PROPERTY_EQUALS] + Text.ShowLong(v) + rest)
    requires chars[start + |Lead(firstProperty)| + |name|..] == [PROPERTY_EQUALS] + Text.ShowLong(v) + rest
    ensures |rest| <= |chars| && ReadsNameThenLong(syn, chars, start, firstProperty, name, v, rest)
  {
    var r := Reader(chars, start, firstProperty, true);
    var r1 := Reader(chars, start + |Lead(firstProperty)| + |name|, false, true);
    NameStep(syn, r, name, [PROPERTY_EQUALS] + Text.ShowLong(v) + rest);
    assert r1 == Reader(r.chars, r.start + |Lead(r.firstProperty)| + |name|, false, true);
    assert |chars[start..]| == |chars| - start;
    assert r1.(start := r1.start + 1 + |Text.ShowLong(v)|) == Reader(chars, |chars| - |rest|, false, true);
    NumeralStep(syn, r1, v, rest);
  }

  lemma DropFront<T>(a: seq<T>, b: seq<T>)
    ensures (a + b)[|a|..] == b
  {
  }

  /** The (name, value) pairs as the single-valued properties the writer renders. */
  function Singles(pairs: seq<(string, string)>): (props: seq<MessageWriter.Prop>)
    ensures |props| == |pairs|
    ensures MessageWriter.WellFormed(props)
    ensures forall i :: 0 <= i < |pairs| ==> props[i] == (pairs[i].0, [pairs[i].1])
  {
    if |pairs| == 0 then [] else [(pairs[0].0, [pairs[0].1])] + Singles(pairs[1..])
  }

  predicate Readable(syn: Alphabet, pairs: seq<(string, string)>) {
    forall i :: 0 <= i < |pairs| ==>
      syn.IsIdentifier(pairs[i].0) && |pairs[i].1| > 0 && Clean(syn, pairs[i].1)
  }

  /** The text of the remaining properties, as the writer leaves it for the reader. */
  function Remaining(firstProperty: bool, pairs: seq<(string, string)>): string {
    if firstProperty then MessageWriter.Render(Singles(pairs)) else MessageWriter.Tail(Singles(pairs))
  }

  lemma RemainingUnfold(firstProperty: bool, pairs: seq<(string, string)>)
    requires |pairs| > 0
    ensures Remaining(firstProperty, pairs) ==
              Lead(firstProperty) + pairs[0].0 + ([PROPERTY_EQUALS] + pairs[0].1 + Remaining(false, pairs[1..]))
    ensures |Remaining(false, pairs[1..])| == 0 || Remaining(false, pairs[1..])[0] == PROPERTY_SEPARATOR
  {
    var ps := Singles(pairs);
    var name, value := pairs[0].0, pairs[0].1;
    var rest := Remaining(false, pairs[1..]);
    assert ps[0] == (name, [value]);
    assert MessageWriter.Item(ps[0]) == name + [PROPERTY_EQUALS] + value;
    assert ps[1..] == Singles(pairs[1..]);
    assert MessageWriter.Tail(ps[1..]) == rest;
    assert Remaining(firstProperty, pairs) == Lead(firstProperty) + (name + [PROPERTY_EQUALS] + value) + rest;
    if |pairs[1..]| > 0 {
      assert rest == [PROPERTY_SEPARATOR] + MessageWriter.Item(ps[1]) + MessageWriter.Tail(ps[2..]);
    }
  }

  /** The `readProperty` of an event that records every (name, value) pair it meets. */
  function CollectPair(syn: Alphabet, pairs: seq<(string, string)>, r: Reader, name: string): (res: Result<EventData.Step<seq<(string, string)>>, ReadError>)
    ensures ReadString(syn, r).Failure? ==> res == Failure(ReadString(syn, r).error)
    ensures ReadString(syn, r).Success? ==>
              res == Success(EventData.Recognized(pairs + [(name, ReadString(syn, r).value.0)], ReadString(syn, r).value.1))
  {
    var v :- ReadString(syn, r);
    Success(EventData.Recognized(pairs + [(name, v.0)], v.1))
  }

  function Collect(syn: Alphabet): EventData.PropertyReader<seq<(string, string)>> {
    (pairs: seq<(string, string)>, r: Reader, name: string) => CollectPair(syn, pairs, r, name)
  }

  lemma CollectKeepsCursor(syn: Alphabet)
    ensures EventData.KeepsCursor(Collect(syn))
  {
  }

  /** The property loop of `read` over an event that records pairs. */
  function ReadPairs(syn: Alphabet, pairs: seq<(string, string)>, r: Reader): Result<(seq<(string, string)>, Reader), ReadError>
    requires r.start <= |r.chars|
  {
    CollectKeepsCursor(syn);
    EventData.ReadLoop(syn, pairs, r, Collect(syn))
  }

  lemma DropPrefix(s: string, i: nat, a: string, b: string)
    requires i <= |s| && s[i..] == a + b
    ensures i + |a| <= |s| && s[i + |a|..] == b
  {
    assert s[i + |a|..] == s[i..][|a|..];
  }

  /** One turn of the loop: a name, then a value recorded with it. */
  lemma ReadPairsUnfold(syn: Alphabet, acc: seq<(string, string)>, r: Reader, name: string, r1: Reader,
                        value: string, r2: Reader)
    requires r.start <= |r.chars| && HasMore(r)
    requires ReadPropertyName(syn, r) == Success((name, r1))
    requires ReadString(syn, r1) == Success((value, r2))
    ensures r2.start <= |r2.chars|
    ensures ReadPairs(syn, acc, r) == ReadPairs(syn, acc + [(name, value)], r2)
  {
    CollectKeepsCursor(syn);
    assert CollectPair(syn, acc, r1, name) == Success(EventData.Recognized(acc + [(name, value)], r2));
  }

  /** The name half of one property: the reader stops on the '=' that follows it. */
  lemma PairName(syn: Alphabet, r: Reader, name: string, after: string)
    requires syn.Valid() && syn.IsIdentifier(name)
    requires |after| > 0 && after[0] == PROPERTY_EQUALS
    requires r.start <= |r.chars| && r.chars[r.start..] == Lead(r.firstProperty) + name + after
    ensures HasMore(r)
    ensures var r1 := Reader(r.chars, r.start + |Lead(r.firstProperty)| + |name|, false, true);
            && ReadPropertyName(syn, r) == Success((name, r1))
            && r1.start <= |r1.chars| && r1.chars[r1.start..] == after
  {
    assert |r.chars[r.start..]| > 0;
    NameStep(syn, r, name, after);
    DropPrefix(r.chars, r.start, Lead(r.firstProperty) + name, after);
  }

  /** The value half of one property: the reader stops before the next ';'. */
  lemma PairValue(syn: Alphabet, r1: Reader, value: string, rest: string)
    requires |value| > 0 && Clean(syn, value)
    requires |rest| == 0 || rest[0] == PROPERTY_SEPARATOR
    requires r1.firstValue && !r1.firstProperty
    requires r1.start <= |r1.chars| && r1.chars[r1.start..] == [PROPERTY_EQUALS] + value + rest
    ensures ReadString(syn, r1) == Success((value, Reader(r1.chars, |r1.chars| - |rest|, false, true)))
    ensures r1.start <= |r1.chars| - |rest| && r1.chars[|r1.chars| - |rest|..] == rest
  {
    ValueStep(syn, r1, value, rest);
    DropPrefix(r1.chars, r1.start, [PROPERTY_EQUALS] + value, rest);
  }

  /** Where the loop leaves the reader once `pairs` have been read from `r`. */
  function Final(r: Reader, pairs: seq<(string, string)>): Reader {
    Reader(r.chars, |r.chars|, r.firstProperty && |pairs| == 0, r.firstValue || |pairs| > 0)
  }

  lemma ReadPairsDone(syn: Alphabet, acc: seq<(string, string)>, r: Reader)
    requires r.start <= |r.chars| && r.chars[r.start..] == Remaining(r.firstProperty, [])
    ensures ReadPairs(syn, acc, r) == Success((acc, Final(r, [])))
  {
    assert MessageWriter.Render(Singles([])) == "" && MessageWriter.Tail(Singles([])) == "";
    assert |r.chars[r.start..]| == 0;
  }

  /** One `name=value` property is read, leaving the reader on `rest`. */
  lemma ReadOnePair(syn: Alphabet, acc: seq<(string, string)>, r: Reader, name: string, value: string, rest: string)
      returns (r2: Reader)
    requires syn.Valid() && syn.IsIdentifier(name) && |value| > 0 && Clean(syn, value)
    requires |rest| == 0 || rest[0] == PROPERTY_SEPARATOR
    requires r.start <= |r.chars| && r.chars[r.start..] == Lead(r.firstProperty) + name + ([PROPERTY_EQUALS] + value + rest)
    ensures r2 == Reader(r.chars, r2.start, false, true)
    ensures r2.start <= |r2.chars| && r2.chars[r2.start..] == rest
    ensures ReadPairs(syn, acc, r) == ReadPairs(syn, acc + [(name, value)], r2)
  {
    var r1;
    r1, r2 := PairSteps(syn, r, name, value, rest);
    ReadPairsUnfold(syn, acc, r, name, r1, value, r2);
  }

  /** The two reads of one `name=value` property, from `r` to where `rest` begins. */
  lemma PairSteps(syn: Alphabet, r: Reader, name: string, value: string, rest: string) returns (r1: Reader, r2: Reader)
    requires syn.Valid() && syn.IsIdentifier(name) && |value| > 0 && Clean(syn, value)
    requires |rest| == 0 || rest[0] == PROPERTY_SEPARATOR
    requires r.start <= |r.chars| && r.chars[r.start..] == Lead(r.firstProperty) + name + ([PROPERTY_EQUALS] + value + rest)
    ensures HasMore(r) && ReadPropertyName(syn, r) == Success((name, r1))
    ensures ReadString(syn, r1) == Success((value, r2))
    ensures r2 == Reader(r.chars, r2.start, false, true)
    ensures r2.start <= |r2.chars| && r2.chars[r2.start..] == rest
  {
    var after := [PROPERTY_EQUALS] + value + rest;
    r1 := Reader(r.chars, r.start + |Lead(r.firstProperty)| + |name|, false, true);
    PairName(syn, r, name, after);
    PairValue(syn, r1, value, rest);
    r2 := Reader(r1.chars, |r1.chars| - |rest|, false, true);
  }

  /** The first property of `pairs` is read, leaving the reader on the text of the others. */
  lemma ReadPairsFirst(syn: Alphabet, acc: seq<(string, string)>, r: Reader, pairs: seq<(string, string)>) returns (r2: Reader)
    requires syn.Valid() && Readable(syn, pairs) && |pairs| > 0
    requires r.start <= |r.chars| && r.chars[r.start..] == Remaining(r.firstProperty, pairs)
    ensures r2 == Reader(r.chars, r2.start, false, true)
    ensures r2.start <= |r2.chars| && r2.chars[r2.start..] == Remaining(false, pairs[1..])
    ensures Readable(syn, pairs[1..])
    ensures ReadPairs(syn, acc, r) == ReadPairs(syn, acc + [pairs[0]], r2)
  {
    RemainingUnfold(r.firstProperty, pairs);
    ReadableTail(syn, pairs);
    r2 := ReadOnePair(syn, acc, r, pairs[0].0, pairs[0].1, Remaining(false, pairs[1..]));
    assert (pairs[0].0, pairs[0].1) == pairs[0];
  }

  lemma ReadableTail(syn: Alphabet, pairs: seq<(string, string)>)
    requires Readable(syn, pairs) && |pairs| > 0
    ensures Readable(syn, pairs[1..]) && syn.IsIdentifier(pairs[0].0) && |pairs[0].1| > 0 && Clean(syn, pairs[0].1)
  {
    forall i | 0 <= i < |pairs| - 1
      ensures pairs[1..][i] == pairs[i + 1]
    {
    }
  }

  /** From any point of the writer's output, the loop returns the remaining pairs and stops at the end. */
  lemma {:induction false} ReadPairsFrom(syn: Alphabet, acc: seq<(string, string)>, r: Reader, pairs: seq<(string, string)>)
    requires syn.Valid() && Readable(syn, pairs)
    requires r.start <= |r.chars| && r.chars[r.start..] == Remaining(r.firstProperty, pairs)
    ensures ReadPairs(syn, acc, r) == Success((acc + pairs, Final(r, pairs)))
    decreases |pairs|
  {
    if |pairs| == 0 {
      ReadPairsDone(syn, acc, r);
      assert acc + pairs == acc;
    } else {
      var r2 := ReadPairsFirst(syn, acc, r, pairs);
      ReadPairsFrom(syn, acc + [pairs[0]], r2, pairs[1..]);
      AppendFirst(acc, pairs);
    }
  }

  lemma AppendFirst<T>(acc: seq<T>, xs: seq<T>)
    requires |xs| > 0
    ensures acc + [xs[0]] + xs[1..] == acc + xs
  {
    assert [xs[0]] + xs[1..] == xs;
  }

  /**
   * Reading back a fresh writer's single-valued properties recovers every
   * (name, value) pair, in order, and consumes the whole text.
   */
  lemma SinglesRoundTrip(syn: Alphabet, pairs: seq<(string, string)>)
    requires syn.Valid() && Readable(syn, pairs)
    ensures MessageWriter.WriteAll(MessageWriter.Reset(""), Singles(pairs)).builder == MessageWriter.Render(Singles(pairs))
    ensures ReadPairs(syn, [], Reset(MessageWriter.Render(Singles(pairs)))) ==
              Success((pairs, Reader(MessageWriter.Render(Singles(pairs)), |MessageWriter.Render(Singles(pairs))|, |pairs| == 0, true)))
  {
    MessageWriter.WriteAllRenders("", Singles(pairs));
    assert "" + MessageWriter.Render(Singles(pairs)) == MessageWriter.Render(Singles(pairs));
    SinglesReadBack(syn, pairs);
  }

  /** The reading half of `SinglesRoundTrip`. */
  lemma SinglesReadBack(syn: Alphabet, pairs: seq<(string, string)>)
    requires syn.Valid() && Readable(syn, pairs)
    ensures var text := MessageWriter.Render(Singles(pairs));
            ReadPairs(syn, [], Reset(text)) == Success((pairs, Reader(text, |text|, |pairs| == 0, true)))
  {
    ReadPairsFrom(syn, [], Reset(MessageWriter.Render(Singles(pairs))), pairs);
    assert [] + pairs == pairs;
  }

  /**
   * As written, the second value of a multi-valued property is not read back:
   * after the first value the reader still expects '=' and meets '|'.
   */
  lemma MultiValuedLineDoesNotParse(syn: Alphabet, name: string, values: seq<string>)
    requires syn.Valid() && syn.IsIdentifier(name)
    requires |values| >= 2 && |values[0]| > 0 && Clean(syn, values[0])
    ensures var text := MessageWriter.Property(MessageWriter.Reset(""), name, values[..2]).builder;
            var r1 := Reader(text, |name|, false, true);
            && ReadPropertyName(syn, Reset(text)) == Success((name, r1))
            && ReadString(syn, r1) == Success((values[0], r1.(start := |name| + 1 + |values[0]|)))
            && ReadString(syn, r1.(start := |name| + 1 + |values[0]|)) == Failure(Expected(PROPERTY_EQUALS))
  {
    var v0, v1 := values[0], values[1];
    assert values[..2] == [v0, v1];
    var rest := [PROPERTY_DIV] + v1;
    var text := TwoValuesText(name, v0, v1);
    var r1 := Reader(text, |name|, false, true);
    var r2 := r1.(start := |name| + 1 + |v0|);
    PairName(syn, Reset(text), name, [PROPERTY_EQUALS] + v0 + rest);
    ValueStep(syn, r1, v0, rest);
    DropPrefix(text, |name|, [PROPERTY_EQUALS] + v0, rest);
    assert HasMore(r2) && r2.chars[r2.start] == PROPERTY_DIV;
  }

  /** What a fresh writer renders for one property with two values. */
  lemma TwoValuesText(name: string, v0: string, v1: string) returns (text: string)
    ensures text == MessageWriter.Property(MessageWriter.Reset(""), name, [v0, v1]).builder
    ensures text == Lead(true) + name + ([PROPERTY_EQUALS] + v0 + ([PROPERTY_DIV] + v1))
  {
    text := MessageWriter.Property(MessageWriter.Reset(""), name, [v0, v1]).builder;
    assert MessageWriter.Join([v0, v1]) == v0 + [PROPERTY_DIV] + v1;
  }

  /**
   * `readString` with the evidently intended flag update: once either
   * operator is consumed, the next value of the property expects '|'.
   */
  function ReadStringFixed(syn: Alphabet, r: Reader): Result<(string, Reader), ReadError> {
    var sr :- ReadString(syn, r);
    Success((sr.0, sr.1.(firstValue := false)))
  }

  /** The corrected read returns what `ReadString` returns, and then expects '|'. */
  lemma ReadStringFixedAgrees(syn: Alphabet, r: Reader)
    ensures ReadStringFixed(syn, r).Success? <==> ReadString(syn, r).Success?
    ensures ReadStringFixed(syn, r).Failure? ==> ReadStringFixed(syn, r) == ReadString(syn, r)
    ensures ReadStringFixed(syn, r).Success? ==>
              && ReadStringFixed(syn, r).value.0 == ReadString(syn, r).value.0
              && ReadStringFixed(syn, r).value.1 == ReadString(syn, r).value.1.(firstValue := false)
              && ValueOperator(ReadStringFixed(syn, r).value.1) == PROPERTY_DIV
  {
  }

  /** Reads the `n` values of one property with `ReadStringFixed`. */
  function ReadValuesFixed(syn: Alphabet, r: Reader, n: nat): (res: Result<(seq<string>, Reader), ReadError>)
    ensures res.Success? ==> |res.value.0| == n && res.value.1.chars == r.chars
    decreases n
  {
    if n == 0 then Success(([], r))
    else
      var first :- ReadStringFixed(syn, r);
      var others :- ReadValuesFixed(syn, first.1, n - 1);
      Success(([first.0] + others.0, others.1))
  }

  /** One value with the corrected reader: the cursor stops on what follows it. */
  lemma ValueStepFixed(syn: Alphabet, r: Reader, value: string, rest: string)
    requires r.start <= |r.chars| && r.chars[r.start..] == [ValueOperator(r)] + value + rest
    requires |value| > 0 && Clean(syn, value)
    requires |rest| == 0 || IsValueStop(rest[0])
    ensures var r1 := r.(start := |r.chars| - |rest|, firstValue := false);
            && ReadStringFixed(syn, r) == Success((value, r1))
            && r1.start <= |r1.chars| && r1.chars[r1.start..] == rest
  {
    ValueStep(syn, r, value, rest);
    DropPrefix(r.chars, r.start, [ValueOperator(r)] + value, rest);
  }

  lemma ReadValuesUnfold(syn: Alphabet, r: Reader, n: nat, value: string, r1: Reader, others: seq<string>, last: Reader)
    requires n > 0 && ReadStringFixed(syn, r) == Success((value, r1))
    requires ReadValuesFixed(syn, r1, n - 1) == Success((others, last))
    ensures ReadValuesFixed(syn, r, n) == Success(([value] + others, last))
  {
  }

  /** The first of several values: the cursor stops on the '|' before the second. */
  lemma ValuesHead(syn: Alphabet, r: Reader, values: seq<string>, rest: string) returns (r2: Reader)
    requires |values| >= 2 && |values[0]| > 0 && Clean(syn, values[0])
    requires r.start <= |r.chars| && r.chars[r.start..] == [ValueOperator(r)] + MessageWriter.Join(values) + rest
    ensures r2 == r.(start := r2.start, firstValue := false)
    ensures ReadStringFixed(syn, r) == Success((values[0], r2))
    ensures r2.start <= |r2.chars| && r2.chars[r2.start..] == [ValueOperator(r2)] + MessageWriter.Join(values[1..]) + rest
  {
    var tail := [PROPERTY_DIV] + MessageWriter.Join(values[1..]) + rest;
    assert r.chars[r.start..] == [ValueOperator(r)] + values[0] + tail;
    ValueStepFixed(syn, r, values[0], tail);
    r2 := r.(start := |r.chars| - |tail|, firstValue := false);
  }

  predicate CleanValues(syn: Alphabet, values: seq<string>) {
    forall i :: 0 <= i < |values| ==> |values[i]| > 0 && Clean(syn, values[i])
  }

  /** What `ValuesFrom` promises for one reader and value list. */
  predicate ReadsBack(syn: Alphabet, r: Reader, values: seq<string>, rest: string)
    requires r.start <= |r.chars| && |rest| <= |r.chars|
  {
    ReadValuesFixed(syn, r, |values|) == Success((values, Reader(r.chars, |r.chars| - |rest|, r.firstProperty, false)))
  }

  lemma ValuesFromMore(syn: Alphabet, r: Reader, values: seq<string>, rest: string, r2: Reader)
    requires |values| >= 2 && |rest| <= |r.chars| && r.start <= |r.chars|
    requires r2 == Reader(r.chars, r2.start, r.firstProperty, false) && r2.start <= |r2.chars|
    requires ReadStringFixed(syn, r) == Success((values[0], r2))
    requires ReadsBack(syn, r2, values[1..], rest)
    ensures ReadsBack(syn, r, values, rest)
  {
    var r1 := Reader(r2.chars, |r2.chars| - |rest|, r2.firstProperty, false);
    ReadValuesUnfold(syn, r, |values|, values[0], r2, values[1..], r1);
    assert [values[0]] + values[1..] == values;
  }

  lemma {:induction false} ValuesFrom(syn: Alphabet, r: Reader, values: seq<string>, rest: string)
    requires |values| >= 1 && CleanValues(syn, values)
    requires |rest| == 0 || rest[0] == PROPERTY_SEPARATOR
    requires r.start <= |r.chars| && r.chars[r.start..] == [ValueOperator(r)] + MessageWriter.Join(values) + rest
    ensures |rest| <= |r.chars| && ReadsBack(syn, r, values, rest)
    decreases |values|
  {
    assert |r.chars[r.start..]| >= |rest|;
    if |values| == 1 {
      var r1 := r.(start := |r.chars| - |rest|, firstValue := false);
      ValueStepFixed(syn, r, values[0], rest);
      ReadValuesUnfold(syn, r, 1, values[0], r1, [], r1);
      assert [values[0]] + [] == values;
    } else {
      var r2 := ValuesHead(syn, r, values, rest);
      assert CleanValues(syn, values[1..]) by {
        assert forall i :: 0 <= i < |values| - 1 ==> values[1..][i] == values[i + 1];
      }
      ValuesFrom(syn, r2, values[1..], rest);
      ValuesFromMore(syn, r, values, rest, r2);
    }
  }

  /**
   * With `ReadStringFixed`, every property the writer renders, with one to
   * four clean non-empty values, reads back value by value.
   */
  lemma MultiValuedRoundTripFixed(syn: Alphabet, name: string, values: seq<string>)
    requires syn.Valid() && syn.IsIdentifier(name)
    requires 1 <= |values| <= 4
    requires forall i :: 0 <= i < |values| ==> |values[i]| > 0 && Clean(syn, values[i])
    ensures var text := MessageWriter.Property(MessageWriter.Reset(""), name, values).builder;
            var r1 := Reader(text, |name|, false, true);
            && ReadPropertyName(syn, Reset(text)) == Success((name, r1))
            && ReadValuesFixed(syn, r1, |values|) == Success((values, Reader(text, |text|, false, false)))
  {
    var text := MessageWriter.Property(MessageWriter.Reset(""), name, values).builder;
    var after := [PROPERTY_EQUALS] + MessageWriter.Join(values);
    assert text == Lead(true) + name + after;
    PairName(syn, Reset(text), name, after);
    var r1 := Reader(text, |name|, false, true);
    assert r1.chars[r1.start..] == [ValueOperator(r1)] + MessageWriter.Join(values) + "";
    ValuesFrom(syn, r1, values, "");
    assert ReadsBack(syn, r1, values, "");
  }

  /**
   * As written, `read` never accepts what `write` produced: the reader starts
   * on the prefix character, which is either no identifier start or a
   * one-letter name followed by DATA_OPEN instead of '='.
   */
  lemma ReadOwnOutputFails(syn: Alphabet, prefix: char, pairs: seq<(string, string)>, e: seq<(string, string)>)
    requires syn.Valid() && Readable(syn, pairs)
    requires !syn.identPart(syn.dataOpen) && syn.dataOpen != PROPERTY_EQUALS
    ensures var message := EventData.Write(syn, prefix, Singles(pairs), "");
            && (ReadPropertyName(syn, Reset(message)).Failure? ||
                ReadPropertyName(syn, Reset(message)).value.0 == [prefix])
            && EventData.Read(syn, Some(MessageWriter.Render(Singles(pairs))), message, e, [], Collect(syn)).Failure?
  {
    var message := EventData.Write(syn, prefix, Singles(pairs), "");
    assert message[0] == prefix && message[1] == syn.dataOpen;
    CollectKeepsCursor(syn);
    var r := Reset(message);
    if syn.identStart(prefix) {
      assert IdentifierEnd(syn, message, 1) == 1;
      var r1 := Reader(message, 1, false, true);
      assert ReadPropertyName(syn, r) == Success((message[0..1], r1));
      assert message[0..1] == [prefix];
      assert ReadString(syn, r1) == Failure(Expected(PROPERTY_EQUALS));
    }
  }

  /**
   * With the reader over the extracted text, reading what `write` produced
   * for single-valued properties yields exactly the written pairs.
   */
  lemma ReadFixedRoundTrip(syn: Alphabet, prefix: char, pairs: seq<(string, string)>, e: seq<(string, string)>)
    requires syn.Valid() && Readable(syn, pairs)
    ensures var message := EventData.Write(syn, prefix, Singles(pairs), "");
            && message == [prefix, syn.dataOpen] + MessageWriter.Render(Singles(pairs)) + [syn.dataClose]
            && EventData.ReadFixed(syn, Some(MessageWriter.Render(Singles(pairs))), message, e, [], Collect(syn)) == Success((true, pairs))
  {
    RenderedPairsRead(syn, pairs);
    assert "" + [prefix, syn.dataOpen] == [prefix, syn.dataOpen];
  }

  /** The read loop over the rendered single-valued properties collects exactly the pairs. */
  lemma RenderedPairsRead(syn: Alphabet, pairs: seq<(string, string)>)
    requires syn.Valid() && Readable(syn, pairs)
    ensures var r := Reset(MessageWriter.Render(Singles(pairs)));
            EventData.ReadLoop(syn, [], r, Collect(syn)) == Success((pairs, Final(r, pairs)))
  {
    CollectKeepsCursor(syn);
    ReadPairsFrom(syn, [], Reset(MessageWriter.Render(Singles(pairs))), pairs);
    assert [] + pairs == pairs;
  }
}

=== FILE: session.dfy ===
/**
 * Configuration values read from system properties, and the handle state of
 * the default watcher. A property lookup is an `Option<string>` (`None` when
 * the property is unset); the scheduler is abstracted to whether an executor
 * exists and what became of the scheduled watcher task's handle.
 */
module Session {
  import opened Wrappers
  import Text

  /** `getProperty(name, String)`: the value, or the default when unset. */
  function StringProperty(value: Option<string>, default: string): (r: string)
    ensures value.None? ==> r == default
    ensures value.Some? ==> r == value.value
  {
    if value.None? then default else value.value
  }

  /** `getProperty(name, int)`: the parsed value, or the default when unset or not an `int` numeral. */
  function IntProperty(value: Option<string>, default: int): (r: int)
    ensures value.None? ==> r == default
    ensures value.Some? && Text.ParseInt(value.value).Some? ==> r == Text.ParseInt(value.value).value
    ensures value.Some? && Text.ParseInt(value.value).None? ==> r == default
  {
    if value.None? then default
    else match Text.ParseInt(value.value)
      case Some(v) => v
      case None => default
  }

  /** `getProperty(name, long)`: the parsed value, or the default when unset or not a `long` numeral. */
  function LongProperty(value: Option<string>, default: int): (r: int)
    ensures value.None? ==> r == default
    ensures value.Some? && Text.ParseLong(value.value).Some? ==> r == Text.ParseLong(value.value).value
    ensures value.Some? && Text.ParseLong(value.value).None? ==> r == default
  {
    if value.None? then default
    else match Text.ParseLong(value.value)
      case Some(v) => v
      case None => default
  }

  /** A property holding a written `long` reads back as that `long`, whatever the default. */
  lemma LongPropertyRoundTrip(n: int, default: int)
    requires Text.IsLong(n)
    ensures LongProperty(Some(Text.ShowLong(n)), default) == n
  {
    Text.ParseShowLong(n);
  }

  /**
   * A property holding a written `int` reads back as that `int`; a written
   * `long` beyond the `int` range is no `int` numeral and gives the default.
   */
  lemma IntPropertyRoundTrip(n: int, default: int)
    requires Text.IsLong(n)
    ensures Text.IsInt(n) ==> IntProperty(Some(Text.ShowLong(n)), default) == n
    ensures !Text.IsInt(n) ==> IntProperty(Some(Text.ShowLong(n)), default) == default
  {
    Text.ParseShowLong(n);
    Text.ParseDecimalRange(Text.ShowLong(n), Text.MIN_LONG, Text.MAX_LONG, Text.MIN_INT, Text.MAX_INT);
  }

  /** ASCII lower case; it decides `equalsIgnoreCase("true")` exactly, as no other character folds onto t, r, u or e. */
  function Lower(c: char): char {
    if 'A' <= c <= 'Z' then (c as int + 32) as char else c
  }

  /** `Boolean.parseBoolean`: "true" in any letter case. */
  predicate ParseBoolean(s: string) {
    |s| == 4 && Lower(s[0]) == 't' && Lower(s[1]) == 'r' && Lower(s[2]) == 'u' && Lower(s[3]) == 'e'
  }

  /** `getProperty(name, boolean)`: the default only when unset; any other text than "true" is false. */
  function BoolProperty(value: Option<string>, default: bool): (r: bool)
    ensures value.None? ==> r == default
    ensures value.Some? ==> (r <==> ParseBoolean(value.value))
  {
    if value.None? then default else ParseBoolean(value.value)
  }

  /** The text lower-cased character by character. */
  function LowerAll(s: string): (t: string)
    ensures |t| == |s| && forall i :: 0 <= i < |s| ==> t[i] == Lower(s[i])
  {
    seq(|s|, i requires 0 <= i < |s| => Lower(s[i]))
  }

  /** A set property reads as true exactly when its lower-cased text is "true". */
  lemma BoolPropertyIsLowerTrue(s: string, default: bool)
    ensures BoolProperty(Some(s), default) <==> LowerAll(s) == "true"
  {
    if LowerAll(s) == "true" {
      assert LowerAll(s)[0] == 't' && LowerAll(s)[1] == 'r' && LowerAll(s)[2] == 'u' && LowerAll(s)[3] == 'e';
    }
  }

  lemma BoolPropertyExamples()
    ensures BoolProperty(Some("TRUE"), false) && BoolProperty(Some("True"), false)
    ensures !BoolProperty(Some("yes"), true) && !BoolProperty(Some(""), true)
    ensures !BoolProperty(Some("true "), true)
  {
  }

  predicate EndsWith(s: string, suffix: string) {
    |s| >= |suffix| && s[|s| - |suffix|..] == suffix
  }

  /** A duration unit suffix: milliseconds, seconds, minutes, hours. */
  datatype Unit = Millis | Seconds | Minutes | Hours

  function Suffix(u: Unit): string {
    match u
    case Millis => "ms"
    case Seconds => "s"
    case Minutes => "m"
    case Hours => "h"
  }

  function Multiplier(u: Unit): int {
    match u
    case Millis => 1
    case Seconds => 1000
    case Minutes => 60 * 1000
    case Hours => 60 * 60 * 1000
  }

  /** The unit a value names, checked in the source's order: "ms" before "s", then "m", then "h". */
  function UnitOf(s: string): (u: Option<Unit>)
    ensures u.Some? ==> EndsWith(s, Suffix(u.value))
    ensures u.None? ==> forall v :: !EndsWith(s, Suffix(v))
    ensures u == Some(Seconds) ==> !EndsWith(s, "ms")
  {
    if EndsWith(s, "ms") then Some(Millis)
    else if EndsWith(s, "s") then Some(Seconds)
    else if EndsWith(s, "m") then Some(Minutes)
    else if EndsWith(s, "h") then Some(Hours)
    else None
  }

  /**
   * `getMillisecondsProperty`: unset or without a unit suffix gives the
   * default; otherwise what precedes the suffix is parsed as a `long` (a
   * failed parse gives the default) and multiplied, as a `long`, by the
   * unit's milliseconds.
   */
  function MillisecondsProperty(value: Option<string>, default: int): (r: int)
    ensures value.None? ==> r == default
    ensures value.Some? && UnitOf(value.value).None? ==> r == default
    ensures value.Some? && UnitOf(value.value).Some? ==>
              var u := UnitOf(value.value).value;
              var amount := Text.ParseLong(value.value[..|value.value| - |Suffix(u)|]);
              r == (if amount.None? then default else Text.WrapLong(amount.value * Multiplier(u)))
  {
    if value.None? then default
    else match UnitOf(value.value)
      case None => default
      case Some(u) =>
        match Text.ParseLong(value.value[..|value.value| - |Suffix(u)|])
        case None => default
        case Some(n) => Text.WrapLong(n * Multiplier(u))
  }

  /** A numeral ending in a digit, followed by a unit suffix, names that unit. */
  lemma UnitOfSuffixed(digits: string, u: Unit)
    requires |digits| >= 1 && Text.IsDigit(digits[|digits| - 1])
    ensures UnitOf(digits + Suffix(u)) == Some(u)
  {
    var s := digits + Suffix(u);
    assert s[|s| - |Suffix(u)|..] == Suffix(u);
    if u != Millis {
      assert s[|s| - 2] == digits[|digits| - 1];
    }
  }

  /** Writing a `long` followed by a unit suffix reads back as that many units in milliseconds. */
  lemma MillisecondsRoundTrip(n: int, u: Unit, default: int)
    requires Text.IsLong(n) && Text.IsLong(n * Multiplier(u))
    ensures MillisecondsProperty(Some(Text.ShowLong(n) + Suffix(u)), default) == n * Multiplier(u)
  {
    var digits := Text.ShowLong(n);
    var s := digits + Suffix(u);
    Text.ParseShowLong(n);
    UnitOfSuffixed(digits, u);
    assert s[..|s| - |Suffix(u)|] == digits;
  }

  /** A bare number, whose last character is a digit, has no unit and gives the default. */
  lemma BareNumberGivesDefault(s: string, default: int)
    requires |s| > 0 && Text.IsDigit(s[|s| - 1])
    ensures MillisecondsProperty(Some(s), default) == default
  {
    assert s[|s| - 1..] == [s[|s| - 1]];
  }

  /** "250ms" is 250 milliseconds, not a failed parse of "250m" as seconds. */
  lemma MillisBeforeSeconds()
    ensures MillisecondsProperty(Some("250ms"), 7) == 250
  {
    assert Text.NatDigits(2) == "2";
    assert Text.NatDigits(25) == "25";
    assert Text.ShowLong(250) + Suffix(Millis) == "250ms";
    MillisecondsRoundTrip(250, Millis, 7);
  }

  /** A suffix after something that is not a numeral gives the default. */
  lemma UnparseableGivesDefault()
    ensures MillisecondsProperty(Some("xs"), 7) == 7
  {
    assert "xs"[1..] == "s" && "xs"[0..] != "ms";
    assert UnitOf("xs") == Some(Seconds);
    assert "xs"[..1] == "x";
    assert Text.ParseLong("x").None?;
  }

  /** A unit suffix with nothing before it gives the default. */
  lemma BareSuffixGivesDefault()
    ensures MillisecondsProperty(Some("h"), 7) == 7
  {
    var s := "h";
    assert !EndsWith(s, "ms");
    assert s[0..] == s && s[0] == 'h';
    assert !EndsWith(s, "s") && !EndsWith(s, "m") && EndsWith(s, "h");
    assert UnitOf(s) == Some(Hours);
    assert s[..|s| - |Suffix(Hours)|] == "";
    assert Text.ParseLong("") == None;
  }

  // ---------------------------------------------------------------- default watcher

  /** What the scheduled-task handle holds: nothing, a live task, or a task that was cancelled. */
  datatype Handle = NoHandle | Scheduled | Cancelled

  /** The default watcher's two fields: whether an executor exists, and the watcher task handle. */
  datatype Watcher = Watcher(executor: bool, handle: Handle)

  /** At class initialisation the executor exists and nothing is scheduled. */
  const INITIAL: Watcher := Watcher(true, NoHandle)

  predicate Running(w: Watcher) {
    w.executor && w.handle == Scheduled
  }

  /** `startDefaultWatcher`: an executor is created if missing; the watcher task is scheduled only if there is no handle. */
  function StartWatcher(w: Watcher): (r: Watcher)
    ensures r.executor
    ensures w.handle == NoHandle ==> r.handle == Scheduled
    ensures w.handle != NoHandle ==> r.handle == w.handle
  {
    Watcher(true, if w.handle == NoHandle then Scheduled else w.handle)
  }

  /** `stopDefaultWatcher`: a task is cancelled and the executor dropped, but the handle is kept. */
  function StopWatcher(w: Watcher): (r: Watcher)
    ensures !r.executor && !Running(r)
    ensures (r.handle == NoHandle) <==> (w.handle == NoHandle)
  {
    Watcher(false, if w.handle == NoHandle then NoHandle else Cancelled)
  }

  /** Starting twice is starting once. */
  lemma StartIdempotent(w: Watcher)
    ensures StartWatcher(StartWatcher(w)) == StartWatcher(w)
  {
  }

  /** A first start runs the watcher. */
  lemma FirstStartRuns()
    ensures Running(StartWatcher(INITIAL))
  {
  }

  /**
   * As written, stopping keeps the cancelled handle, so a later start finds a
   * handle, recreates the executor and schedules nothing: the watcher stays
   * stopped.
   */
  lemma RestartDoesNotReschedule()
    ensures var restarted := StartWatcher(StopWatcher(StartWatcher(INITIAL)));
            !Running(restarted) && restarted.executor && restarted.handle == Cancelled
  {
  }

  /** The stop the start logic needs: cancel, drop the executor, and clear the handle. */
  function StopWatcherFixed(w: Watcher): (r: Watcher)
    ensures !r.executor && !Running(r) && r.handle == NoHandle
  {
    Watcher(false, NoHandle)
  }

  /** With the handle cleared on stop, a start after any stop runs the watcher again. */
  lemma RestartReschedulesFixed(w: Watcher)
    ensures Running(StartWatcher(StopWatcherFixed(w)))
    ensures !Running(StopWatcherFixed(StartWatcher(w)))
  {
  }
}

=== FILE: syntax.dfy ===
/**
 * The punctuation of the legacy wire format. Four characters are fixed by the
 * writer's expected output (';' between properties, '=' after a name, '|'
 * between values, '"' around a quoted string, escaped as `\"`). The others
 * are kept abstract: they travel in an `Alphabet` together with Java's
 * identifier classification (`Character.isJavaIdentifierStart/Part`).
 */
module Syntax {

  const PROPERTY_SEPARATOR: char := ';'
  const PROPERTY_EQUALS: char := '='
  const PROPERTY_DIV: char := '|'
  const STRING_DELIM: char := '"'
  const STRING_DELIM_QUOTED: string := "\\\""

  datatype Alphabet = Alphabet(
    quote: char,
    mapOpen: char,
    mapClose: char,
    mapSeparator: char,
    mapEqual: char,
    dataOpen: char,
    dataClose: char,
    identStart: char -> bool,
    identPart: char -> bool)
  {
    /** The abstract characters are pairwise distinct, and the fixed punctuation never continues an identifier. */
    predicate Valid() {
      var cs := [quote, mapOpen, mapClose, mapSeparator, mapEqual, dataOpen, dataClose];
      && (forall i, j :: 0 <= i < j < |cs| ==> cs[i] != cs[j])
      && !identPart(PROPERTY_SEPARATOR)
      && !identPart(PROPERTY_EQUALS)
      && !identPart(PROPERTY_DIV)
    }

    /** A Java identifier: a start character followed by part characters. */
    predicate IsIdentifier(s: string) {
      |s| > 0 && identStart(s[0]) && forall i :: 1 <= i < |s| ==> identPart(s[i])
    }
  }
}

=== FILE: text.dfy ===
/**
 * Java's textual rendering and parsing of integers (`Long.toString`,
 * `Long.parseLong`, `Integer.parseInt`), two's-complement wrap-around of
 * `long` and `int` arithmetic, and the text that string concatenation
 * produces for a `null` reference.
 */
module Text {
  import opened Wrappers

  const MIN_LONG: int := -0x8000_0000_0000_0000
  const MAX_LONG: int := 0x7FFF_FFFF_FFFF_FFFF
  const MIN_INT: int := -0x8000_0000
  const MAX_INT: int := 0x7FFF_FFFF

  predicate IsLong(n: int) {
    MIN_LONG <= n <= MAX_LONG
  }

  predicate IsInt(n: int) {
    MIN_INT <= n <= MAX_INT
  }

  /** The value a Java `long` holds after an arithmetic result `x` wraps around. */
  function WrapLong(x: int): (r: int)
    ensures IsLong(r)
    ensures (r - x) % 0x1_0000_0000_0000_0000 == 0
    ensures IsLong(x) ==> r == x
  {
    (x - MIN_LONG) % 0x1_0000_0000_0000_0000 + MIN_LONG
  }

  /** Wrapping ignores whole turns of 2^64. */
  lemma {:induction false} WrapLongShift(y: int, t: int)
    ensures WrapLong(y + 0x1_0000_0000_0000_0000 * t) == WrapLong(y)
    decreases if t < 0 then -t else t
  {
    if t > 0 {
      WrapLongShift(y, t - 1);
      assert y + 0x1_0000_0000_0000_0000 * t == (y + 0x1_0000_0000_0000_0000 * (t - 1)) + 0x1_0000_0000_0000_0000;
    } else if t < 0 {
      WrapLongShift(y, t + 1);
      assert y + 0x1_0000_0000_0000_0000 * t == (y + 0x1_0000_0000_0000_0000 * (t + 1)) - 0x1_0000_0000_0000_0000;
    }
  }

  /** A wrapping `long` multiplication of a wrapped value wraps like the whole product. */
  lemma WrapLongMul(x: int, k: int)
    ensures WrapLong(WrapLong(x) * k) == WrapLong(x * k)
  {
    var q := (x - MIN_LONG) / 0x1_0000_0000_0000_0000;
    assert WrapLong(x) == x - 0x1_0000_0000_0000_0000 * q;
    assert WrapLong(x) * k == x * k + 0x1_0000_0000_0000_0000 * (-(q * k));
    WrapLongShift(x * k, -(q * k));
  }

  /** The value a Java `int` holds after an arithmetic result `x` wraps around. */
  function WrapInt(x: int): (r: int)
    ensures IsInt(r)
    ensures (r - x) % 0x1_0000_0000 == 0
    ensures IsInt(x) ==> r == x
  {
    (x - MIN_INT) % 0x1_0000_0000 + MIN_INT
  }

  /** What `"" + o` yields for a possibly-null string. */
  function NullText(o: Option<string>): (s: string)
    ensures o.Some? ==> s == o.value
    ensures o.None? ==> s == "null"
  {
    match o
    case Some(v) => v
    case None => "null"
  }

  predicate IsDigit(c: char) {
    '0' <= c <= '9'
  }

  predicate AllDigits(s: string) {
    forall i :: 0 <= i < |s| ==> IsDigit(s[i])
  }

  function DigitValue(c: char): (d: nat)
    requires IsDigit(c)
    ensures d < 10
  {
    (c as int) - ('0' as int)
  }

  function DigitChar(d: nat): (c: char)
    requires d < 10
    ensures IsDigit(c) && DigitValue(c) == d
  {
    ('0' as int + d) as char
  }

  /** The number a string of decimal digits denotes (most significant digit first). */
  function DigitsValue(s: string): nat
    requires AllDigits(s)
  {
    if |s| == 0 then 0 else DigitsValue(s[..|s| - 1]) * 10 + DigitValue(s[|s| - 1])
  }

  /** The shortest decimal numeral of `n`. */
  function NatDigits(n: nat): (s: string)
    ensures |s| >= 1 && AllDigits(s)
    ensures DigitsValue(s) == n
    ensures s[0] == '0' ==> n == 0
  {
    if n < 10 then [DigitChar(n)]
    else
      var s := NatDigits(n / 10) + [DigitChar(n % 10)];
      assert s[..|s| - 1] == NatDigits(n / 10);
      s
  }

  /** `Long.toString(n)`: a minus sign for negative values, then the shortest numeral. */
  function ShowLong(n: int): (s: string)
    ensures |s| >= 1 && IsDigit(s[|s| - 1])
    ensures n >= 0 ==> AllDigits(s)
  {
    if n < 0 then "-" + NatDigits(-n) else NatDigits(n)
  }

  /** A numeral holds only digits, after a minus sign for a negative value. */
  lemma NumeralChars(n: int)
    ensures forall j :: 0 <= j < |ShowLong(n)| ==> IsDigit(ShowLong(n)[j]) || (j == 0 && n < 0 && ShowLong(n)[j] == '-')
  {
    var s := ShowLong(n);
    if n < 0 {
      assert s == "-" + NatDigits(-n);
      assert forall j :: 1 <= j < |s| ==> s[j] == NatDigits(-n)[j - 1];
    }
  }

  /** The position of the last `c` in `s`, if any (`lastIndexOf`). */
  function LastIndexOf(s: string, c: char): (i: Option<nat>)
    ensures i.Some? ==> i.value < |s| && s[i.value] == c && forall j :: i.value < j < |s| ==> s[j] != c
    ensures i.None? ==> forall j :: 0 <= j < |s| ==> s[j] != c
  {
    if |s| == 0 then None
    else if s[|s| - 1] == c then Some(|s| - 1)
    else LastIndexOf(s[..|s| - 1], c)
  }

  /** In `a`, `c`, `b` with no `c` in `b`, the last `c` is the one between. */
  lemma LastIndexOfJoined(a: string, c: char, b: string)
    requires c !in b
    ensures LastIndexOf(a + [c] + b, c) == Some(|a|)
  {
    NoneAfterJoint(a, c, b);
    LastIndexOfUnique(a + [c] + b, c, |a|);
  }

  /** Past the joint of `a`, `c`, `b` stand only the characters of `b`. */
  lemma NoneAfterJoint(a: string, c: char, b: string)
    requires c !in b
    ensures (a + [c] + b)[|a|] == c
    ensures forall j :: |a| < j < |a + [c] + b| ==> (a + [c] + b)[j] != c
  {
    var head := a + [c];
    assert head[|a|] == c;
    forall j | |a| < j < |head + b|
      ensures (head + b)[j] != c
    {
      assert (head + b)[j] == b[j - |head|];
    }
  }

  /** A `c` with no `c` after it is the last one. */
  lemma {:induction false} LastIndexOfUnique(s: string, c: char, i: nat)
    requires i < |s| && s[i] == c
    requires forall j :: i < j < |s| ==> s[j] != c
    ensures LastIndexOf(s, c) == Some(i)
    decreases |s|
  {
    if i < |s| - 1 {
      LastIndexOfUnique(s[..|s| - 1], c, i);
    }
  }

  /**
   * Java's decimal integer parse (`Long.parseLong` / `Integer.parseInt` with
   * the range [lo, hi]): an optional '+' or '-', then one or more digits, and
   * the value must lie in range; anything else is a NumberFormatException,
   * modelled as `None`.
   */
  function ParseDecimal(s: string, lo: int, hi: int): (r: Option<int>)
    ensures r.Some? ==> lo <= r.value <= hi
    ensures |s| == 0 ==> r.None?
    ensures r.Some? ==> forall i :: 0 < i < |s| ==> IsDigit(s[i])
  {
    if |s| == 0 then None
    else
      var body := if s[0] == '-' || s[0] == '+' then s[1..] else s;
      if |body| == 0 || !AllDigits(body) then None
      else
        var v: int := if s[0] == '-' then 0 - (DigitsValue(body) as int) else DigitsValue(body);
        if lo <= v <= hi then Some(v) else None
  }

  function ParseLong(s: string): (r: Option<int>)
    ensures r.Some? ==> IsLong(r.value)
  {
    ParseDecimal(s, MIN_LONG, MAX_LONG)
  }

  function ParseInt(s: string): (r: Option<int>)
    ensures r.Some? ==> IsInt(r.value)
  {
    ParseDecimal(s, MIN_INT, MAX_INT)
  }

  /** Parsing what `Long.toString` printed gives the number back. */
  lemma ParseShowLong(n: int)
    requires IsLong(n)
    ensures ParseLong(ShowLong(n)) == Some(n)
  {
    if n < 0 {
      var s := ShowLong(n);
      assert s[1..] == NatDigits(-n);
    }
  }

  /** The same parse, for values in the `int` range. */
  lemma ParseShowInt(n: int)
    requires IsInt(n)
    ensures ParseInt(ShowLong(n)) == Some(n)
  {
    if n < 0 {
      var s := ShowLong(n);
      assert s[1..] == NatDigits(-n);
    }
  }

  /** The parse does not depend on the range except through the final range test. */
  lemma ParseDecimalRange(s: string, lo: int, hi: int, lo': int, hi': int)
    requires ParseDecimal(s, lo, hi).Some?
    ensures var v := ParseDecimal(s, lo, hi).value;
            ParseDecimal(s, lo', hi') == (if lo' <= v <= hi' then Some(v) else None)
  {
  }

  /** Distinct longs print differently. */
  lemma ShowLongInjective(a: int, b: int)
    requires IsLong(a) && IsLong(b) && a != b
    ensures ShowLong(a) != ShowLong(b)
  {
    ParseShowLong(a);
    ParseShowLong(b);
  }
}

=== FILE: watcher_event.dfy ===
/**
 * The value semantics of a watcher event (uuid, counter, time): `reset`,
 * `equals`, `hashCode` and `toString`. Java references become explicit: an
 * event object carries an identity, and `equals` is asked of one event about
 * any object, which may be `null`, of another class, or another event.
 */
module WatcherEvent {
  import opened Wrappers
  import Text

  datatype Event = Event(uuid: Option<string>, counter: int, time: int)

  /** An event object: its identity and its fields. One identity has one set of fields. */
  datatype Ref = Ref(id: nat, event: Event)

  /** What `equals` may be handed. */
  datatype Object = Null | OfOtherClass(id: nat) | OfThisClass(ref: Ref)

  /** `reset()`: no uuid, counter and time 0. */
  function Reset(e: Event): (r: Event)
    ensures r.uuid.None? && r.counter == 0 && r.time == 0
  {
    Event(None, 0, 0)
  }

  /**
   * `equals(obj)`: the same object is equal; `null` and other classes are
   * not; otherwise the counters must agree and this uuid must be non-`null`
   * and equal to the other's. Time plays no part.
   */
  function Equals(me: Ref, obj: Object): (eq: bool)
    ensures obj.Null? || obj.OfOtherClass? ==> !eq
    ensures obj == OfThisClass(me) ==> eq
    ensures obj.OfThisClass? && obj.ref.id != me.id ==>
              (eq <==> me.event.counter == obj.ref.event.counter && me.event.uuid.Some?
                       && me.event.uuid == obj.ref.event.uuid)
  {
    match obj
    case Null => false
    case OfOtherClass(_) => false
    case OfThisClass(other) =>
      if other.id == me.id then true
      else if me.event.counter != other.event.counter then false
      else if me.event.uuid.None? then false
      else me.event.uuid == other.event.uuid
  }

  /** An event whose uuid is `null` equals only itself, even against an event with the same fields. */
  lemma NullUuidEqualsOnlyItself(me: Ref, obj: Object)
    requires me.event.uuid.None?
    ensures Equals(me, obj) <==> obj.OfThisClass? && obj.ref.id == me.id
  {
  }

  /** A reset event is such an event. */
  lemma ResetEqualsOnlyItself(id: nat, e: Event, other: Ref)
    requires other.id != id
    ensures !Equals(Ref(id, Reset(e)), OfThisClass(other))
    ensures Equals(Ref(id, Reset(e)), OfThisClass(Ref(id, Reset(e))))
  {
  }

  /** `equals` is symmetric between two events. */
  lemma EqualsSymmetric(a: Ref, b: Ref)
    requires a.id == b.id ==> a == b
    ensures Equals(a, OfThisClass(b)) <==> Equals(b, OfThisClass(a))
  {
  }

  // ---------------------------------------------------------------- hashing

  const TWO_64: int := 0x1_0000_0000_0000_0000

  /** `(int) (counter ^ (counter >>> 32))`: the low and high 32 bits of the `long`, exclusive-or'ed. */
  function LongHash(counter: int): (h: int)
    ensures Text.IsInt(h)
  {
    var bits := (counter % TWO_64) as bv64;
    var folded := bits ^ (bits >> 32);
    Text.WrapInt((folded & 0xFFFF_FFFF) as int)
  }

  /** `String.hashCode`: `h = 31 * h + c` over the characters, in `int` arithmetic. */
  function StringHash(s: string): (h: int)
    ensures Text.IsInt(h)
  {
    if |s| == 0 then 0 else Text.WrapInt(31 * StringHash(s[..|s| - 1]) + s[|s| - 1] as int)
  }

  /** `hashCode()`: 31 * (31 + the counter's hash) + the uuid's hash (0 for `null`), in `int` arithmetic. */
  function Hash(e: Event): (h: int)
    ensures Text.IsInt(h)
  {
    var counterPart := Text.WrapInt(31 * 1 + LongHash(e.counter));
    Text.WrapInt(31 * counterPart + (if e.uuid.None? then 0 else StringHash(e.uuid.value)))
  }

  /** The hash ignores the time: events differing only in time hash alike. */
  lemma HashIgnoresTime(e: Event, t: int)
    ensures Hash(e.(time := t)) == Hash(e)
  {
  }

  /** Equal events have equal hashes. */
  lemma EqualsImpliesEqualHash(me: Ref, other: Ref)
    requires me.id == other.id ==> me == other
    requires Equals(me, OfThisClass(other))
    ensures Hash(me.event) == Hash(other.event)
  {
  }

  lemma HashExample()
    ensures Hash(Event(None, 0, 5)) == 961
  {
    assert LongHash(0) == 0;
  }

  // ---------------------------------------------------------------- text

  /** `toString()`: the uuid (`"null"` when absent), a colon, and the counter in decimal. */
  function Show(e: Event): string {
    Text.NullText(e.uuid) + ":" + Text.ShowLong(e.counter)
  }

  /**
   * Reading `toString` back: the text before the last ':' and the `long`
   * after it. A uuid may itself hold ':', the numeral never does.
   */
  function ParseShown(s: string): (r: Option<(string, int)>)
    ensures r.Some? ==> Text.IsLong(r.value.1)
  {
    match Text.LastIndexOf(s, ':')
    case None => None
    case Some(i) =>
      match Text.ParseLong(s[i + 1..])
      case None => None
      case Some(n) => Some((s[..i], n))
  }

  /** `toString` reads back to the uuid text and the counter, whatever the uuid holds. */
  lemma ShowParses(e: Event)
    requires Text.IsLong(e.counter)
    ensures ParseShown(Show(e)) == Some((Text.NullText(e.uuid), e.counter))
  {
    var head := Text.NullText(e.uuid);
    var digits := Text.ShowLong(e.counter);
    var s := Show(e);
    Text.NumeralChars(e.counter);
    assert s[|head|] == ':';
    assert forall j :: |head| < j < |s| ==> s[j] == digits[j - |head| - 1];
    assert Text.LastIndexOf(s, ':') == Some(|head|);
    assert s[|head| + 1..] == digits;
    assert s[..|head|] == head;
    Text.ParseShowLong(e.counter);
  }
}

=== FILE: wrappers.dfy ===
/** Failure-compatible Option and Result types shared by every module of the model. */
module Wrappers {

  /** A value that may be absent; `None` stands for Java's `null`. */
  datatype Option<+T> = None | Some(value: T) {

    predicate IsFailure() {
      None?
    }

    function PropagateFailure<U>(): Option<U>
      requires None?
    {
      None
    }

    function Extract(): T
      requires Some?
    {
      value
    }

    /** The carried value, or `default` when absent. */
    function GetOr(default: T): T {
      match this
      case Some(v) => v
      case None => default
    }
  }

  /** The outcome of an operation that may throw: a value, or the error it threw. */
  datatype Result<+R, +E> = Success(value: R) | Failure(error: E) {

    predicate IsFailure() {
      Failure?
    }

    function PropagateFailure<U>(): Result<U, E>
      requires Failure?
    {
      Failure(error)
    }

    function Extract(): R
      requires Success?
    {
      value
    }
  }
}
